=== FILE: README.md ===
# Meshroom to Tractor job compiler, in Dafny

The Tractor submitter of Meshroom turns a graph of Meshroom nodes into a
Tractor job. This project models the part of it that is pure logic, and
proves properties of that model:

- **Chunk planning** (`TaskInfos.getChunks`). A node's iteration range is
  cut into packets, and each packet is numbered by its position.
- **Argument building** (`base.py`):
  - rez package resolution and `rez env` wrapping of commands;
  - `setenv` environment keys and licence limits;
  - `TaskInfos` and its `cook` with its three kinds of command;
  - `ChunkTaskInfos.cook` for one chunk;
  - `JobInfos` and its `cook`.
- **The task graph and its compiler** (`tractorJobCreation.py`):
  - `Task`, with its identity and its child and parent sets;
  - `TaskGraph.roots` and `TaskGraph.leaves`;
  - `cookTractorTask`, and `TaskGraph.cookTask`, which is memoised by uid;
  - `TaskGraph.cook`, `Job.createTask` and `Job.cook`;
  - `Job.submit`: the share it writes into the job's infos, the priority
    and the owner.
- **Service selection** (`get_config`). CPU, GPU and RAM levels are mapped
  to a Tractor service expression.
- **Subtask records** (`subtaskCreator.py`):
  - the cached output channel of `_getCachedSubtaskStdout`;
  - the Alfred `Task … -cmds { RemoteCmd … }` text of `queueSubtask`;
  - the per-chunk loop of `queueChunkTask`.

The environment (`os.environ`) is an explicit `map<string, string>`. Every
Python exception is an `Err` of `Results.Result`. The Tractor author API is
modelled as a store of tasks, each with its keyword arguments, its commands
and a list of child handles (`Author`).

Modules, one per file: `Results`, `Text` (split, join, whitespace words,
`str`/`int` of integers), `Dicts` (insertion-ordered dicts and their JSON
text), `Lists`, `Chunks`, `Rez`, `Infos`, `Author`, `Graph`, `Compiler`,
`ServiceConfig`, `Subtasks`.

Three details of the code shape the model:

- `getChunks` returns `None` for an empty range, not an empty list.
- Two tasks are the same task when their identity sets
  `{"TractorTask", name, uid}` are equal, so duplicates are found by name
  and uid together.
- The memo of `cookTask` is keyed by uid alone.

## Model

| member | source | states |
|---|---|---|
| Chunks.GetChunks | meshroom/tractorSubmitter/api/base.py:232-243 | None for absent or empty parameters and for an empty range (end < start, so also for the defaults -1/-2); an error exactly for a non-empty range with packet size 0; an empty list for a negative size |
| Chunks.PlanIsGetChunks | meshroom/tractorSubmitter/api/base.py:236-242 | for a non-empty range and a positive size, getChunks is the packet plan of [start, end] |
| Chunks.PlanShape | meshroom/tractorSubmitter/api/base.py:237-242 | there are ceil((end-start+1)/size) chunks, and chunk i spans [start+i·size, min(start+(i+1)·size-1, end)] |
| Chunks.PlanContiguous | meshroom/tractorSubmitter/api/base.py:239-242 | the first chunk starts at start, the last ends at end, chunk i has iteration i, and each chunk begins right after the previous one ends |
| Chunks.PlanOrdered | meshroom/tractorSubmitter/api/base.py:239-242 | an earlier chunk lies strictly before a later one, so no two chunks overlap |
| Chunks.PlanCovers | meshroom/tractorSubmitter/api/base.py:239-242 | a frame lies in [start, end] if and only if some chunk contains it |
| Chunks.ExampleZeroToNine | meshroom/tractorSubmitter/api/base.py:232-243 | start 0, end 9, packet size 3 give the chunks (0,0,2), (1,3,5), (2,6,8), (3,9,9) |
| Chunks.StepIgnored | meshroom/tractorSubmitter/api/base.py:237-238 | the "step" key has no effect on the chunks |
| Rez.ResolvedEntryFirstHyphen | meshroom/tractorSubmitter/api/base.py:52-59 | a REZ_RESOLVE entry is dropped when it starts with ~ or has no hyphen; otherwise it is split at its first hyphen, and the rest, later hyphens included, is the version |
| Rez.VersionsOfKeys | meshroom/tractorSubmitter/api/base.py:51-60 | a package is in the resolved dict if and only if some entry names it |
| Rez.VersionsOfLastWins | meshroom/tractorSubmitter/api/base.py:52-59 | the recorded version is that of the last entry naming the package |
| Rez.UsedNames | meshroom/tractorSubmitter/api/base.py:74-80 | the used names, without duplicates, are the part before the first version operator of each request not starting with ~ or ! |
| Rez.PinNames | meshroom/tractorSubmitter/api/base.py:82-84 | succeeds if and only if every used name has a resolved version; the result holds exactly name + delimiter + version for each; otherwise it is the KeyError of a missing name |
| Rez.RequestPackages | meshroom/tractorSubmitter/api/base.py:63-88 | without REZ_REQUEST: meshroom pinned to REZ_MESHROOM_VERSION when that is set, no package otherwise |
| Rez.RequestedPinned | meshroom/tractorSubmitter/api/base.py:72-84 | with REZ_REQUEST: fails if and only if a counted request has no resolved version; on success holds exactly the pinned counted requests |
| Rez.PinnedRequests | meshroom/tractorSubmitter/api/base.py:72-84 | pinning the counted requests of any request list fails exactly when one has no resolved version, and otherwise yields exactly name, delimiter, version for each of them |
| Rez.RezBin | meshroom/tractorSubmitter/api/base.py:114-118 | REZ_BIN, else bin/rez under REZ_PACKAGES_ROOT, else "rez" (as intended; see Findings) |
| Rez.RezBinAsWrittenIgnoresRoot | meshroom/tractorSubmitter/api/base.py:117-118 | as written, the executable is "/bin/rez" whatever REZ_PACKAGES_ROOT holds |
| Rez.WrapPackages | meshroom/tractorSubmitter/api/base.py:102-112 | no duplicate and no empty name; the names are those of the chosen context plus the extra packages; fails only when the requested context does |
| Rez.RezWrapCommand | meshroom/tractorSubmitter/api/base.py:91-120 | the command comes back unchanged exactly when there is no package; otherwise it is prefixed by "<rez executable> env <packages> --", the executable being the corrected RezBin; it always ends with the command |
| Rez.WrappedWords | meshroom/tractorSubmitter/api/base.py:119 | the words of a wrapped command end with the words of the command |
| Infos.ToTractorEnv | meshroom/tractorSubmitter/api/base.py:123-125 | one entry per environment variable, in order |
| Infos.EnvKeyRoundTrip | meshroom/tractorSubmitter/api/base.py:125 | each `setenv key=value` entry reads back as the variable and value it came from |
| Infos.GetLimits | meshroom/tractorSubmitter/api/base.py:224-230 | each licence maps through the licence table in order, unknown names pass through, and DEFAULT_TRACTOR_LIMIT is appended last when set |
| Infos.ResolveService | meshroom/tractorSubmitter/api/base.py:212-214 | the given service, else a non-empty DEFAULT_TRACTOR_SERVICE, else the EnvironmentError |
| Infos.NewTaskInfos | meshroom/tractorSubmitter/api/base.py:199-222 | fails exactly on a missing service or an invalid chunk description; tags gain nodeUid = uid and keep every other key; an expanding task has chunks []; otherwise the chunks are those of getChunks |
| Infos.ExpandWrappedCmd | meshroom/tractorSubmitter/api/base.py:268-279 | the wrapper script is run by the interpreter on the rez-wrapped `meshroom_createChunks --submitter Tractor` command; MR_SUBMITTERS_SCRITPS missing is a KeyError |
| Infos.CookTaskInfos | meshroom/tractorSubmitter/api/base.py:281-298 | argv is None exactly for a chunked task that is not expanding; an expanding task's argv is the split of the wrapper command, a simple task's the split of the rez-wrapped `meshroom_compute` command; fails exactly when the chosen command cannot be built; title, service and metadata are the task's |
| Infos.CookedArgvTail | meshroom/tractorSubmitter/api/base.py:281-292 | the argv of an expanding task ends with `meshroom_createChunks --submitter Tractor <args>`; that of a simple task ends with `meshroom_compute <args>` |
| Infos.CookChunk | meshroom/tractorSubmitter/api/base.py:312-326 | the title is `<name>_<start>_<end>`; argv is the split of the rez-wrapped `meshroom_compute <args> --iteration <i>`; the task's service; metadata is the task's tags plus iteration, all other keys unchanged; fails exactly when rez wrapping does |
| Infos.ChunkTitleReadsBack | meshroom/tractorSubmitter/api/base.py:313 | the last two `_` fields of the chunk title read back as the chunk's start and end |
| Infos.ChunkArgvEndsWithIteration | meshroom/tractorSubmitter/api/base.py:315-317 | the chunk's argv ends with `--iteration <i>`, rez wrapping included |
| Infos.GetShare | meshroom/tractorSubmitter/api/base.py:175-182 | a given share becomes a one-element list; otherwise DEFAULT_FARM_SHARE_TRACTOR split on commas, into names without a comma that join back into it; otherwise the empty value |
| Infos.NewJobInfos | meshroom/tractorSubmitter/api/base.py:160-173 | fails exactly on a missing service; the user defaults to the current user; the environment gains FARM_USER = user and keeps every other key |
| Infos.JobEnvKeyHasFarmUser | meshroom/tractorSubmitter/api/base.py:170-191 | the cooked job's envkey holds `setenv FARM_USER=<user>` |
| Author.SetCmds | meshroom/tractorSubmitter/api/tractorJobCreation.py:45-48 | every command of the task gets the limits and envkey, and the expand flag when given; argv and all other tasks are unchanged |
| Graph.SameNameAndUidSameIdent | meshroom/tractorSubmitter/api/tractorJobCreation.py:69-73 | tasks with the same name and uid are equal |
| Graph.SwappedNameAndUidSameIdent | meshroom/tractorSubmitter/api/tractorJobCreation.py:69-73 | a task whose name is another's uid, and conversely, equals it too, because the identity is an unordered set |
| Graph.SameIdentSameNames | meshroom/tractorSubmitter/api/tractorJobCreation.py:69-73 | apart from that swap, equal tasks have equal name and uid |
| Graph.AddTask | meshroom/tractorSubmitter/api/tractorJobCreation.py:82-83 | set insertion by identity: the identities grow by the new one, stay unique, and an equal task already present leaves the set as it was |
| Graph.AddChild | meshroom/tractorSubmitter/api/tractorJobCreation.py:75-83 | a task or a list, nested lists included, adds every task it holds in turn; the parent's children gain the tasks, each added task gains the parent, and no other link changes |
| Graph.LinkAllConcat | meshroom/tractorSubmitter/api/tractorJobCreation.py:78-80 | linking two lists of tasks in turn is linking their concatenation |
| Graph.AddChildNone | meshroom/tractorSubmitter/api/tractorJobCreation.py:78-80 | adding an empty list of children changes nothing |
| Graph.AddChildEach | meshroom/tractorSubmitter/api/tractorJobCreation.py:78-80 | adding a list, nested lists included, adds its first item and then the rest, as the loop over the list does |
| Graph.AddChildLinks | meshroom/tractorSubmitter/api/tractorJobCreation.py:75-83 | after addChild, a has child x iff it had it before or a is the parent and x an added task; likewise for parents |
| Graph.AddChildSymmetric | meshroom/tractorSubmitter/api/tractorJobCreation.py:75-83 | addChild keeps child and parent links mirror images |
| Graph.Orphans | meshroom/tractorSubmitter/api/tractorJobCreation.py:101-103 | the roots are exactly the created tasks without a parent |
| Graph.Childless | meshroom/tractorSubmitter/api/tractorJobCreation.py:105-107 | the leaves are exactly the created tasks without a child |
| Graph.LinkedNotRootNotLeaf | meshroom/tractorSubmitter/api/tractorJobCreation.py:101-107 | after parent.addChild(child), the child is no root and the parent no leaf |
| Graph.NewJob | meshroom/tractorSubmitter/api/tractorJobCreation.py:134-145 | a job starts with an empty graph and the share resolved from the environment; fails exactly on a missing service |
| Graph.FindIdent | meshroom/tractorSubmitter/api/tractorJobCreation.py:164-167 | finds a task equal to the given one if and only if there is one |
| Graph.CreateTask | meshroom/tractorSubmitter/api/tractorJobCreation.py:147-169 | an existing equal task is returned with the job unchanged; otherwise the new task is appended; the identities stay unique |
| Compiler.CookChunks | meshroom/tractorSubmitter/api/tractorJobCreation.py:37-38 | every chunk is cooked in order; fails exactly when some chunk fails |
| Compiler.AddChunkTasks | meshroom/tractorSubmitter/api/tractorJobCreation.py:37-43 | one new subtask of the node's task per chunk, in order, each with its chunk's arguments and commands carrying the limits and envkey |
| Compiler.BuildTractorTask | meshroom/tractorSubmitter/api/tractorJobCreation.py:33-51 | the node's task is new; a chunked node has exactly its chunk tasks as children; an unchunked node's commands carry limits, envkey and the expand flag; nothing existing changes |
| Compiler.CookNodeArgs | meshroom/tractorSubmitter/api/tractorJobCreation.py:33-38 | the node's arguments, and per chunk the chunk with its cooked arguments; chunk arguments are present iff the task is chunked |
| Compiler.CookTractorTask | meshroom/tractorSubmitter/api/tractorJobCreation.py:26-51 | a chunked node gets one subtask per chunk, in chunk order, each with that chunk's arguments; an unchunked node gets none |
| Compiler.AttachChild | meshroom/tractorSubmitter/api/tractorJobCreation.py:117-121 | the child is linked under every chunk task when there are some, under the task itself otherwise |
| Compiler.CookTask | meshroom/tractorSubmitter/api/tractorJobCreation.py:109-122 | a memoised uid returns its task and changes nothing; otherwise the node is memoised, its children cooked and linked, and the store and memo only grow |
| Compiler.CookTaskCarries | meshroom/tractorSubmitter/api/tractorJobCreation.py:26-51 | a node cooked afresh is memoised with a task holding the node's cooked arguments and one chunk task per cooked chunk, with that chunk and its arguments |
| Compiler.CookTaskMade | meshroom/tractorSubmitter/api/tractorJobCreation.py:109-122 | cookTask keeps every memoised task carrying the cooked arguments of a node with its uid |
| Compiler.CookChildren | meshroom/tractorSubmitter/api/tractorJobCreation.py:115-121 | every child from position i on is memoised and linked under the parent |
| Compiler.CookTaskComplete | meshroom/tractorSubmitter/api/tractorJobCreation.py:109-122 | after cookTask every memoised node, apart from those still being cooked, has all its children linked |
| Compiler.GraphCook | meshroom/tractorSubmitter/api/tractorJobCreation.py:124-130 | every root is cooked and linked under the job task |
| Compiler.JobTasks | meshroom/tractorSubmitter/api/tractorJobCreation.py:171-183 | the job task is first and holds every root; a job without tasks always cooks and gets the dummy task as second top-level task |
| Compiler.JobCookShape | meshroom/tractorSubmitter/api/tractorJobCreation.py:174-177 | the job task is titled after the job and has no command; serialsubtasks holds iff the graph has exactly one leaf |
| Compiler.JobTasksKeepDependencies | meshroom/tractorSubmitter/api/tractorJobCreation.py:109-130 | every dependency of a cooked node is kept: the child is cooked and linked under the node's task or under each of its chunk tasks |
| Compiler.JobTasksCarryArgs | meshroom/tractorSubmitter/api/tractorJobCreation.py:124-130 | after the graph is cooked, every memoised task holds the cooked arguments of a node with its uid, chunk by chunk |
| Compiler.PriorityOf | meshroom/tractorSubmitter/api/tractorJobCreation.py:191 | low is 4000, high 10000, anything else 5000 |
| Compiler.PriorityOrder | meshroom/tractorSubmitter/api/base.py:33-37 | low < normal < high, and an unknown name gets the normal priority |
| Compiler.Submit | meshroom/tractorSubmitter/api/tractorJobCreation.py:185-199 | a given share replaces the job's share as is and stays in the job afterwards; fails exactly when cooking the job does; the spooled job's projects are the share; the priority and owner are those of the job |
| Compiler.SubmitShareSticks | meshroom/tractorSubmitter/api/tractorJobCreation.py:187-188 | a later submit without a share spools the share an earlier submit gave |
| ServiceConfig.LevelOf | config/tractorConfig.py:77-82 | a level exists exactly for -1 to 3, with that value; anything else is a ValueError |
| ServiceConfig.LevelRoundTrip | config/tractorConfig.py:77-82 | every level is found again from its value |
| ServiceConfig.Exclusions | config/tractorConfig.py:130 | each excluded host becomes !host, in order |
| ServiceConfig.GetConfig | config/tractorConfig.py:115-131 | the script shortcut; otherwise fails iff the chosen level or the RAM level is outside 0..3, a SCRIPT RAM level being the KeyError |
| ServiceConfig.AssembleSplits | config/tractorConfig.py:125-130 | when no part holds a comma, splitting the assembled service string on commas gives back the level requirements, the RAM requirement when non-empty and the host exclusions, in order |
| ServiceConfig.GetConfigSplits | config/tractorConfig.py:125-130 | split on commas, the result is the level's requirements, the RAM requirement when non-empty, then !host per excluded host, in order |
| ServiceConfig.GetConfigStartsWithRender | config/tractorConfig.py:86-125 | every non-script result starts with mikrosRender |
| ServiceConfig.GpuIgnoresCpu | config/tractorConfig.py:119-124 | with a GPU level the CPU level plays no part |
| ServiceConfig.CpuLevelsNested | config/tractorConfig.py:87-92 | the CPU table's requirements only grow with the level |
| Subtasks.SubtaskStdout | meshroom/tractorSubmitter/api/subtaskCreator.py:35-51 | an open channel is reused; a missing variable is FileNotFoundError; an integer outside the C int range is the OverflowError os.fdopen raises, which the except clause does not catch; any other value that is not an integer or cannot be opened is RuntimeError |
| Subtasks.ChannelReused | meshroom/tractorSubmitter/api/subtaskCreator.py:40-51 | once opened, later calls return the same descriptor whatever the environment |
| Text.GroupingUnderscore | meshroom/tractorSubmitter/api/subtaskCreator.py:43 | like Python's int, the descriptor text "1_0" reads as 10 |
| Text.MisplacedUnderscores | meshroom/tractorSubmitter/api/subtaskCreator.py:43 | like Python's int, "1__0", "_1" and "1_" are not integers |
| Text.SeparatorsTrimmed | meshroom/tractorSubmitter/api/subtaskCreator.py:43 | like Python's int, the separators 0x1C to 0x1F around the digits are stripped as white space |
| Text.SeparatorsSplitWords | meshroom/tractorSubmitter/api/base.py:50 | like str.split(), the separators 0x1C to 0x1F split words |
| Subtasks.ChannelFromEnv | meshroom/tractorSubmitter/api/subtaskCreator.py:41-45 | a descriptor written in decimal that fits a C int and can be opened opens the channel on that descriptor |
| Subtasks.ChannelOverflow | meshroom/tractorSubmitter/api/subtaskCreator.py:43-47 | a descriptor written in decimal outside the C int range, such as 2147483648, is an OverflowError, not RuntimeError |
| Subtasks.ListClause | meshroom/tractorSubmitter/api/subtaskCreator.py:118-130 | the -tags or -envkey clause is absent iff the list is empty; otherwise it is the list space-joined in braces |
| Subtasks.ServiceClause | meshroom/tractorSubmitter/api/subtaskCreator.py:133 | the -service clause is absent iff the service is empty |
| Subtasks.ListClauseRoundTrip | meshroom/tractorSubmitter/api/subtaskCreator.py:118-130 | a non-empty clause is the flag, a space and a braced list; the text between the braces splits back into the items when no item holds a space |
| Subtasks.CmdTextKeepsWords | meshroom/tractorSubmitter/api/subtaskCreator.py:110-115 | the command text of a command line has the line's words |
| Subtasks.SubtaskRecordLines | meshroom/tractorSubmitter/api/subtaskCreator.py:136-140 | a record is exactly five lines (empty, Task line, RemoteCmd line, closing brace, empty) when no field holds a line break |
| Subtasks.QueueSubtask | meshroom/tractorSubmitter/api/subtaskCreator.py:85-143 | succeeds iff the channel can be had; the channel is then open and the record sent is the subtask's record |
| Subtasks.ChunkSubtaskRecord | meshroom/tractorSubmitter/api/subtaskCreator.py:167-172 | a queued chunk has an argv, leaves the channel open and sends the chunk's record with the node's limits and envkey |
| Subtasks.QueueChunks | meshroom/tractorSubmitter/api/subtaskCreator.py:164-172 | one record per chunk; the first failing cook or send ends the loop with its error |
| Subtasks.QueueChunksRecord | meshroom/tractorSubmitter/api/subtaskCreator.py:164-172 | on success every chunk was cooked and sent, and record k is what was sent for chunk k |
| Subtasks.BlockPlan | meshroom/tractorSubmitter/api/subtaskCreator.py:148-150 | with more than one block there is one chunk per block, chunk k covering block k |
| Subtasks.QueueChunkTask | meshroom/tractorSubmitter/api/subtaskCreator.py:146-172 | a missing service fails; at most one block fails since there are no chunks to iterate; on success there is one record per block |
| Subtasks.QueueChunkTaskRecord | meshroom/tractorSubmitter/api/subtaskCreator.py:164-172 | record k is the record of block k, titled name_k_k |

## Left out

- I/O is left out: `print`, logging, `sendTractorCmd`, `os.fdopen` and the writes on the channel. The model returns the record text and the channel state. Which descriptors can be opened is a parameter (`openable`).
- The `"file"` expand mode and `_getCachedTaskFile` are left out. The mode is fixed to `"stdout"`, and the function is documented as unused.
- `createTmpFolder` and `_setExpandingTaskFile` are left out: filesystem, and unused.
- `script/tractorSubtaskWrapper.py` is left out: process supervision and pipes.
- `tractorSubmitter.py`, `simpleFarmSubmitter.py`, the credential UI, `tractorJobQuery.py` and the test scripts are not part of this model.
- The Tractor author API (`Job`, `Task`, `newTask`, `spool`, `asTcl`) is modelled as a store of tasks with child lists. Spooling returns the `Submission` and no job id.
- `sys.executable` is a parameter (`python`). `getpass.getuser()` is a parameter too (`currentUser`).
- `shlex.split` is modelled as a split on white space. Quoting and escapes are not modelled.
- `json.dumps` is modelled as a simplified encoder without string escaping.
- Python sets (rez packages, `_children`, `_parents`, `_tasks`) iterate in an unspecified order. The model uses insertion order, so only the order of packages and of tasks can differ from the code.
- Hash collisions between different identity sets are not modelled. Equality of tasks is equality of their identity sets.
- Graphs with cycles are not checked. A node that is never reachable from a root is never cooked. Both match the code.
- Compiler.JobTasksKeepDependencies: stated under `UidsDetermineNames`. The memo is keyed by uid. If two different tasks share a uid, the second is never cooked and its children are not linked, which is what the code does.
- Compiler.JobTasks: the job task and the dummy task are given only the keyword arguments the code passes. The author API's defaults for the others are not modelled.
- Subtasks.QueueChunkTask: the node's name, uid, block count and licences are inputs. Meshroom's node model that supplies them is not part of this model.
- Infos.GetShare: only string shares are modelled. A list passed as `share` is not.
- `Job.submit` with `dryRun` and `block` is left out: it only logs or spools.
- Compiler.Submit: every cook in the model starts from an empty memo. The code's `TaskGraph.__cooked` is created once per graph (tractorJobCreation.py:96) and kept across `Job.cook` calls. So on a second submit of the same job, the code reuses the first cook's task for every uid it already cooked, does not cook that node's children again (so a child added in between is never cooked), and ignores a changed environment for those nodes. The model cooks every node afresh. The share that `Submit` writes does not depend on the memo.
- Rez.RezWrapCommand: the rez executable is the corrected `RezBin`, `<REZ_PACKAGES_ROOT>/bin/rez`, not the `/bin/rez` the code builds when only REZ_PACKAGES_ROOT is set (see Findings). `WrappedWords` and every wrapped command downstream model the corrected program.
- Subtasks.SubtaskStdout: Python's `int()` also accepts non-ASCII digits and non-ASCII white space (such as U+0085, U+00A0 and U+3000) around the number. The model reads ASCII digits, a sign, grouping underscores and the ASCII white space of `str.isspace()` only, 0x1C to 0x1F included. Descriptor text with non-ASCII digits or white space is a RuntimeError in the model.
- Text.Words: `str.split()` also splits on non-ASCII white space. The model splits on the ASCII white space of `str.isspace()` only.
- Infos.NewJobInfos: the code writes FARM_USER into the caller's dict when one is given (base.py:172-173), so the caller sees the change. The model has no aliasing and returns a new environment.

## Findings

| source | as written | input that shows it | evidently intended | confidence | as-written member | corrected member |
|---|---|---|---|---|---|---|
| meshroom/tractorSubmitter/api/base.py:118 | `os.path.join(REZ_PACKAGES_ROOT, "/bin/rez")`: the second part is absolute, so the join discards the root | REZ_BIN unset, REZ_PACKAGES_ROOT = "/opt/rez" gives "/bin/rez" | the `bin/rez` executable under REZ_PACKAGES_ROOT, "/opt/rez/bin/rez" | not executed | Rez.RezBinAsWrittenIgnoresRoot | Rez.RezBin |

=== FILE: author.dfy ===
/** The part of the Tractor author API the submitter drives: tasks created
    from keyword arguments, subtasks, child links and the commands of a task.
    Tasks live in a store and are referred to by their position in it. */
module Author {
  import opened Results
  import opened Infos

  /** A command of a task, with the attributes the submitter sets. */
  datatype Cmd = Cmd(argv: seq<string>, tags: seq<string>, envkey: seq<string>, expand: bool)

  /** A task: its keyword arguments, its commands and its child tasks. */
  datatype Node = Node(kwargs: TaskKwargs, cmds: seq<Cmd>, children: seq<nat>)

  /** Every task created so far, and the job's top-level tasks. */
  datatype Store = Store(nodes: seq<Node>, top: seq<nat>)
  {
    predicate Valid() {
      && (forall i :: 0 <= i < |nodes| ==> forall c :: c in nodes[i].children ==> c < |nodes|)
      && (forall c :: c in top ==> c < |nodes|)
    }
  }

  /** The commands a task is built with: one for an argument vector, none
      without one. */
  function CmdsOf(kwargs: TaskKwargs): (cmds: seq<Cmd>)
    ensures |cmds| == if kwargs.argv.Some? then 1 else 0
  {
    match kwargs.argv
    case None => []
    case Some(argv) => [Cmd(argv, [], [], false)]
  }

  /** `author.Task(**kwargs)`: a task not yet attached anywhere. */
  function NewNode(store: Store, kwargs: TaskKwargs): (r: (Store, nat))
    requires store.Valid()
    ensures r.0.Valid()
    ensures r.1 == |store.nodes| && |r.0.nodes| == |store.nodes| + 1
    ensures r.0.nodes[r.1] == Node(kwargs, CmdsOf(kwargs), [])
    ensures r.0.nodes[..|store.nodes|] == store.nodes && r.0.top == store.top
    ensures Extends(store, r.0)
  {
    (Store(store.nodes + [Node(kwargs, CmdsOf(kwargs), [])], store.top), |store.nodes|)
  }

  /** `task.addChild(child)`: `child` is appended to the children of `parent`. */
  function AddChild(store: Store, parent: nat, child: nat): (r: Store)
    requires store.Valid() && parent < |store.nodes| && child < |store.nodes|
    ensures r.Valid()
    ensures |r.nodes| == |store.nodes| && r.top == store.top
    ensures r.nodes[parent].children == store.nodes[parent].children + [child]
    ensures r.nodes[parent].kwargs == store.nodes[parent].kwargs && r.nodes[parent].cmds == store.nodes[parent].cmds
    ensures forall i :: 0 <= i < |store.nodes| && i != parent ==> r.nodes[i] == store.nodes[i]
    ensures Extends(store, r)
  {
    var n := store.nodes[parent];
    Store(store.nodes[parent := n.(children := n.children + [child])], store.top)
  }

  /** `parent.newTask(**kwargs)`: a new task created as a child of `parent`. */
  function NewSubTask(store: Store, parent: nat, kwargs: TaskKwargs): (r: (Store, nat))
    requires store.Valid() && parent < |store.nodes|
    ensures r.0.Valid()
    ensures r.1 == |store.nodes| && |r.0.nodes| == |store.nodes| + 1
    ensures r.0.nodes[r.1] == Node(kwargs, CmdsOf(kwargs), [])
    ensures r.0.nodes[parent].children == store.nodes[parent].children + [r.1]
    ensures forall i :: 0 <= i < |store.nodes| && i != parent ==> r.0.nodes[i] == store.nodes[i]
    ensures r.0.top == store.top
    ensures Extends(store, r.0)
  {
    var (s1, id) := NewNode(store, kwargs);
    (AddChild(s1, parent, id), id)
  }

  /** `job.newTask(**kwargs)`: a new top-level task of the job. */
  function NewTopTask(store: Store, kwargs: TaskKwargs): (r: (Store, nat))
    requires store.Valid()
    ensures r.0.Valid()
    ensures r.1 == |store.nodes| && |r.0.nodes| == |store.nodes| + 1
    ensures r.0.nodes[r.1] == Node(kwargs, CmdsOf(kwargs), [])
    ensures r.0.nodes[..|store.nodes|] == store.nodes
    ensures r.0.top == store.top + [r.1]
    ensures Extends(store, r.0)
  {
    var (s1, id) := NewNode(store, kwargs);
    (Store(s1.nodes, s1.top + [id]), id)
  }

  /** `for cmd in task.cmds: cmd.tags = tags; cmd.envkey = envkey`, and
      `cmd.expand = expand` when `expand` is given. */
  function SetCmds(store: Store, id: nat, tags: seq<string>, envkey: seq<string>, expand: Option<bool>): (r: Store)
    requires store.Valid() && id < |store.nodes|
    ensures r.Valid()
    ensures |r.nodes| == |store.nodes| && r.top == store.top
    ensures r.nodes[id].kwargs == store.nodes[id].kwargs && r.nodes[id].children == store.nodes[id].children
    ensures |r.nodes[id].cmds| == |store.nodes[id].cmds|
    ensures forall k :: 0 <= k < |r.nodes[id].cmds| ==>
      var before := store.nodes[id].cmds[k];
      var after := r.nodes[id].cmds[k];
      && after.argv == before.argv && after.tags == tags && after.envkey == envkey
      && after.expand == (if expand.Some? then expand.value else before.expand)
    ensures forall i :: 0 <= i < |store.nodes| && i != id ==> r.nodes[i] == store.nodes[i]
  {
    var n := store.nodes[id];
    var cmds := seq(|n.cmds|, k requires 0 <= k < |n.cmds| =>
      n.cmds[k].(tags := tags, envkey := envkey,
                 expand := if expand.Some? then expand.value else n.cmds[k].expand));
    Store(store.nodes[id := n.(cmds := cmds)], store.top)
  }

  /** The store `after` only adds to `before`: no task disappears, no
      task's arguments or commands change, and child lists only grow. */
  predicate Extends(before: Store, after: Store) {
    && |before.nodes| <= |after.nodes|
    && before.top <= after.top
    && forall i :: 0 <= i < |before.nodes| ==> Grows(before.nodes[i], after.nodes[i])
  }

  predicate Grows(before: Node, after: Node) {
    && after.kwargs == before.kwargs
    && after.cmds == before.cmds
    && before.children <= after.children
  }

  lemma ExtendsTrans(a: Store, b: Store, c: Store)
    requires Extends(a, b) && Extends(b, c)
    ensures Extends(a, c)
  {
  }
}

=== FILE: chunks.dfy ===
/** Chunk planning: `TaskInfos.getChunks` splits the integer range of a
    node's iterations into packets, each tagged with its position. */
module Chunks {
  import opened Results

  /** The `Chunk` namedtuple: (iteration, start, end), both ends inclusive. */
  datatype Chunk = Chunk(iteration: nat, start: int, end: int)

  function Min(a: int, b: int): int {
    if a <= b then a else b
  }

  /** `params.get(key, default)` on the chunk parameter dict. */
  function Param(params: map<string, int>, key: string, default: int): int {
    if key in params then params[key] else default
  }

  /** `list(range(start, end + 1, 1))`. */
  function FrameRange(start: int, end: int): (frames: seq<int>)
    ensures |frames| == if end < start then 0 else end - start + 1
    ensures forall k :: 0 <= k < |frames| ==> frames[k] == start + k
  {
    if end < start then [] else seq(end - start + 1, k => start + k)
  }

  /** `len(range(0, n, size))` for a positive step. */
  function StepCount(n: nat, size: nat): nat
    requires size >= 1
  {
    (n + size - 1) / size
  }

  lemma StepCountBound(n: nat, size: nat, i: nat)
    requires size >= 1 && i < StepCount(n, size)
    ensures i * size < n
  {
    var x := n + size - 1;
    var c := x / size;
    assert c * size + x % size == x;
    MulMonotone(i + 1, c, size);
    assert (i + 1) * size == i * size + size;
  }

  lemma MulMonotone(a: nat, b: nat, k: nat)
    requires a <= b
    ensures a * k <= b * k
  {
  }

  /** `frames[i * size : i * size + size]`, the i-th packet of frames. */
  function Slice(frames: seq<int>, size: nat, i: nat): (item: seq<int>)
    requires size >= 1 && i * size < |frames|
    ensures |item| >= 1
  {
    frames[i * size .. Min(i * size + size, |frames|)]
  }

  /** The comprehension of getChunks: one packet per step of `range(0, len, size)`,
      recorded as (position, first frame, last frame). */
  function SliceChunks(frames: seq<int>, size: nat): seq<Chunk>
    requires size >= 1
  {
    seq(StepCount(|frames|, size), i requires 0 <= i < StepCount(|frames|, size) =>
      StepCountBound(|frames|, size, i);
      var item := Slice(frames, size, i);
      Chunk(i, item[0], item[|item| - 1]))
  }

  /** `TaskInfos.getChunks(chunkParams)`: `None` when the parameters are absent
      or empty, or the range is empty; otherwise the packets of the range.
      Only the "start", "end" and "packetSize" keys are read. */
  function GetChunks(params: Option<map<string, int>>): (r: Result<Option<seq<Chunk>>>)
    ensures params.None? || params.value == map[] ==> r == Ok(None)
    ensures params.Some? && params.value != map[] ==>
      var start := Param(params.value, "start", -1);
      var end := Param(params.value, "end", -2);
      var size := Param(params.value, "packetSize", 1);
      && (end < start <==> r == Ok(None))
      && (r.Err? <==> start <= end && size == 0)
      && (start <= end && size < 0 ==> r == Ok(Some([])))
  {
    if params.None? || params.value == map[] then Ok(None)
    else
      var p := params.value;
      var start := Param(p, "start", -1);
      var end := Param(p, "end", -2);
      var size := Param(p, "packetSize", 1);
      var frames := FrameRange(start, end);
      if |frames| == 0 then Ok(None)
      else if size == 0 then Err(ZeroPacketSize)
      else if size < 0 then Ok(Some([]))
      else Ok(Some(SliceChunks(frames, size)))
  }

  // ---------------------------------------------------------------------------
  // Properties of the plan
  // ---------------------------------------------------------------------------

  /** Chunk i of the range [start, end] in packets of `size`, in closed form. */
  function ChunkSpec(start: int, end: int, size: nat, i: nat): Chunk {
    Chunk(i, start + i * size, Min(start + (i + 1) * size - 1, end))
  }

  /** The packets getChunks produces for a non-empty range and a positive size. */
  function Plan(start: int, end: int, size: nat): seq<Chunk>
    requires size >= 1
  {
    SliceChunks(FrameRange(start, end), size)
  }

  lemma PlanIsGetChunks(params: map<string, int>)
    requires params != map[]
    requires Param(params, "start", -1) <= Param(params, "end", -2)
    requires Param(params, "packetSize", 1) >= 1
    ensures GetChunks(Some(params)) ==
      Ok(Some(Plan(Param(params, "start", -1), Param(params, "end", -2), Param(params, "packetSize", 1))))
  {
  }

  /** There are ceil((end - start + 1) / size) chunks, and chunk i spans
      [start + i*size, min(start + (i+1)*size - 1, end)]. */
  lemma PlanShape(start: int, end: int, size: nat)
    requires start <= end && size >= 1
    ensures |Plan(start, end, size)| == (end - start + size) / size
    ensures forall i :: 0 <= i < |Plan(start, end, size)| ==>
      Plan(start, end, size)[i] == ChunkSpec(start, end, size, i)
  {
    var frames := FrameRange(start, end);
    var plan := Plan(start, end, size);
    forall i | 0 <= i < |plan|
      ensures plan[i] == ChunkSpec(start, end, size, i)
    {
      StepCountBound(|frames|, size, i);
      var hi := Min(i * size + size, |frames|);
      var item := Slice(frames, size, i);
      assert item[0] == frames[i * size];
      assert item[|item| - 1] == frames[hi - 1];
      assert start + hi - 1 == Min(start + (i + 1) * size - 1, end);
    }
  }

  /** The chunks are non-empty, start at `start`, end at `end`, and each one
      begins right after the previous one ends: no gap and no overlap. */
  lemma {:induction false} PlanContiguous(start: int, end: int, size: nat)
    requires start <= end && size >= 1
    ensures var plan := Plan(start, end, size);
      && |plan| >= 1
      && plan[0].start == start
      && plan[|plan| - 1].end == end
      && (forall i :: 0 <= i < |plan| ==> plan[i].iteration == i && plan[i].start <= plan[i].end)
      && (forall i :: 0 <= i < |plan| - 1 ==> plan[i + 1].start == plan[i].end + 1)
  {
    var plan := Plan(start, end, size);
    PlanShape(start, end, size);
    var n := |plan|;
    assert n >= 1 by {
      assert (end - start + size) / size >= 1;
    }
    forall i | 0 <= i < n - 1
      ensures plan[i + 1].start == plan[i].end + 1
    {
      assert (i + 1) * size == i * size + size;
      assert start + (i + 1) * size - 1 < end by {
        assert i + 2 <= n;
        assert (i + 2) * size <= end - start + size by { DivBound(end - start + size, size, i + 2); }
      }
    }
    assert plan[n - 1].end == end by {
      assert n * size > end - start by { DivUpper(end - start + size, size); }
      assert (n - 1 + 1) * size == n * size;
    }
    forall i | 0 <= i < n
      ensures plan[i].start <= plan[i].end
    {
      StepCountBound(end - start + 1, size, i);
    }
  }

  lemma DivBound(a: nat, b: nat, k: nat)
    requires b >= 1 && k <= a / b
    ensures k * b <= a
  {
    assert (a / b) * b <= a;
    assert k * b <= (a / b) * b by {
      MulMono(k, a / b, b);
    }
  }

  lemma MulMono(x: nat, y: nat, b: nat)
    requires x <= y
    ensures x * b <= y * b
  {
  }

  lemma DivUpper(a: nat, b: nat)
    requires b >= 1
    ensures (a / b) * b > a - b
  {
  }

  /** Chunks listed earlier lie strictly before chunks listed later. */
  lemma {:induction false} PlanOrdered(start: int, end: int, size: nat)
    requires start <= end && size >= 1
    ensures var plan := Plan(start, end, size);
      forall i, j :: 0 <= i < j < |plan| ==> plan[i].end < plan[j].start
  {
    var plan := Plan(start, end, size);
    PlanShape(start, end, size);
    forall i, j | 0 <= i < j < |plan|
      ensures plan[i].end < plan[j].start
    {
      assert (i + 1) * size <= j * size by { MulMono(i + 1, j, size); }
    }
  }

  /** The chunks cover exactly the frames of [start, end]. */
  lemma PlanCovers(start: int, end: int, size: nat, x: int)
    requires start <= end && size >= 1
    ensures var plan := Plan(start, end, size);
      start <= x <= end <==> exists i :: 0 <= i < |plan| && plan[i].start <= x <= plan[i].end
  {
    if start <= x <= end {
      PlanCoversFrame(start, end, size, x);
    }
    var plan := Plan(start, end, size);
    if exists i :: 0 <= i < |plan| && plan[i].start <= x <= plan[i].end {
      var i :| 0 <= i < |plan| && plan[i].start <= x <= plan[i].end;
      PlanWithinRange(start, end, size, i);
    }
  }

  lemma PlanCoversFrame(start: int, end: int, size: nat, x: int)
    requires start <= end && size >= 1 && start <= x <= end
    ensures var plan := Plan(start, end, size);
      exists i :: 0 <= i < |plan| && plan[i].start <= x <= plan[i].end
  {
    var plan := Plan(start, end, size);
    PlanShape(start, end, size);
    var i := PacketOf(x - start, end - start, size);
    assert plan[i] == ChunkSpec(start, end, size, i);
    assert plan[i].start <= x <= plan[i].end;
  }

  /** The packet holding offset d of a range of n + 1 frames. */
  lemma PacketOf(d: nat, n: nat, size: nat) returns (i: nat)
    requires size >= 1 && d <= n
    ensures i * size <= d < (i + 1) * size
    ensures i < (n + size) / size
  {
    i := d / size;
    assert i * size <= d < i * size + size;
    assert (i + 1) * size == i * size + size;
    var c := (n + size) / size;
    assert c * size > n by { DivUpper(n + size, size); }
    if i >= c { MulMono(c, i, size); }
  }

  lemma PlanWithinRange(start: int, end: int, size: nat, i: nat)
    requires start <= end && size >= 1 && i < |Plan(start, end, size)|
    ensures start <= Plan(start, end, size)[i].start
    ensures Plan(start, end, size)[i].end <= end
  {
    PlanShape(start, end, size);
  }

  /** Parameters {start: 0, end: 9, packetSize: 3} give four chunks. */
  lemma ExampleZeroToNine()
    ensures GetChunks(Some(map["start" := 0, "end" := 9, "packetSize" := 3]))
         == Ok(Some([Chunk(0, 0, 2), Chunk(1, 3, 5), Chunk(2, 6, 8), Chunk(3, 9, 9)]))
  {
    var plan := Plan(0, 9, 3);
    var params := map["start" := 0, "end" := 9, "packetSize" := 3];
    assert Param(params, "start", -1) == 0;
    assert Param(params, "end", -2) == 9;
    assert Param(params, "packetSize", 1) == 3;
    PlanIsGetChunks(params);
    PlanShape(0, 9, 3);
    assert |plan| == 4;
    assert plan[0] == ChunkSpec(0, 9, 3, 0);
    assert plan[1] == ChunkSpec(0, 9, 3, 1);
    assert plan[2] == ChunkSpec(0, 9, 3, 2);
    assert plan[3] == ChunkSpec(0, 9, 3, 3);
    assert plan == [Chunk(0, 0, 2), Chunk(1, 3, 5), Chunk(2, 6, 8), Chunk(3, 9, 9)];
  }

  /** The "step" key that callers pass is never read. */
  lemma StepIgnored(params: map<string, int>, step: int)
    ensures GetChunks(Some(params["step" := step])) == GetChunks(Some(params - {"step"}))
  {
    var p1 := params["step" := step];
    var p2 := params - {"step"};
    assert Param(p1, "start", -1) == Param(p2, "start", -1);
    assert Param(p1, "end", -2) == Param(p2, "end", -2);
    assert Param(p1, "packetSize", 1) == Param(p2, "packetSize", 1);
  }
}

=== FILE: compiler.dfy ===
/** Turning the task graph into author-API tasks: `cookTractorTask`,
    `TaskGraph.cookTask` / `TaskGraph.cook`, `Job.cook` and `Job.submit`.
    Cooking is memoised by node uid: a uid is cooked once, and every later
    request for it returns the task made the first time. */
module Compiler {
  import opened Results
  import opened Dicts
  import opened Chunks
  import opened Rez
  import opened Infos
  import opened Author
  import opened Graph

  /** `TractorTask`: the author task of a node and, for a chunked node, one
      author task per chunk. */
  datatype TractorTask = TractorTask(task: nat, chunkTasks: seq<(Chunk, nat)>)

  /** The task handles of `tt` are tasks of `store`. */
  predicate Handles(store: Store, tt: TractorTask) {
    && tt.task < |store.nodes|
    && forall k :: 0 <= k < |tt.chunkTasks| ==> tt.chunkTasks[k].1 < |store.nodes|
  }

  /** Handle `h` is a child of the task of `tt`, or of each of its chunk
      tasks when it has some. */
  predicate Attached(store: Store, tt: TractorTask, h: nat)
    requires Handles(store, tt)
  {
    if tt.chunkTasks != [] then
      forall k :: 0 <= k < |tt.chunkTasks| ==> h in store.nodes[tt.chunkTasks[k].1].children
    else h in store.nodes[tt.task].children
  }

  lemma HandlesExtends(a: Store, b: Store, tt: TractorTask)
    requires Handles(a, tt) && Extends(a, b)
    ensures Handles(b, tt)
  {
  }

  lemma AttachedExtends(a: Store, b: Store, tt: TractorTask, h: nat)
    requires Handles(a, tt) && Extends(a, b) && Attached(a, tt, h)
    ensures Handles(b, tt) && Attached(b, tt, h)
  {
    if tt.chunkTasks != [] {
      forall k | 0 <= k < |tt.chunkTasks|
        ensures h in b.nodes[tt.chunkTasks[k].1].children
      {
        var i := tt.chunkTasks[k].1;
        assert a.nodes[i].children <= b.nodes[i].children;
        assert h in a.nodes[i].children;
      }
    } else {
      assert a.nodes[tt.task].children <= b.nodes[tt.task].children;
    }
  }

  // ---------------------------------------------------------------------------
  // cookTractorTask
  // ---------------------------------------------------------------------------

  /** `n` consecutive handles from `base`. */
  function Range(base: nat, n: nat): (r: seq<nat>)
    ensures |r| == n && forall k :: 0 <= k < n ==> r[k] == base + k
  {
    seq(n, k => base + k)
  }

  lemma RangeCons(base: nat, n: nat)
    ensures [base] + Range(base + 1, n) == Range(base, n + 1)
  {
  }

  /** The cooked arguments of a node: those of its own task and, for a
      chunked node, those of each chunk task with its chunk. */
  datatype NodeArgs = NodeArgs(kwargs: TaskKwargs, chunks: seq<(Chunk, TaskKwargs)>)

  /** The chunks paired with consecutive handles from `base`. */
  function Pairs(chunks: seq<(Chunk, TaskKwargs)>, base: nat): (r: seq<(Chunk, nat)>)
    ensures |r| == |chunks| && forall k :: 0 <= k < |chunks| ==> r[k] == (chunks[k].0, base + k)
  {
    seq(|chunks|, k requires 0 <= k < |chunks| => (chunks[k].0, base + k))
  }

  /** The arguments of the chunk tasks, in order. */
  function ChunkKwargs(chunks: seq<(Chunk, TaskKwargs)>): (r: seq<TaskKwargs>)
    ensures |r| == |chunks| && forall k :: 0 <= k < |chunks| ==> r[k] == chunks[k].1
  {
    seq(|chunks|, k requires 0 <= k < |chunks| => chunks[k].1)
  }

  /** The commands of an author task carry the node's limits and
      environment. */
  predicate CmdsCarry(node: Node, infos: TaskInfos) {
    forall k :: 0 <= k < |node.cmds| ==>
      node.cmds[k].tags == infos.limits && node.cmds[k].envkey == infos.EnvKey()
  }

  /** `ChunkTaskInfos(infos, chunk).cook()` for every chunk, in order; the
      first failure is the result. */
  function CookChunks(env: Environ, infos: TaskInfos, chunks: seq<Chunk>): (r: Result<seq<TaskKwargs>>)
    ensures r.Ok? <==> forall k :: 0 <= k < |chunks| ==> CookChunk(env, infos, chunks[k]).Ok?
    ensures r.Ok? ==> |r.value| == |chunks|
    ensures r.Ok? ==> forall k :: 0 <= k < |chunks| ==> r.value[k] == CookChunk(env, infos, chunks[k]).value
  {
    MapAll(c => CookChunk(env, infos, c), chunks)
  }

  /** `tractorTask.newTask(**kwargs)` followed by setting the new task's
      command limits and environment. */
  function NewChunkTask(store: Store, parent: nat, kwargs: TaskKwargs, infos: TaskInfos): (r: (Store, nat))
    requires store.Valid() && parent < |store.nodes|
    ensures r.0.Valid() && Extends(store, r.0) && r.0.top == store.top
    ensures r.1 == |store.nodes| && |r.0.nodes| == |store.nodes| + 1
    ensures r.0.nodes[parent].children == store.nodes[parent].children + [r.1]
    ensures r.0.nodes[r.1].kwargs == kwargs && CmdsCarry(r.0.nodes[r.1], infos)
  {
    var (s1, id) := NewSubTask(store, parent, kwargs);
    (SetCmds(s1, id, infos.limits, infos.EnvKey(), None), id)
  }

  /** The chunk loop of `cookTractorTask`, given the cooked arguments of the
      chunk tasks: one subtask of `parent` each, whose commands get the
      node's limits and environment. */
  function AddChunkTasks(store: Store, parent: nat, infos: TaskInfos, kwargs: seq<TaskKwargs>): (r: Store)
    requires store.Valid() && parent < |store.nodes|
    ensures r.Valid() && Extends(store, r) && r.top == store.top
    ensures |r.nodes| == |store.nodes| + |kwargs|
    ensures r.nodes[parent].children == store.nodes[parent].children + Range(|store.nodes|, |kwargs|)
    ensures forall i :: |store.nodes| <= i < |r.nodes| ==>
      r.nodes[i].kwargs == kwargs[i - |store.nodes|] && CmdsCarry(r.nodes[i], infos)
    decreases |kwargs|
  {
    if |kwargs| == 0 then
      assert store.nodes[parent].children + [] == store.nodes[parent].children;
      store
    else
      var (s1, _) := NewChunkTask(store, parent, kwargs[0], infos);
      var s2 := AddChunkTasks(s1, parent, infos, kwargs[1..]);
      AddChunkTasksStep(store, parent, infos, kwargs, s1, s2);
      s2
  }

  lemma AddChunkTasksStep(store: Store, parent: nat, infos: TaskInfos, kwargs: seq<TaskKwargs>, s1: Store, s2: Store)
    requires |kwargs| > 0 && store.Valid() && parent < |store.nodes|
    requires (s1, |store.nodes|) == NewChunkTask(store, parent, kwargs[0], infos)
    requires Extends(s1, s2) && |s2.nodes| == |s1.nodes| + |kwargs| - 1
    requires s2.nodes[parent].children == s1.nodes[parent].children + Range(|s1.nodes|, |kwargs| - 1)
    requires forall i :: |s1.nodes| <= i < |s2.nodes| ==>
      s2.nodes[i].kwargs == kwargs[1..][i - |s1.nodes|] && CmdsCarry(s2.nodes[i], infos)
    ensures Extends(store, s2)
    ensures s2.nodes[parent].children == store.nodes[parent].children + Range(|store.nodes|, |kwargs|)
    ensures forall i :: |store.nodes| <= i < |s2.nodes| ==>
      s2.nodes[i].kwargs == kwargs[i - |store.nodes|] && CmdsCarry(s2.nodes[i], infos)
  {
    var n := |store.nodes|;
    assert |s1.nodes| == n + 1;
    ExtendsTrans(store, s1, s2);
    RangeCons(n, |kwargs| - 1);
    assert Grows(s1.nodes[n], s2.nodes[n]);
    assert s1.nodes[n].kwargs == kwargs[0] && CmdsCarry(s1.nodes[n], infos);
    assert s2.nodes[n].kwargs == kwargs[0] && CmdsCarry(s2.nodes[n], infos);
    forall i | n < i < |s2.nodes|
      ensures s2.nodes[i].kwargs == kwargs[i - n] && CmdsCarry(s2.nodes[i], infos)
    {
      assert kwargs[1..][i - (n + 1)] == kwargs[i - n];
    }
  }

  /** What `BuildTractorTask` promises about the store `s` it returns
      and the handle `tt` of the node's task. */
  predicate Built(store: Store, infos: TaskInfos, args: NodeArgs, s: Store, tt: TractorTask) {
    && s.Valid()
    && Extends(store, s)
    && s.top == store.top
    && Handles(s, tt)
    && tt.task == |store.nodes|
    && s.nodes[tt.task].kwargs == args.kwargs
    && (args.chunks != [] ==>
          && tt.chunkTasks == Pairs(args.chunks, tt.task + 1)
          && s.nodes[tt.task].children == Range(tt.task + 1, |args.chunks|)
          && (forall k :: 0 <= k < |tt.chunkTasks| ==>
                && s.nodes[tt.chunkTasks[k].1].kwargs == args.chunks[k].1
                && CmdsCarry(s.nodes[tt.chunkTasks[k].1], infos)))
    && (args.chunks == [] ==>
          && tt.chunkTasks == []
          && s.nodes[tt.task].children == []
          && CmdsCarry(s.nodes[tt.task], infos)
          && |s.nodes[tt.task].cmds| == |CmdsOf(args.kwargs)|
          && (forall k :: 0 <= k < |s.nodes[tt.task].cmds| ==> s.nodes[tt.task].cmds[k].expand == infos.expanding))
  }

  /** The store part of `cookTractorTask`, given the node's cooked
      arguments: a free author task for the node, then either one subtask
      per chunk or, for an unchunked node, the limits, environment and
      expand flag set on its commands. */
  function BuildTractorTask(store: Store, infos: TaskInfos, args: NodeArgs): (r: (Store, TractorTask))
    requires store.Valid()
    ensures Built(store, infos, args, r.0, r.1)
  {
    var (s1, id) := NewNode(store, args.kwargs);
    if args.chunks != [] then
      var s2 := AddChunkTasks(s1, id, infos, ChunkKwargs(args.chunks));
      ChunkedBuilt(store, infos, args, s1, id, s2);
      (s2, TractorTask(id, Pairs(args.chunks, id + 1)))
    else
      var s2 := SetCmds(s1, id, infos.limits, infos.EnvKey(), Some(infos.expanding));
      PlainBuilt(store, infos, args, s1, id, s2);
      (s2, TractorTask(id, []))
  }

  lemma ChunkedBuilt(store: Store, infos: TaskInfos, args: NodeArgs, s1: Store, id: nat, s2: Store)
    requires store.Valid() && (s1, id) == NewNode(store, args.kwargs) && args.chunks != []
    requires s2 == AddChunkTasks(s1, id, infos, ChunkKwargs(args.chunks))
    ensures Built(store, infos, args, s2, TractorTask(id, Pairs(args.chunks, id + 1)))
  {
    ExtendsTrans(store, s1, s2);
    var chunkTasks := Pairs(args.chunks, id + 1);
    assert forall k :: 0 <= k < |chunkTasks| ==>
      s2.nodes[chunkTasks[k].1].kwargs == ChunkKwargs(args.chunks)[(id + 1 + k) - |s1.nodes|];
  }

  lemma PlainBuilt(store: Store, infos: TaskInfos, args: NodeArgs, s1: Store, id: nat, s2: Store)
    requires store.Valid() && (s1, id) == NewNode(store, args.kwargs) && args.chunks == []
    requires s2 == SetCmds(s1, id, infos.limits, infos.EnvKey(), Some(infos.expanding))
    ensures Built(store, infos, args, s2, TractorTask(id, []))
  {
    forall i | 0 <= i < |store.nodes| ensures Grows(store.nodes[i], s2.nodes[i]) {
      assert s2.nodes[i] == s1.nodes[i];
    }
  }

  /** The author task `tt` carries the cooked arguments `args`: the node's
      own on its task, and each chunk's on its chunk task, in chunk order. */
  predicate Carries(store: Store, tt: TractorTask, args: NodeArgs)
    requires Handles(store, tt)
  {
    && store.nodes[tt.task].kwargs == args.kwargs
    && |tt.chunkTasks| == |args.chunks|
    && forall k :: 0 <= k < |tt.chunkTasks| ==>
         tt.chunkTasks[k].0 == args.chunks[k].0 && store.nodes[tt.chunkTasks[k].1].kwargs == args.chunks[k].1
  }

  lemma BuiltCarries(store: Store, infos: TaskInfos, args: NodeArgs, s: Store, tt: TractorTask)
    requires Built(store, infos, args, s, tt)
    ensures Carries(s, tt, args)
  {
  }

  lemma CarriesExtends(a: Store, b: Store, tt: TractorTask, args: NodeArgs)
    requires Handles(a, tt) && Extends(a, b) && Carries(a, tt, args)
    ensures Handles(b, tt) && Carries(b, tt, args)
  {
    assert Grows(a.nodes[tt.task], b.nodes[tt.task]);
    forall k | 0 <= k < |tt.chunkTasks|
      ensures b.nodes[tt.chunkTasks[k].1].kwargs == args.chunks[k].1
    {
      assert Grows(a.nodes[tt.chunkTasks[k].1], b.nodes[tt.chunkTasks[k].1]);
    }
  }

  /** The cooking half of `cookTractorTask`: the node's own arguments, then
      those of each chunk. Fails when the node's or a chunk's command
      cannot be built. */
  function CookNodeArgs(env: Environ, python: string, infos: TaskInfos): (r: Result<NodeArgs>)
    ensures r.Ok? <==>
      && CookTaskInfos(env, python, infos).Ok?
      && (infos.Chunked() ==> CookChunks(env, infos, infos.chunks.value).Ok?)
    ensures r.Ok? ==> r.value.kwargs == CookTaskInfos(env, python, infos).value
    ensures r.Ok? ==> (r.value.chunks != [] <==> infos.Chunked())
    ensures r.Ok? && infos.Chunked() ==>
      && |r.value.chunks| == |infos.chunks.value|
      && forall k :: 0 <= k < |infos.chunks.value| ==>
           r.value.chunks[k] == (infos.chunks.value[k], CookChunk(env, infos, infos.chunks.value[k]).value)
  {
    var kwargs :- CookTaskInfos(env, python, infos);
    if infos.Chunked() then
      var chunkKwargs :- CookChunks(env, infos, infos.chunks.value);
      var chunks := infos.chunks.value;
      Ok(NodeArgs(kwargs, seq(|chunks|, k requires 0 <= k < |chunks| => (chunks[k], chunkKwargs[k]))))
    else Ok(NodeArgs(kwargs, []))
  }

  /** `cookTractorTask(taskInfos)`: the node's task carries the node's
      cooked arguments; a chunked node gets one subtask per chunk, in
      chunk order, each with that chunk's cooked arguments. */
  function CookTractorTask(env: Environ, python: string, store: Store, infos: TaskInfos)
    : (r: Result<(Store, TractorTask)>)
    requires store.Valid()
    ensures r.Ok? <==> CookNodeArgs(env, python, infos).Ok?
    ensures r.Ok? ==> var (s, tt) := r.value;
      && Extends(store, s) && Handles(s, tt) && tt.task == |store.nodes|
      && s.nodes[tt.task].kwargs == CookTaskInfos(env, python, infos).value
      && (infos.Chunked() ==>
            && |tt.chunkTasks| == |infos.chunks.value|
            && s.nodes[tt.task].children == Range(tt.task + 1, |infos.chunks.value|)
            && forall k :: 0 <= k < |tt.chunkTasks| ==>
                 && tt.chunkTasks[k].0 == infos.chunks.value[k]
                 && s.nodes[tt.chunkTasks[k].1].kwargs == CookChunk(env, infos, infos.chunks.value[k]).value)
      && (!infos.Chunked() ==> tt.chunkTasks == [] && s.nodes[tt.task].children == [])
  {
    var args :- CookNodeArgs(env, python, infos);
    Ok(BuildTractorTask(store, infos, args))
  }

  // ---------------------------------------------------------------------------
  // TaskGraph.cookTask
  // ---------------------------------------------------------------------------

  /** Adds `h` as a child of each of `parents`, in order. */
  function AttachToAll(store: Store, parents: seq<(Chunk, nat)>, h: nat): (r: Store)
    requires store.Valid() && h < |store.nodes|
    requires forall k :: 0 <= k < |parents| ==> parents[k].1 < |store.nodes|
    ensures r.Valid() && Extends(store, r) && r.top == store.top && |r.nodes| == |store.nodes|
    ensures forall k :: 0 <= k < |parents| ==> h in r.nodes[parents[k].1].children
    decreases |parents|
  {
    if |parents| == 0 then store
    else
      var s1 := Author.AddChild(store, parents[0].1, h);
      var r := AttachToAll(s1, parents[1..], h);
      assert h in s1.nodes[parents[0].1].children;
      assert Grows(s1.nodes[parents[0].1], r.nodes[parents[0].1]);
      assert forall k :: 0 < k < |parents| ==> parents[k] == parents[1..][k - 1];
      ExtendsTrans(store, s1, r);
      r
  }

  /** The child-linking step of `cookTask`: under every chunk task when
      there are some, under the task itself otherwise. */
  function AttachChild(store: Store, parent: TractorTask, h: nat): (r: Store)
    requires store.Valid() && Handles(store, parent) && h < |store.nodes|
    ensures r.Valid() && Extends(store, r) && r.top == store.top && |r.nodes| == |store.nodes|
    ensures Handles(r, parent) && Attached(r, parent, h)
  {
    if parent.chunkTasks != [] then AttachToAll(store, parent.chunkTasks, h)
    else Author.AddChild(store, parent.task, h)
  }

  /** How a node's arguments are cooked; `JobCook` uses `CookNodeArgs`. */
  type Cooker = TaskInfos -> Result<NodeArgs>

  /** The store and the memo `__cooked` of a `TaskGraph` while cooking. */
  datatype CookState = CookState(store: Store, cooked: map<string, TractorTask>)

  /** Every memoised task lives in the store, and different uids have
      different author tasks. */
  predicate Good(st: CookState) {
    && st.store.Valid()
    && (forall u :: u in st.cooked ==> Handles(st.store, st.cooked[u]))
    && (forall u, v :: u in st.cooked && v in st.cooked && u != v ==> st.cooked[u].task != st.cooked[v].task)
  }

  /** `after` follows `before`: the store only grew, the job's top level is
      untouched, and the memo only gained entries. */
  predicate Progress(before: CookState, after: CookState) {
    Kept(before, after) && after.store.top == before.store.top
  }

  /** `after` keeps all of `before`: the store only grew and the memo only
      gained entries. */
  predicate Kept(before: CookState, after: CookState) {
    && Good(after)
    && Extends(before.store, after.store)
    && (forall u :: u in before.cooked ==> u in after.cooked && after.cooked[u] == before.cooked[u])
  }

  lemma ProgressTrans(a: CookState, b: CookState, c: CookState)
    requires Progress(a, b) && Progress(b, c)
    ensures Progress(a, c)
  {
    ExtendsTrans(a.store, b.store, c.store);
  }

  /** Every task the graph mentions: the created ones and every child. */
  function AllTasks(g: Graph): set<TaskInfos> {
    (set t | t in g.tasks) + (set a, c | a in g.children && c in g.children[a] :: c)
  }

  /** The uids of `AllTasks(g)`: what the memo can ever hold besides the
      tasks cooking starts from. */
  function Universe(g: Graph): set<string> {
    set t | t in AllTasks(g) :: t.uid
  }

  /** `u` holds the uid of every child task in `g`. */
  predicate Closed(g: Graph, u: set<string>) {
    forall a, c :: a in g.children && c in g.children[a] ==> c.uid in u
  }

  lemma UniverseClosed(g: Graph)
    ensures Closed(g, Universe(g))
  {
    forall a, c | a in g.children && c in g.children[a] ensures c.uid in Universe(g) {
      assert c in AllTasks(g);
    }
  }

  lemma ChildrenInAllTasks(g: Graph, a: Ident)
    ensures forall c :: c in Children(g, a) ==> c in AllTasks(g)
  {
    if a in g.children {
      forall c | c in g.children[a] ensures c in AllTasks(g) {
        assert c in (set a, c | a in g.children && c in g.children[a] :: c);
      }
    }
  }

  lemma ClosedChildren(g: Graph, u: set<string>, a: Ident)
    requires Closed(g, u)
    ensures forall c :: c in Children(g, a) ==> c.uid in u
  {
  }

  /** Memoising a freshly cooked node is progress. */
  lemma MemoiseStep(st: CookState, t: TaskInfos, args: NodeArgs, s1: Store, tt: TractorTask)
    requires Good(st) && t.uid !in st.cooked
    requires BuildTractorTask(st.store, t, args) == (s1, tt)
    ensures Progress(st, CookState(s1, st.cooked[t.uid := tt]))
  {
    var st1 := CookState(s1, st.cooked[t.uid := tt]);
    forall u | u in st.cooked ensures Handles(s1, st.cooked[u]) {
      assert Handles(st.store, st.cooked[u]);
    }
  }

  lemma SubsetCard<T>(a: set<T>, b: set<T>)
    requires a <= b
    ensures |a| <= |b|
    ensures a < b ==> |a| < |b|
  {
    assert b == a + (b - a);
    if a < b {
      var x :| x in b - a;
    }
  }

  /** Linking a cooked child under `parent` keeps the memo good. */
  lemma AttachProgress(st: CookState, st1: CookState, parent: TractorTask, h: nat)
    requires Progress(st, st1) && Handles(st.store, parent) && h < |st1.store.nodes|
    ensures Handles(st1.store, parent)
    ensures Progress(st, st1.(store := AttachChild(st1.store, parent, h)))
  {
    HandlesExtends(st.store, st1.store, parent);
    var st2 := st1.(store := AttachChild(st1.store, parent, h));
    forall u | u in st1.cooked ensures Handles(st2.store, st1.cooked[u]) {
      HandlesExtends(st1.store, st2.store, st1.cooked[u]);
    }
    ExtendsTrans(st.store, st1.store, st2.store);
  }

  /** Children `i..` of a node are memoised and linked under its task. */
  predicate ChildrenAttached(store: Store, parent: TractorTask, cooked: map<string, TractorTask>,
                             children: seq<TaskInfos>, i: nat)
    requires Handles(store, parent)
  {
    forall j :: i <= j < |children| ==>
      children[j].uid in cooked && Attached(store, parent, cooked[children[j].uid].task)
  }

  /** One turn of the children loop: the i-th child, memoised with handle
      `h` and linked under `parent`, stays so while the later ones cook. */
  lemma ChildrenAttachedStep(st1: CookState, r: CookState, parent: TractorTask,
                             children: seq<TaskInfos>, i: nat, h: nat)
    requires Good(st1) && i < |children| && Handles(st1.store, parent) && h < |st1.store.nodes|
    requires children[i].uid in st1.cooked && st1.cooked[children[i].uid].task == h
    requires Progress(st1.(store := AttachChild(st1.store, parent, h)), r)
    requires Handles(r.store, parent) && ChildrenAttached(r.store, parent, r.cooked, children, i + 1)
    ensures ChildrenAttached(r.store, parent, r.cooked, children, i)
  {
    var st2 := st1.(store := AttachChild(st1.store, parent, h));
    AttachedExtends(st2.store, r.store, parent, h);
  }

  /** `TaskGraph.cookTask(task)`: a uid already in the memo gives its task
      back unchanged; otherwise the node is cooked, memoised before its
      children, each child is cooked and linked under the node's task (or
      under each of its chunk tasks), and the node's task is returned. */
  function CookTask(cook: Cooker, g: Graph, u: set<string>, st: CookState, t: TaskInfos)
    : (r: Result<(CookState, nat)>)
    requires Good(st) && Closed(g, u)
    ensures t.uid in st.cooked ==> r == Ok((st, st.cooked[t.uid].task))
    ensures r.Ok? ==>
      && Progress(st, r.value.0)
      && t.uid in r.value.0.cooked
      && r.value.1 == r.value.0.cooked[t.uid].task
    ensures r.Ok? && t.uid !in st.cooked ==>
      ChildrenAttached(r.value.0.store, r.value.0.cooked[t.uid], r.value.0.cooked, Children(g, IdentOf(t)), 0)
    decreases |u + {t.uid} - st.cooked.Keys|, 0
  {
    if t.uid in st.cooked then Ok((st, st.cooked[t.uid].task))
    else
      var args :- cook(t);
      var (s1, tt) := BuildTractorTask(st.store, t, args);
      var st1 := CookState(s1, st.cooked[t.uid := tt]);
      MemoiseStep(st, t, args, s1, tt);
      var children := Children(g, IdentOf(t));
      ClosedChildren(g, u, IdentOf(t));
      var before, after := u + {t.uid} - st.cooked.Keys, u - st1.cooked.Keys;
      assert after <= before && t.uid in before - after;
      SubsetCard(after, before);
      var st2 :- CookChildren(cook, g, u, st1, tt, children, 0);
      ProgressTrans(st, st1, st2);
      assert st2.cooked[t.uid] == tt;
      Ok((st2, tt.task))
  }

  /** A node `cookTask` cooks afresh gets an author task carrying what the
      node cooks to: its own arguments, and one chunk task per cooked chunk
      with that chunk's arguments. */
  lemma CookTaskCarries(cook: Cooker, g: Graph, u: set<string>, st: CookState, t: TaskInfos)
    requires Good(st) && Closed(g, u) && t.uid !in st.cooked
    requires CookTask(cook, g, u, st, t).Ok?
    ensures cook(t).Ok?
    ensures var st' := CookTask(cook, g, u, st, t).value.0;
      Carries(st'.store, st'.cooked[t.uid], cook(t).value)
  {
    var args := cook(t).value;
    var (s1, tt) := BuildTractorTask(st.store, t, args);
    var st1 := CookState(s1, st.cooked[t.uid := tt]);
    BuiltCarries(st.store, t, args, s1, tt);
    MemoiseStep(st, t, args, s1, tt);
    ClosedChildren(g, u, IdentOf(t));
    var rest := CookChildren(cook, g, u, st1, tt, Children(g, IdentOf(t)), 0);
    assert rest.Ok? && CookTask(cook, g, u, st, t).value.0 == rest.value;
    assert t.uid in st1.cooked && Progress(st1, rest.value);
    CarriesExtends(s1, rest.value.store, tt, args);
  }

  /** The loop `for child in task._children` of `cookTask`, from the i-th
      child on. */
  function CookChildren(cook: Cooker, g: Graph, u: set<string>, st: CookState,
                        parent: TractorTask, children: seq<TaskInfos>, i: nat): (r: Result<CookState>)
    requires Good(st) && Closed(g, u) && Handles(st.store, parent) && i <= |children|
    requires forall c :: c in children ==> c.uid in u
    ensures r.Ok? ==> Progress(st, r.value)
    ensures r.Ok? ==> Handles(r.value.store, parent) && ChildrenAttached(r.value.store, parent, r.value.cooked, children, i)
    decreases |u - st.cooked.Keys|, 1, |children| - i
  {
    if i == |children| then Ok(st)
    else
      var c := children[i];
      AddPresent(u, c.uid);
      var (st1, h) :- CookTask(cook, g, u, st, c);
      var st2 := st1.(store := AttachChild(st1.store, parent, h));
      AttachProgress(st, st1, parent, h);
      SubsetCard(u - st2.cooked.Keys, u - st.cooked.Keys);
      var r :- CookChildren(cook, g, u, st2, parent, children, i + 1);
      ProgressTrans(st, st2, r);
      ChildrenAttachedStep(st1, r, parent, children, i, h);
      Ok(r)
  }

  // ---------------------------------------------------------------------------
  // Every dependency of a cooked node is linked
  // ---------------------------------------------------------------------------

  /** Tasks of the graph that share a uid also share a name, so they have
      the same identity and the same children. The memo is keyed by uid
      alone: without this, a second task with a known uid is never cooked
      and its children are not linked under anything. */
  predicate UidsDetermineNames(g: Graph) {
    forall a, b :: a in AllTasks(g) && b in AllTasks(g) && a.uid == b.uid ==> a.name == b.name
  }

  /** The children of `t` in the graph are memoised and linked under the
      author task (or chunk tasks) of `t`. */
  predicate Linked(g: Graph, st: CookState, t: TaskInfos)
    requires Good(st) && t.uid in st.cooked
  {
    ChildrenAttached(st.store, st.cooked[t.uid], st.cooked, Children(g, IdentOf(t)), 0)
  }

  /** Every memoised task of the graph, except those still being cooked
      (the uids in `pending`), has its children linked. */
  predicate Complete(g: Graph, st: CookState, pending: set<string>)
    requires Good(st)
  {
    forall t :: t in AllTasks(g) && t.uid in st.cooked && t.uid !in pending ==> Linked(g, st, t)
  }

  lemma LinkedKept(g: Graph, st: CookState, st': CookState, t: TaskInfos)
    requires Good(st) && Kept(st, st') && t.uid in st.cooked && Linked(g, st, t)
    ensures Linked(g, st', t)
  {
    var cs := Children(g, IdentOf(t));
    forall j | 0 <= j < |cs|
      ensures cs[j].uid in st'.cooked && Attached(st'.store, st'.cooked[t.uid], st'.cooked[cs[j].uid].task)
    {
      AttachedExtends(st.store, st'.store, st.cooked[t.uid], st.cooked[cs[j].uid].task);
    }
  }

  /** Growing the store and the memo keeps completeness, as long as every
      new memo entry is pending. */
  lemma CompleteKept(g: Graph, st: CookState, st': CookState, pending: set<string>, pending': set<string>)
    requires Good(st) && Kept(st, st') && Complete(g, st, pending) && pending <= pending'
    requires forall u :: u in st'.cooked && u !in st.cooked ==> u in pending'
    ensures Complete(g, st', pending')
  {
    forall t | t in AllTasks(g) && t.uid in st'.cooked && t.uid !in pending'
      ensures Linked(g, st', t)
    {
      LinkedKept(g, st, st', t);
    }
  }

  /** `cookTask` leaves every memoised node outside `pending` with its
      children linked. */
  lemma {:induction false} CookTaskComplete(cook: Cooker, g: Graph, u: set<string>,
                                             st: CookState, t: TaskInfos, pending: set<string>)
    requires Good(st) && Closed(g, u) && UidsDetermineNames(g) && t in AllTasks(g)
    requires pending <= st.cooked.Keys && Complete(g, st, pending)
    requires CookTask(cook, g, u, st, t).Ok?
    ensures Complete(g, CookTask(cook, g, u, st, t).value.0, pending)
    decreases |u + {t.uid} - st.cooked.Keys|, 0
  {
    if t.uid !in st.cooked {
      var args := cook(t).value;
      var (s1, tt) := BuildTractorTask(st.store, t, args);
      var st1 := CookState(s1, st.cooked[t.uid := tt]);
      MemoiseStep(st, t, args, s1, tt);
      CompleteKept(g, st, st1, pending, pending + {t.uid});
      var children := Children(g, IdentOf(t));
      ClosedChildren(g, u, IdentOf(t));
      ChildrenInAllTasks(g, IdentOf(t));
      var before, after := u + {t.uid} - st.cooked.Keys, u - st1.cooked.Keys;
      assert after <= before && t.uid in before - after;
      SubsetCard(after, before);
      CookChildrenComplete(cook, g, u, st1, tt, children, 0, pending + {t.uid});
      var st2 := CookChildren(cook, g, u, st1, tt, children, 0).value;
      assert CookTask(cook, g, u, st, t).value.0 == st2;
      CompleteRelease(g, st2, t, pending);
    }
  }

  /** A task whose children are linked no longer needs to be pending. */
  lemma CompleteRelease(g: Graph, st: CookState, t: TaskInfos, pending: set<string>)
    requires Good(st) && UidsDetermineNames(g) && t in AllTasks(g) && t.uid in st.cooked
    requires Complete(g, st, pending + {t.uid}) && Linked(g, st, t)
    ensures Complete(g, st, pending)
  {
    forall t' | t' in AllTasks(g) && t'.uid in st.cooked && t'.uid !in pending
      ensures Linked(g, st, t')
    {
      if t'.uid == t.uid {
        assert IdentOf(t') == IdentOf(t);
      }
    }
  }

  lemma AddPresent<T>(u: set<T>, x: T)
    requires x in u
    ensures u + {x} == u
  {
  }

  lemma {:induction false} CookChildrenComplete(cook: Cooker, g: Graph, u: set<string>, st: CookState,
                                                 parent: TractorTask, children: seq<TaskInfos>, i: nat,
                                                 pending: set<string>)
    requires Good(st) && Closed(g, u) && UidsDetermineNames(g) && Handles(st.store, parent) && i <= |children|
    requires forall c :: c in children ==> c.uid in u && c in AllTasks(g)
    requires pending <= st.cooked.Keys && Complete(g, st, pending)
    requires CookChildren(cook, g, u, st, parent, children, i).Ok?
    ensures Complete(g, CookChildren(cook, g, u, st, parent, children, i).value, pending)
    decreases |u - st.cooked.Keys|, 1, |children| - i + 1
  {
    if i < |children| {
      var c := children[i];
      var st2 := CookChildStep(cook, g, u, st, parent, c, pending);
      assert CookChildren(cook, g, u, st, parent, children, i) == CookChildren(cook, g, u, st2, parent, children, i + 1);
      CookChildrenComplete(cook, g, u, st2, parent, children, i + 1, pending);
    }
  }

  /** One turn of the child loop keeps completeness and shrinks the set
      of uids still to cook, or keeps it. */
  lemma CookChildStep(cook: Cooker, g: Graph, u: set<string>, st: CookState, parent: TractorTask,
                      c: TaskInfos, pending: set<string>) returns (st2: CookState)
    requires Good(st) && Closed(g, u) && UidsDetermineNames(g) && Handles(st.store, parent)
    requires c.uid in u && c in AllTasks(g)
    requires pending <= st.cooked.Keys && Complete(g, st, pending)
    requires CookTask(cook, g, u, st, c).Ok?
    ensures st2 == CookTask(cook, g, u, st, c).value.0.(store :=
      AttachChild(CookTask(cook, g, u, st, c).value.0.store, parent, CookTask(cook, g, u, st, c).value.1))
    ensures Progress(st, st2) && Handles(st2.store, parent)
    ensures pending <= st2.cooked.Keys && Complete(g, st2, pending)
    ensures |u - st2.cooked.Keys| <= |u - st.cooked.Keys|
    decreases |u - st.cooked.Keys|, 1, 0, 0
  {
    AddPresent(u, c.uid);
    CookTaskComplete(cook, g, u, st, c, pending);
    var (st1, h) := CookTask(cook, g, u, st, c).value;
    st2 := st1.(store := AttachChild(st1.store, parent, h));
    AttachProgress(st, st1, parent, h);
    CompleteKept(g, st1, st2, pending, pending);
    SubsetCard(u - st2.cooked.Keys, u - st.cooked.Keys);
  }

  // ---------------------------------------------------------------------------
  // Every memoised task carries what its node cooked to
  // ---------------------------------------------------------------------------

  /** The author task `tt` carries the cooked arguments of some node whose
      uid is `u`. */
  ghost predicate MadeFrom(cook: Cooker, store: Store, tt: TractorTask, u: string)
    requires Handles(store, tt)
  {
    exists t: TaskInfos :: t.uid == u && cook(t).Ok? && Carries(store, tt, cook(t).value)
  }

  /** Every memoised author task carries the cooked arguments of a node
      with that uid. */
  ghost predicate Made(cook: Cooker, st: CookState)
    requires Good(st)
  {
    forall u :: u in st.cooked ==> MadeFrom(cook, st.store, st.cooked[u], u)
  }

  lemma MadeFromExtends(cook: Cooker, a: Store, b: Store, tt: TractorTask, u: string)
    requires Handles(a, tt) && Extends(a, b) && MadeFrom(cook, a, tt, u)
    ensures Handles(b, tt) && MadeFrom(cook, b, tt, u)
  {
    var t: TaskInfos :| t.uid == u && cook(t).Ok? && Carries(a, tt, cook(t).value);
    CarriesExtends(a, b, tt, cook(t).value);
  }

  /** Growing the store without new memo entries keeps what was made. */
  lemma MadeKept(cook: Cooker, st: CookState, st': CookState)
    requires Good(st) && Kept(st, st') && Made(cook, st) && st'.cooked.Keys == st.cooked.Keys
    ensures Made(cook, st')
  {
    forall v | v in st'.cooked ensures MadeFrom(cook, st'.store, st'.cooked[v], v) {
      MadeFromExtends(cook, st.store, st'.store, st.cooked[v], v);
    }
  }

  /** Memoising a freshly cooked node keeps what was made. */
  lemma MadeMemoise(cook: Cooker, st: CookState, t: TaskInfos, s1: Store, tt: TractorTask)
    requires Good(st) && t.uid !in st.cooked && Made(cook, st) && cook(t).Ok?
    requires BuildTractorTask(st.store, t, cook(t).value) == (s1, tt)
    ensures Good(CookState(s1, st.cooked[t.uid := tt]))
    ensures Made(cook, CookState(s1, st.cooked[t.uid := tt]))
  {
    var st1 := CookState(s1, st.cooked[t.uid := tt]);
    MemoiseStep(st, t, cook(t).value, s1, tt);
    BuiltCarries(st.store, t, cook(t).value, s1, tt);
    assert MadeFrom(cook, s1, tt, t.uid);
    forall v | v in st1.cooked ensures MadeFrom(cook, s1, st1.cooked[v], v) {
      if v != t.uid {
        MadeFromExtends(cook, st.store, s1, st.cooked[v], v);
      }
    }
  }

  lemma {:induction false} CookTaskMade(cook: Cooker, g: Graph, u: set<string>, st: CookState, t: TaskInfos)
    requires Good(st) && Closed(g, u) && Made(cook, st)
    requires CookTask(cook, g, u, st, t).Ok?
    ensures Made(cook, CookTask(cook, g, u, st, t).value.0)
    decreases |u + {t.uid} - st.cooked.Keys|, 0
  {
    if t.uid !in st.cooked {
      var (s1, tt) := BuildTractorTask(st.store, t, cook(t).value);
      var st1 := CookState(s1, st.cooked[t.uid := tt]);
      MadeMemoise(cook, st, t, s1, tt);
      MemoiseStep(st, t, cook(t).value, s1, tt);
      var children := Children(g, IdentOf(t));
      ClosedChildren(g, u, IdentOf(t));
      var before, after := u + {t.uid} - st.cooked.Keys, u - st1.cooked.Keys;
      assert after <= before && t.uid in before - after;
      SubsetCard(after, before);
      CookChildrenMade(cook, g, u, st1, tt, children, 0);
      assert CookTask(cook, g, u, st, t).value.0 == CookChildren(cook, g, u, st1, tt, children, 0).value;
    }
  }

  lemma {:induction false} CookChildrenMade(cook: Cooker, g: Graph, u: set<string>, st: CookState,
                                             parent: TractorTask, children: seq<TaskInfos>, i: nat)
    requires Good(st) && Closed(g, u) && Handles(st.store, parent) && i <= |children|
    requires forall c :: c in children ==> c.uid in u
    requires Made(cook, st)
    requires CookChildren(cook, g, u, st, parent, children, i).Ok?
    ensures Made(cook, CookChildren(cook, g, u, st, parent, children, i).value)
    decreases |u - st.cooked.Keys|, 1, |children| - i, 1
  {
    if i < |children| {
      ChildrenMadeFrom(cook, g, u, st, parent, children, i);
    }
  }

  /** `CookChildrenMade` for a loop with at least one child left. */
  lemma {:induction false} ChildrenMadeFrom(cook: Cooker, g: Graph, u: set<string>, st: CookState,
                                             parent: TractorTask, children: seq<TaskInfos>, i: nat)
    requires Good(st) && Closed(g, u) && Handles(st.store, parent) && i < |children|
    requires forall c :: c in children ==> c.uid in u
    requires Made(cook, st)
    requires CookChildren(cook, g, u, st, parent, children, i).Ok?
    ensures Made(cook, CookChildren(cook, g, u, st, parent, children, i).value)
    decreases |u - st.cooked.Keys|, 1, |children| - i, 0
  {
    var st2 := ChildMadeTurn(cook, g, u, st, parent, children, i);
    CookChildrenMade(cook, g, u, st2, parent, children, i + 1);
  }

  /** One turn of the loop in `CookChildrenMade`: the state after the i-th
      child still satisfies the loop's preconditions, is no further from
      the end, and the rest of the loop computes the same result from it. */
  lemma ChildMadeTurn(cook: Cooker, g: Graph, u: set<string>, st: CookState, parent: TractorTask,
                      children: seq<TaskInfos>, i: nat) returns (st2: CookState)
    requires Good(st) && Closed(g, u) && Handles(st.store, parent) && i < |children|
    requires forall c :: c in children ==> c.uid in u
    requires Made(cook, st)
    requires CookChildren(cook, g, u, st, parent, children, i).Ok?
    ensures Good(st2) && Handles(st2.store, parent) && Made(cook, st2)
    ensures |u - st2.cooked.Keys| <= |u - st.cooked.Keys|
    ensures CookChildren(cook, g, u, st, parent, children, i) == CookChildren(cook, g, u, st2, parent, children, i + 1)
    decreases |u - st.cooked.Keys|, 1, 0, 1
  {
    ChildLoopTurnOk(cook, g, u, st, parent, children, i);
    st2 := CookChildMade(cook, g, u, st, parent, children[i]);
    ChildLoopTurn(cook, g, u, st, parent, children, i, st2);
  }

  /** A successful child loop cooks its next child successfully. */
  lemma ChildLoopTurnOk(cook: Cooker, g: Graph, u: set<string>, st: CookState, parent: TractorTask,
                        children: seq<TaskInfos>, i: nat)
    requires Good(st) && Closed(g, u) && Handles(st.store, parent) && i < |children|
    requires forall c :: c in children ==> c.uid in u
    requires CookChildren(cook, g, u, st, parent, children, i).Ok?
    ensures children[i].uid in u && CookTask(cook, g, u, st, children[i]).Ok?
  {
  }

  /** One turn of the child loop: after the i-th child, the loop goes on
      from the state `st2` that cooking and linking it leaves. */
  lemma ChildLoopTurn(cook: Cooker, g: Graph, u: set<string>, st: CookState, parent: TractorTask,
                      children: seq<TaskInfos>, i: nat, st2: CookState)
    requires Good(st) && Closed(g, u) && Handles(st.store, parent) && i < |children|
    requires forall c :: c in children ==> c.uid in u
    requires CookChildren(cook, g, u, st, parent, children, i).Ok?
    requires CookTask(cook, g, u, st, children[i]).Ok?
    requires st2 == CookTask(cook, g, u, st, children[i]).value.0.(store :=
      AttachChild(CookTask(cook, g, u, st, children[i]).value.0.store, parent, CookTask(cook, g, u, st, children[i]).value.1))
    requires Good(st2) && Handles(st2.store, parent)
    ensures CookChildren(cook, g, u, st, parent, children, i) == CookChildren(cook, g, u, st2, parent, children, i + 1)
  {
  }

  /** One turn of the child loop keeps what was made. */
  lemma CookChildMade(cook: Cooker, g: Graph, u: set<string>, st: CookState, parent: TractorTask,
                      c: TaskInfos) returns (st2: CookState)
    requires Good(st) && Closed(g, u) && Handles(st.store, parent) && c.uid in u
    requires Made(cook, st)
    requires CookTask(cook, g, u, st, c).Ok?
    ensures st2 == CookTask(cook, g, u, st, c).value.0.(store :=
      AttachChild(CookTask(cook, g, u, st, c).value.0.store, parent, CookTask(cook, g, u, st, c).value.1))
    ensures Progress(st, st2) && Handles(st2.store, parent) && Made(cook, st2)
    ensures |u - st2.cooked.Keys| <= |u - st.cooked.Keys|
    decreases |u - st.cooked.Keys|, 1, 0, 0
  {
    AddPresent(u, c.uid);
    CookTaskMade(cook, g, u, st, c);
    var (st1, h) := CookTask(cook, g, u, st, c).value;
    st2 := st1.(store := AttachChild(st1.store, parent, h));
    AttachProgress(st, st1, parent, h);
    MadeKept(cook, st1, st2);
    SubsetCard(u - st2.cooked.Keys, u - st.cooked.Keys);
  }

  // ---------------------------------------------------------------------------
  // TaskGraph.cook, Job.cook, Job.submit
  // ---------------------------------------------------------------------------

  lemma TasksInUniverse(g: Graph, ts: seq<TaskInfos>)
    requires forall t :: t in ts ==> t in g.tasks
    ensures forall t :: t in ts ==> t in AllTasks(g) && t.uid in Universe(g)
  {
    forall t | t in ts ensures t in AllTasks(g) && t.uid in Universe(g) {
      assert t in (set t | t in g.tasks);
    }
  }

  /** `TaskGraph.cook(jobTask)`: every root is cooked in turn and linked
      under the job task, exactly like the children of a node. */
  function GraphCook(cook: Cooker, g: Graph, st: CookState, jobTask: nat): (r: Result<CookState>)
    requires Good(st) && jobTask < |st.store.nodes|
    ensures r.Ok? ==> Progress(st, r.value) && jobTask < |r.value.store.nodes|
    ensures r.Ok? ==> forall t :: t in Roots(g) ==>
      t.uid in r.value.cooked && r.value.cooked[t.uid].task in r.value.store.nodes[jobTask].children
  {
    UniverseClosed(g);
    TasksInUniverse(g, Roots(g));
    var st' :- CookChildren(cook, g, Universe(g), st, TractorTask(jobTask, []), Roots(g), 0);
    assert forall t :: t in Roots(g) ==> exists j :: 0 <= j < |Roots(g)| && Roots(g)[j] == t;
    Ok(st')
  }

  /** A cooked job: the job's arguments, the store of author tasks and the
      memo of cooked nodes. The job task is the first task of the store. */
  datatype CookedJob = CookedJob(kwargs: JobKwargs, store: Store, cooked: map<string, TractorTask>)

  /** The job task: titled after the job, without a command, running its
      subtasks one after the other when the graph has a single leaf. */
  function JobTaskKwargs(job: Job): TaskKwargs {
    TaskKwargs(job.infos.name, None, "", [], |Leaves(job.graph)| == 1)
  }

  /** The placeholder task a job without tasks gets. */
  function DummyKwargs(): TaskKwargs {
    TaskKwargs("dummy", None, "", [], false)
  }

  /** The tasks of `Job.cook()` with the node cooker `cook`: the job task
      comes first, every root of the graph is linked under it, and a graph
      without tasks gets the dummy task as a second top-level task. */
  function JobTasks(cook: Cooker, g: Graph, jobKwargs: TaskKwargs): (r: Result<CookState>)
    ensures g.tasks == [] ==> r.Ok?
    ensures r.Ok? ==> var st := r.value;
      && Good(st)
      && st.store.top == (if g.tasks == [] then [0, 1] else [0])
      && 0 < |st.store.nodes|
      && st.store.nodes[0].kwargs == jobKwargs
      && (g.tasks == [] ==> 1 < |st.store.nodes| && st.store.nodes[1].kwargs == DummyKwargs())
      && (forall t :: t in Roots(g) ==>
            t.uid in st.cooked && st.cooked[t.uid].task in st.store.nodes[0].children)
  {
    var (s0, jt) := NewTopTask(Store([], []), jobKwargs);
    var st :- GraphCook(cook, g, CookState(s0, map[]), jt);
    if g.tasks == [] then
      var (s1, _) := NewTopTask(st.store, DummyKwargs());
      Ok(CookState(s1, st.cooked))
    else Ok(st)
  }

  /** `Job.cook()` with the node cooker `cook`. */
  function JobCookWith(cook: Cooker, job: Job): Result<CookedJob> {
    var st :- JobTasks(cook, job.graph, JobTaskKwargs(job));
    Ok(CookedJob(CookJobInfos(job.infos), st.store, st.cooked))
  }

  /** `Job.cook()`: nodes are cooked by `CookNodeArgs`. */
  function JobCook(env: Environ, python: string, job: Job): Result<CookedJob> {
    JobCookWith((t: TaskInfos) => CookNodeArgs(env, python, t), job)
  }

  /** A cooked job carries the job's own arguments and its task: titled
      after the job, without a command, serial exactly when the graph has
      one leaf. */
  lemma JobCookShape(cook: Cooker, job: Job)
    requires JobCookWith(cook, job).Ok?
    ensures var cj := JobCookWith(cook, job).value;
      && cj.kwargs == CookJobInfos(job.infos)
      && 0 < |cj.store.nodes|
      && cj.store.nodes[0].kwargs.title == job.infos.name
      && cj.store.nodes[0].kwargs.argv.None?
      && (cj.store.nodes[0].kwargs.serialsubtasks <==> |Leaves(job.graph)| == 1)
  {
  }

  /** The job's tractor graph keeps every dependency of the node graph:
      whenever a node was cooked, each of its children was cooked too and
      runs before it, as a child of its task or of each of its chunk
      tasks. */
  lemma JobTasksKeepDependencies(cook: Cooker, g: Graph, jobKwargs: TaskKwargs)
    requires UidsDetermineNames(g) && JobTasks(cook, g, jobKwargs).Ok?
    ensures var fin := JobTasks(cook, g, jobKwargs).value;
      forall t, c :: t in AllTasks(g) && t.uid in fin.cooked && c in Children(g, IdentOf(t)) ==>
        c.uid in fin.cooked && Attached(fin.store, fin.cooked[t.uid], fin.cooked[c.uid].task)
  {
    var (s0, jt) := NewTopTask(Store([], []), jobKwargs);
    var st0 := CookState(s0, map[]);
    UniverseClosed(g);
    TasksInUniverse(g, Roots(g));
    CookChildrenComplete(cook, g, Universe(g), st0, TractorTask(jt, []), Roots(g), 0, {});
    var st := CookChildren(cook, g, Universe(g), st0, TractorTask(jt, []), Roots(g), 0).value;
    var fin := JobTasks(cook, g, jobKwargs).value;
    assert Kept(st, fin);
    CompleteKept(g, st, fin, {}, {});
    forall t, c | t in AllTasks(g) && t.uid in fin.cooked && c in Children(g, IdentOf(t))
      ensures c.uid in fin.cooked && Attached(fin.store, fin.cooked[t.uid], fin.cooked[c.uid].task)
    {
      assert Linked(g, fin, t);
      var j :| 0 <= j < |Children(g, IdentOf(t))| && Children(g, IdentOf(t))[j] == c;
    }
  }

  /** Every node task of the job carries what its node cooked to: every
      memoised author task, the roots' included, holds the cooked arguments
      of a node with its uid, and its chunk tasks those of that node's
      chunks, in order. */
  lemma JobTasksCarryArgs(cook: Cooker, g: Graph, jobKwargs: TaskKwargs)
    requires JobTasks(cook, g, jobKwargs).Ok?
    ensures Made(cook, JobTasks(cook, g, jobKwargs).value)
  {
    var (s0, jt) := NewTopTask(Store([], []), jobKwargs);
    var st0 := CookState(s0, map[]);
    UniverseClosed(g);
    TasksInUniverse(g, Roots(g));
    CookChildrenMade(cook, g, Universe(g), st0, TractorTask(jt, []), Roots(g), 0);
    var st := CookChildren(cook, g, Universe(g), st0, TractorTask(jt, []), Roots(g), 0).value;
    var fin := JobTasks(cook, g, jobKwargs).value;
    assert Kept(st, fin);
    MadeKept(cook, st, fin);
  }

  /** `PRIORITY_DICT.get(priority, 5000)`. */
  function PriorityOf(priority: string): (p: int)
    ensures p == 4000 <==> priority == "low"
    ensures p == 10000 <==> priority == "high"
    ensures p == 5000 <==> priority != "low" && priority != "high"
  {
    if priority == "low" then 4000
    else if priority == "high" then 10000
    else 5000
  }

  /** The named priorities are ordered, and an unknown name falls back to
      the normal one. */
  lemma PriorityOrder(other: string)
    requires other != "low" && other != "high"
    ensures PriorityOf("low") < PriorityOf("normal") < PriorityOf("high")
    ensures PriorityOf(other) == PriorityOf("normal")
  {
  }

  /** What is spooled: the cooked job, its priority and the owner it is
      spooled as. */
  datatype Submission = Submission(job: CookedJob, priority: int, owner: string)

  /** `Job.submit(priority, share)`: a non-empty `share` is stored on the
      job's infos, where it stays for later submissions whether or not this
      one succeeds; then the job is cooked and spooled with its priority as
      the job's user. The result is the job's infos and graph afterwards and
      the outcome of this submission. Every cook here starts from an empty
      memo, unlike the code's `TaskGraph.__cooked`, which lasts as long as
      the graph. */
  function Submit(env: Environ, python: string, job: Job, priority: string, share: string)
    : (r: (Job, Result<Submission>))
    ensures r.0.graph == job.graph
    ensures r.0.infos == job.infos.(share := if share != "" then Raw(share) else job.infos.share)
    ensures r.1.Ok? <==> JobCook(env, python, job).Ok?
    ensures r.1.Ok? ==>
      && r.1.value.priority == PriorityOf(priority)
      && r.1.value.owner == job.infos.user
      && r.1.value.job.kwargs.projects == [r.0.infos.share]
      && r.1.value.job.store == JobCook(env, python, job).value.store
      && r.1.value.job.cooked == JobCook(env, python, job).value.cooked
  {
    var job' := if share != "" then job.(infos := job.infos.(share := Raw(share))) else job;
    assert JobTaskKwargs(job') == JobTaskKwargs(job);
    var submission := match JobCook(env, python, job')
      case Err(e) => Err(e)
      case Ok(cooked) => Ok(Submission(cooked, PriorityOf(priority), job'.infos.user));
    (job', submission)
  }

  /** A share given to one submission is the share of every later one that
      gives none. */
  lemma SubmitShareSticks(env: Environ, python: string, job: Job, priority: string, share: string,
                          priority': string)
    requires share != ""
    requires Submit(env, python, Submit(env, python, job, priority, share).0, priority', "").1.Ok?
    ensures Submit(env, python, Submit(env, python, job, priority, share).0, priority', "").1.value.job.kwargs.projects
      == [Raw(share)]
  {
  }

}

=== FILE: dicts.dfy ===
/** Python dicts as the submitter uses them: insertion-ordered string-keyed
    maps (`tags`, task environments), and their JSON text. */
module Dicts {
  import opened Results
  import opened Text

  /** The values that occur in task tags: strings and integers. */
  datatype Value = Str(s: string) | Int(i: int)

  /** A list of (key, value) entries. */
  type Entries<V> = seq<(string, V)>

  predicate UniqueKeys<V>(d: Entries<V>) {
    forall i, j :: 0 <= i < j < |d| ==> d[i].0 != d[j].0
  }

  /** An insertion-ordered dict: entries with pairwise distinct keys. */
  type Dict<V> = d: Entries<V> | UniqueKeys(d) witness []

  function Keys<V>(d: Entries<V>): set<string> {
    set i | 0 <= i < |d| :: d[i].0
  }

  /** `d.get(k)`. */
  function Get<V>(d: Entries<V>, k: string): (r: Option<V>)
    ensures r.Some? <==> k in Keys(d)
    ensures r.Some? ==> exists i :: 0 <= i < |d| && d[i] == (k, r.value)
  {
    if |d| == 0 then None
    else if d[|d| - 1].0 == k then Some(d[|d| - 1].1)
    else Get(d[..|d| - 1], k)
  }

  /** `d[k] = v`: an existing key keeps its position, a new key goes last. */
  function Put<V>(d: Dict<V>, k: string, v: V): (r: Dict<V>)
    ensures Keys(r) == Keys(d) + {k}
    ensures Get(r, k) == Some(v)
    ensures forall k' :: k' != k ==> Get(r, k') == Get(d, k')
    ensures k in Keys(d) ==> |r| == |d| && forall i :: 0 <= i < |d| && d[i].0 != k ==> r[i] == d[i]
    ensures k !in Keys(d) ==> r == d + [(k, v)]
  {
    if k in Keys(d) then
      var r := seq(|d|, i requires 0 <= i < |d| => if d[i].0 == k then (k, v) else d[i]);
      assert Keys(r) == Keys(d) by {
        assert forall i :: 0 <= i < |d| ==> r[i].0 == d[i].0;
      }
      GetUnique(r, k, v);
      GetSameKeys(d, r, k);
      r
    else
      var r := d + [(k, v)];
      assert Keys(r) == Keys(d) + {k} by {
        assert forall i :: 0 <= i < |d| ==> r[i] == d[i];
        assert r[|d|].0 == k;
        forall x | x in Keys(r) ensures x in Keys(d) + {k} {
          var i :| 0 <= i < |r| && r[i].0 == x;
          if i < |d| { assert d[i].0 == x; }
        }
      }
      assert r[..|r| - 1] == d;
      r
  }

  lemma GetUnique<V>(d: Entries<V>, k: string, v: V)
    requires UniqueKeys(d)
    requires exists i :: 0 <= i < |d| && d[i] == (k, v)
    ensures Get(d, k) == Some(v)
  {
    var r := Get(d, k);
    var i :| 0 <= i < |d| && d[i] == (k, v);
    var j :| 0 <= j < |d| && d[j] == (k, r.value);
    assert i == j;
  }

  /** Two dicts that differ only at key `k` agree on every other key. */
  lemma {:induction false} GetSameKeys<V>(d: Entries<V>, r: Entries<V>, k: string)
    requires |r| == |d|
    requires forall i :: 0 <= i < |d| ==> r[i].0 == d[i].0
    requires forall i :: 0 <= i < |d| && d[i].0 != k ==> r[i] == d[i]
    ensures forall k' :: k' != k ==> Get(r, k') == Get(d, k')
    decreases |d|
  {
    if |d| > 0 {
      GetSameKeys(d[..|d| - 1], r[..|r| - 1], k);
    }
  }

  // ---------------------------------------------------------------------------
  // json.dumps
  // ---------------------------------------------------------------------------

  function Quote(s: string): string {
    "\"" + s + "\""
  }

  function ValueJson(v: Value): string {
    match v
    case Str(s) => Quote(s)
    case Int(i) => IntToString(i)
  }

  /** `json.dumps(d)` with the default separators `", "` and `": "`;
      string escaping is not modelled. */
  function DumpJson(d: Dict<Value>): (r: string)
    ensures |r| >= 2 && r[0] == '{' && r[|r| - 1] == '}'
  {
    "{" + Join(seq(|d|, i requires 0 <= i < |d| => Quote(d[i].0) + ": " + ValueJson(d[i].1)), ", ") + "}"
  }
}

=== FILE: graph.dfy ===
/** The submitter's own task graph (`Task`, `TaskGraph`) and the job that
    owns it (`Job.__init__`, `Job.createTask`). A task is identified by the
    set {"TractorTask", name, uid}: that is what its hash is built from, and
    equality compares hashes. Child and parent sets are kept per identity,
    as duplicate-free lists in insertion order. */
module Graph {
  import opened Results
  import opened Dicts
  import opened Infos

  type Ident = set<string>

  /** `hash(frozenset(["TractorTask", name, uid]))`, before hashing. */
  function IdentOf(t: TaskInfos): Ident {
    {"TractorTask", t.name, t.uid}
  }

  /** Two tasks are equal when their name and uid agree ... */
  lemma SameNameAndUidSameIdent(a: TaskInfos, b: TaskInfos)
    requires a.name == b.name && a.uid == b.uid
    ensures IdentOf(a) == IdentOf(b)
  {
  }

  /** ... and also when the name of one is the uid of the other and
      conversely, because the identity is an unordered set. */
  lemma SwappedNameAndUidSameIdent(a: TaskInfos, b: TaskInfos)
    requires a.name == b.uid && a.uid == b.name
    ensures IdentOf(a) == IdentOf(b)
  {
  }

  /** Apart from that swap, equal identities mean equal names and uids,
      as long as neither is the literal "TractorTask". */
  lemma SameIdentSameNames(a: TaskInfos, b: TaskInfos)
    requires IdentOf(a) == IdentOf(b)
    requires "TractorTask" !in {a.name, a.uid, b.name, b.uid}
    ensures (a.name == b.name && a.uid == b.uid) || (a.name == b.uid && a.uid == b.name)
  {
    assert a.name in IdentOf(b) && a.uid in IdentOf(b);
    assert b.name in IdentOf(a) && b.uid in IdentOf(a);
  }

  function Idents(xs: seq<TaskInfos>): set<Ident> {
    set x | x in xs :: IdentOf(x)
  }

  predicate UniqueIdents(xs: seq<TaskInfos>) {
    forall i, j :: 0 <= i < j < |xs| ==> IdentOf(xs[i]) != IdentOf(xs[j])
  }

  /** `s.add(t)` on a set of tasks: nothing happens if an equal task is in. */
  function AddTask(xs: seq<TaskInfos>, t: TaskInfos): (r: seq<TaskInfos>)
    ensures Idents(r) == Idents(xs) + {IdentOf(t)}
    ensures UniqueIdents(xs) ==> UniqueIdents(r)
    ensures IdentOf(t) in Idents(xs) ==> r == xs
    ensures IdentOf(t) !in Idents(xs) ==> r == xs + [t]
  {
    if IdentOf(t) in Idents(xs) then xs
    else
      var r := xs + [t];
      assert Idents(r) == Idents(xs) + {IdentOf(t)} by {
        assert r[|xs|] == t;
        forall y | y in r ensures y in xs || y == t {
          var i :| 0 <= i < |r| && r[i] == y;
          if i < |xs| { assert xs[i] == y; }
        }
      }
      assert forall i :: 0 <= i < |xs| ==> IdentOf(xs[i]) in Idents(xs);
      r
  }

  /** The tasks created by `Job.createTask` and, per task identity, the
      contents of its `_children` and `_parents` sets. */
  datatype Graph = Graph(tasks: seq<TaskInfos>, children: map<Ident, seq<TaskInfos>>, parents: map<Ident, seq<TaskInfos>>)

  function Children(g: Graph, a: Ident): seq<TaskInfos> {
    if a in g.children then g.children[a] else []
  }

  function Parents(g: Graph, a: Ident): seq<TaskInfos> {
    if a in g.parents then g.parents[a] else []
  }

  function EmptyGraph(): (g: Graph)
    ensures Symmetric(g) && UniqueIdents(g.tasks)
  {
    Graph([], map[], map[])
  }

  /** Every child link has its parent link, and conversely. */
  ghost predicate Symmetric(g: Graph) {
    forall a: Ident, b: Ident :: b in Idents(Children(g, a)) <==> a in Idents(Parents(g, b))
  }

  /** Adding a task already present by identity changes nothing. */
  lemma AddTaskIdempotent(xs: seq<TaskInfos>, t: TaskInfos)
    ensures AddTask(AddTask(xs, t), t) == AddTask(xs, t)
  {
  }

  /** `s.update(ts)` on a set of tasks: each task in turn. */
  function AddTasks(xs: seq<TaskInfos>, ts: seq<TaskInfos>): (r: seq<TaskInfos>)
    ensures Idents(r) == Idents(xs) + Idents(ts)
    ensures UniqueIdents(xs) ==> UniqueIdents(r)
    ensures xs <= r
    decreases |ts|
  {
    if |ts| == 0 then xs
    else
      IdentsCons(ts);
      AddTasks(AddTask(xs, ts[0]), ts[1..])
  }

  lemma IdentsCons(xs: seq<TaskInfos>)
    requires |xs| > 0
    ensures Idents(xs) == {IdentOf(xs[0])} + Idents(xs[1..])
  {
    forall y | y in xs ensures y == xs[0] || y in xs[1..] {
      var i :| 0 <= i < |xs| && xs[i] == y;
      if i > 0 { assert xs[1..][i - 1] == y; }
    }
  }

  /** `parent._children.add(child); child._parents.add(parent)`. */
  function Link(g: Graph, parent: TaskInfos, child: TaskInfos): (r: Graph)
    ensures r.tasks == g.tasks
    ensures Children(r, IdentOf(parent)) == AddTask(Children(g, IdentOf(parent)), child)
    ensures forall a :: a != IdentOf(parent) ==> Children(r, a) == Children(g, a)
    ensures Parents(r, IdentOf(child)) == AddTask(Parents(g, IdentOf(child)), parent)
    ensures forall b :: b != IdentOf(child) ==> Parents(r, b) == Parents(g, b)
  {
    var p := IdentOf(parent);
    var c := IdentOf(child);
    Graph(g.tasks,
          g.children[p := AddTask(Children(g, p), child)],
          g.parents[c := AddTask(Parents(g, c), parent)])
  }

  /** `addChild` on a list: each task in turn. */
  function LinkAll(g: Graph, parent: TaskInfos, children: seq<TaskInfos>): (r: Graph)
    ensures r.tasks == g.tasks
    ensures Children(r, IdentOf(parent)) == AddTasks(Children(g, IdentOf(parent)), children)
    ensures forall a :: a != IdentOf(parent) ==> Children(r, a) == Children(g, a)
    ensures forall b :: b in Idents(children) ==> Parents(r, b) == AddTask(Parents(g, b), parent)
    ensures forall b :: b !in Idents(children) ==> Parents(r, b) == Parents(g, b)
    decreases |children|
  {
    if |children| == 0 then g
    else
      var g1 := Link(g, parent, children[0]);
      var r := LinkAll(g1, parent, children[1..]);
      IdentsCons(children);
      forall b | b in Idents(children) ensures Parents(r, b) == AddTask(Parents(g, b), parent) {
        if b == IdentOf(children[0]) && b in Idents(children[1..]) {
          AddTaskIdempotent(Parents(g, b), parent);
        }
      }
      r
  }

  /** The argument of `addChild`: one task, or a list or tuple whose items
      are themselves arguments of `addChild`. */
  datatype ChildArg = One(task: TaskInfos) | Many(items: seq<ChildArg>)

  /** The tasks `addChild(arg)` links, in order: nested lists flattened
      depth first. */
  function ArgTasks(arg: ChildArg): seq<TaskInfos>
    decreases arg
  {
    match arg
    case One(t) => [t]
    case Many(items) => ItemsTasks(items)
  }

  function ItemsTasks(items: seq<ChildArg>): seq<TaskInfos>
    decreases items
  {
    if items == [] then [] else ArgTasks(items[0]) + ItemsTasks(items[1..])
  }

  /** `Task.addChild(task)`: a list is added item by item, recursively. */
  function AddChild(g: Graph, parent: TaskInfos, arg: ChildArg): (r: Graph)
    ensures r.tasks == g.tasks
    ensures Children(r, IdentOf(parent)) == AddTasks(Children(g, IdentOf(parent)), ArgTasks(arg))
    ensures forall a :: a != IdentOf(parent) ==> Children(r, a) == Children(g, a)
    ensures forall b :: b in Idents(ArgTasks(arg)) ==> Parents(r, b) == AddTask(Parents(g, b), parent)
    ensures forall b :: b !in Idents(ArgTasks(arg)) ==> Parents(r, b) == Parents(g, b)
  {
    LinkAll(g, parent, ArgTasks(arg))
  }

  /** Linking two lists in a row is linking their concatenation. */
  lemma {:induction false} LinkAllConcat(g: Graph, parent: TaskInfos, xs: seq<TaskInfos>, ys: seq<TaskInfos>)
    ensures LinkAll(g, parent, xs + ys) == LinkAll(LinkAll(g, parent, xs), parent, ys)
    decreases |xs|
  {
    if xs == [] {
      assert xs + ys == ys;
    } else {
      assert (xs + ys)[0] == xs[0];
      assert (xs + ys)[1..] == xs[1..] + ys;
      LinkAllConcat(Link(g, parent, xs[0]), parent, xs[1..], ys);
    }
  }

  /** `addChild` of an empty list links nothing. */
  lemma AddChildNone(g: Graph, parent: TaskInfos)
    ensures AddChild(g, parent, Many([])) == g
  {
    assert ArgTasks(Many([])) == [];
  }

  /** `addChild` of a list is the loop `for t in task: self.addChild(t)`:
      the first item is linked, then the rest. */
  lemma AddChildEach(g: Graph, parent: TaskInfos, items: seq<ChildArg>)
    requires items != []
    ensures AddChild(g, parent, Many(items)) == AddChild(AddChild(g, parent, items[0]), parent, Many(items[1..]))
  {
    var xs := ArgTasks(items[0]);
    var ys := ItemsTasks(items[1..]);
    assert ArgTasks(Many(items)) == xs + ys;
    assert ArgTasks(Many(items[1..])) == ys;
    LinkAllConcat(g, parent, xs, ys);
  }

  /** After `addChild`, `a` has child `x` exactly when it had it before or
      `a` is the parent and `x` one of the added tasks; and symmetrically for
      parents. */
  lemma AddChildLinks(g: Graph, parent: TaskInfos, arg: ChildArg, a: Ident, x: Ident)
    ensures var r := AddChild(g, parent, arg);
      && (x in Idents(Children(r, a)) <==>
          x in Idents(Children(g, a)) || (a == IdentOf(parent) && x in Idents(ArgTasks(arg))))
      && (x in Idents(Parents(r, a)) <==>
          x in Idents(Parents(g, a)) || (a in Idents(ArgTasks(arg)) && x == IdentOf(parent)))
  {
  }

  /** Adding a child keeps child and parent links mirror images. */
  lemma AddChildSymmetric(g: Graph, parent: TaskInfos, arg: ChildArg)
    requires Symmetric(g)
    ensures Symmetric(AddChild(g, parent, arg))
  {
    var r := AddChild(g, parent, arg);
    forall a: Ident, b: Ident
      ensures b in Idents(Children(r, a)) <==> a in Idents(Parents(r, b))
    {
      AddChildLinks(g, parent, arg, a, b);
      AddChildLinks(g, parent, arg, b, a);
    }
  }

  /** The tasks of `ts` without a parent, in order. */
  function Orphans(g: Graph, ts: seq<TaskInfos>): (r: seq<TaskInfos>)
    ensures forall t :: t in r <==> t in ts && Idents(Parents(g, IdentOf(t))) == {}
    ensures |r| <= |ts|
  {
    if |ts| == 0 then []
    else
      var t := ts[|ts| - 1];
      var rest := Orphans(g, ts[..|ts| - 1]);
      assert forall x :: x in ts <==> x in ts[..|ts| - 1] || x == t;
      if Idents(Parents(g, IdentOf(t))) == {} then rest + [t] else rest
  }

  /** The tasks of `ts` without a child, in order. */
  function Childless(g: Graph, ts: seq<TaskInfos>): (r: seq<TaskInfos>)
    ensures forall t :: t in r <==> t in ts && Idents(Children(g, IdentOf(t))) == {}
    ensures |r| <= |ts|
  {
    if |ts| == 0 then []
    else
      var t := ts[|ts| - 1];
      var rest := Childless(g, ts[..|ts| - 1]);
      assert forall x :: x in ts <==> x in ts[..|ts| - 1] || x == t;
      if Idents(Children(g, IdentOf(t))) == {} then rest + [t] else rest
  }

  /** `TaskGraph.roots`: the created tasks without a parent. */
  function Roots(g: Graph): seq<TaskInfos> {
    Orphans(g, g.tasks)
  }

  /** `TaskGraph.leaves`: the created tasks without a child. */
  function Leaves(g: Graph): seq<TaskInfos> {
    Childless(g, g.tasks)
  }

  /** After `parent.addChild(child)` the child is no root and the parent no
      leaf. */
  lemma LinkedNotRootNotLeaf(g: Graph, parent: TaskInfos, child: TaskInfos)
    requires parent in g.tasks && child in g.tasks
    ensures var r := AddChild(g, parent, One(child));
      && child !in Roots(r)
      && parent !in Leaves(r)
  {
    AddChildLinks(g, parent, One(child), IdentOf(child), IdentOf(parent));
    AddChildLinks(g, parent, One(child), IdentOf(parent), IdentOf(child));
  }

  // ---------------------------------------------------------------------------
  // Job
  // ---------------------------------------------------------------------------

  /** A `Job`: its `JobInfos` and its task graph. */
  datatype Job = Job(infos: JobInfos, graph: Graph)

  /** `Job(name, tags, requirements, environment, user, comment, paused)`:
      the share is resolved from the environment. */
  function NewJob(env: Environ, name: string, tags: Dict<Value>, requirements: string,
                  environment: Dict<string>, user: string, currentUser: string,
                  comment: string, paused: bool): (r: Result<Job>)
    ensures r.Ok? <==> ResolveService(env, requirements).Ok?
    ensures r.Ok? ==> r.value.graph == EmptyGraph() && r.value.infos.share == GetShare(env, "")
  {
    var infos :- NewJobInfos(env, name, "", requirements, environment, tags, user, currentUser, comment, paused);
    Ok(Job(infos, EmptyGraph()))
  }

  /** Position of the first task with identity `id`. */
  function FindIdent(xs: seq<TaskInfos>, id: Ident): (r: Option<nat>)
    ensures r.None? <==> id !in Idents(xs)
    ensures r.Some? ==> r.value < |xs| && IdentOf(xs[r.value]) == id
  {
    if |xs| == 0 then None
    else if IdentOf(xs[0]) == id then Some(0)
    else
      var r := FindIdent(xs[1..], id);
      assert forall x :: x in xs <==> x == xs[0] || x in xs[1..];
      match r
      case None => None
      case Some(i) => Some(i + 1)
  }

  /** `Job.createTask(...)`: builds the task's infos (an invalid service or
      chunk description is an error), then returns the already created
      task equal to it if there is one, and otherwise adds it. */
  function CreateTask(env: Environ, job: Job, name: string, commandArgs: string, uid: string,
                      tags: Dict<Value>, rezPackages: seq<string>, service: string,
                      licenses: seq<string>, expandingTask: bool,
                      chunkParams: Option<map<string, int>>): (r: Result<(Job, TaskInfos)>)
    ensures var infos := NewTaskInfos(env, name, commandArgs, uid, [], rezPackages, service, licenses,
                                      tags, expandingTask, chunkParams);
      && (r.Ok? <==> infos.Ok?)
      && (r.Ok? ==>
        var (job', task) := r.value;
        && job'.infos == job.infos
        && job'.graph.children == job.graph.children && job'.graph.parents == job.graph.parents
        && task in job'.graph.tasks
        && IdentOf(task) == IdentOf(infos.value)
        && Idents(job'.graph.tasks) == Idents(job.graph.tasks) + {IdentOf(task)}
        && (UniqueIdents(job.graph.tasks) ==> UniqueIdents(job'.graph.tasks))
        && (IdentOf(task) in Idents(job.graph.tasks) ==> job' == job && task in job.graph.tasks)
        && (IdentOf(task) !in Idents(job.graph.tasks) ==>
              job'.graph.tasks == job.graph.tasks + [infos.value] && task == infos.value))
  {
    var infos :- NewTaskInfos(env, name, commandArgs, uid, [], rezPackages, service, licenses,
                              tags, expandingTask, chunkParams);
    var tasks := job.graph.tasks;
    match FindIdent(tasks, IdentOf(infos))
    case Some(i) => Ok((job, tasks[i]))
    case None =>
      var tasks' := AddTask(tasks, infos);
      Ok((job.(graph := job.graph.(tasks := tasks')), infos))
  }
}

=== FILE: infos.dfy ===
/** The argument builders of base.py: `toTractorEnv`, `TaskInfos`
    (construction, limits, `cook`), `ChunkTaskInfos.cook` and `JobInfos`.
    Each `cook` returns the keyword arguments later given to the Tractor
    author API; the metadata dict is kept as a dict (its text is
    `Dicts.DumpJson` of it). */
module Infos {
  import opened Results
  import opened Text
  import opened Lists
  import opened Dicts
  import opened Chunks
  import opened Rez

  // ---------------------------------------------------------------------------
  // toTractorEnv
  // ---------------------------------------------------------------------------

  function SetenvEntry(key: string, value: string): string {
    "setenv " + key + "=" + value
  }

  /** `toTractorEnv(environment)`: one `setenv key=value` per entry, in order. */
  function ToTractorEnv(environment: Dict<string>): (envkey: seq<string>)
    ensures |envkey| == |environment|
  {
    seq(|environment|, i requires 0 <= i < |environment| => SetenvEntry(environment[i].0, environment[i].1))
  }

  /** Reads a `setenv key=value` entry back: the key ends at the first `=`. */
  function ParseSetenv(entry: string): Option<(string, string)> {
    if |entry| >= 7 && entry[..7] == "setenv " && '=' in entry[7..] then
      var rest := entry[7..];
      var i := IndexOf(rest, '=');
      Some((rest[..i], rest[i + 1..]))
    else None
  }

  /** Every envkey entry reads back as the environment entry it came from,
      provided no key contains `=` (true of environment variable names). */
  lemma EnvKeyRoundTrip(environment: Dict<string>)
    requires forall i :: 0 <= i < |environment| ==> '=' !in environment[i].0
    ensures forall i :: 0 <= i < |environment| ==> ParseSetenv(ToTractorEnv(environment)[i]) == Some(environment[i])
  {
    forall i | 0 <= i < |environment|
      ensures ParseSetenv(ToTractorEnv(environment)[i]) == Some(environment[i])
    {
      var (k, v) := environment[i];
      var e := SetenvEntry(k, v);
      assert e[..7] == "setenv ";
      var rest := e[7..];
      assert rest == k + "=" + v;
      assert rest[..|k|] == k;
      IndexOfUnique(rest, '=', |k|);
      assert rest[|k| + 1..] == v;
    }
  }

  // ---------------------------------------------------------------------------
  // TaskInfos.getLimits
  // ---------------------------------------------------------------------------

  /** `LICENSES_MAP.get(license, license)`. */
  function LicenseLimit(license: string): string {
    if license == "mtoa" then "arnold"
    else if license == "houdiniE" then "houdinie"
    else license
  }

  function MapLicenses(licenses: seq<string>): (limits: seq<string>)
    decreases |licenses|
  {
    if |licenses| == 0 then [] else [LicenseLimit(licenses[0])] + MapLicenses(licenses[1..])
  }

  /** `TaskInfos.getLimits(licenses)`; `None` is the empty list. */
  function GetLimits(env: Environ, licenses: seq<string>): (limits: seq<string>)
    ensures |limits| == |licenses| + if "DEFAULT_TRACTOR_LIMIT" in env then 1 else 0
    ensures forall i :: 0 <= i < |licenses| ==> limits[i] == LicenseLimit(licenses[i])
    ensures "DEFAULT_TRACTOR_LIMIT" in env ==> limits[|licenses|] == env["DEFAULT_TRACTOR_LIMIT"]
  {
    MapLicensesSpec(licenses);
    MapLicenses(licenses) + if "DEFAULT_TRACTOR_LIMIT" in env then [env["DEFAULT_TRACTOR_LIMIT"]] else []
  }

  lemma {:induction false} MapLicensesSpec(licenses: seq<string>)
    ensures |MapLicenses(licenses)| == |licenses|
    ensures forall i :: 0 <= i < |licenses| ==> MapLicenses(licenses)[i] == LicenseLimit(licenses[i])
    decreases |licenses|
  {
    if |licenses| > 0 {
      MapLicensesSpec(licenses[1..]);
    }
  }

  // ---------------------------------------------------------------------------
  // TaskInfos
  // ---------------------------------------------------------------------------

  datatype TaskInfos = TaskInfos(
    name: string,
    uid: string,
    cmdArgs: string,
    environment: Dict<string>,
    rezPackages: seq<string>,
    service: string,
    limits: seq<string>,
    tags: Dict<Value>,
    expanding: bool,
    chunks: Option<seq<Chunk>>)
  {
    /** `taskInfos.envkey`. */
    function EnvKey(): seq<string> {
      ToTractorEnv(environment)
    }

    /** The task has chunk tasks: a non-empty chunk list. */
    predicate Chunked() {
      chunks.Some? && chunks.value != []
    }
  }

  /** `service or os.environ.get('DEFAULT_TRACTOR_SERVICE')`, raising when
      both are empty. */
  function ResolveService(env: Environ, service: string): (r: Result<string>)
    ensures r.Ok? ==> r.value != ""
    ensures service != "" ==> r == Ok(service)
    ensures service == "" ==> (r.Ok? <==> EnvGet(env, "DEFAULT_TRACTOR_SERVICE", "") != "")
    ensures r.Err? ==> r.error == MissingService
  {
    if service != "" then Ok(service)
    else if EnvGet(env, "DEFAULT_TRACTOR_SERVICE", "") != "" then Ok(env["DEFAULT_TRACTOR_SERVICE"])
    else Err(MissingService)
  }

  /** `TaskInfos(...)`. Empty `environment`, `rezPackages`, `licenses`, `tags`
      and `service` stand for the Python defaults. */
  function NewTaskInfos(env: Environ, name: string, cmdArgs: string, uid: string,
                        environment: Dict<string>, rezPackages: seq<string>, service: string,
                        licenses: seq<string>, tags: Dict<Value>, expanding: bool,
                        chunkParams: Option<map<string, int>>): (r: Result<TaskInfos>)
    ensures ResolveService(env, service).Err? ==> r == Err(MissingService)
    ensures r.Err? <==> ResolveService(env, service).Err? || (!expanding && GetChunks(chunkParams).Err?)
    ensures r.Ok? ==>
      && r.value.name == name && r.value.uid == uid
      && r.value.service == ResolveService(env, service).value
      && r.value.limits == GetLimits(env, licenses)
      && Get(r.value.tags, "nodeUid") == Some(Str(uid))
      && (forall k :: k != "nodeUid" ==> Get(r.value.tags, k) == Get(tags, k))
      && (expanding ==> r.value.chunks == Some([]))
      && (!expanding ==> r.value.chunks == GetChunks(chunkParams).value)
      && r.value.expanding == expanding
  {
    var svc :- ResolveService(env, service);
    var limits := GetLimits(env, licenses);
    var taskTags := Put(tags, "nodeUid", Str(uid));
    var chunks :- if expanding then Ok(Some([])) else GetChunks(chunkParams);
    Ok(TaskInfos(name, uid, cmdArgs, environment, rezPackages, svc, limits, taskTags, expanding, chunks))
  }

  /** Keyword arguments of an author-API task. */
  datatype TaskKwargs = TaskKwargs(
    title: string,
    argv: Option<seq<string>>,
    service: string,
    metadata: Dict<Value>,
    serialsubtasks: bool)

  /** `shlex.split(cmd)`, simplified to splitting on whitespace. */
  function ShellSplit(cmd: string): seq<string> {
    Words(cmd)
  }

  /** `meshroom_createChunks --submitter Tractor `, spelled word by word. */
  const CreateChunksPrefix: string := "meshroom_createChunks" + " " + "--submitter" + " " + "Tractor" + " "
  const ComputePrefix: string := "meshroom_compute" + " "
  const WrapperModule := "tractorSubtaskWrapper.py"

  /** `getEpandWrappedCmd()`: the create-chunks command, rez-wrapped, run by
      the subtask wrapper script; `python` is `sys.executable`. */
  function ExpandWrappedCmd(env: Environ, python: string, infos: TaskInfos): (r: Result<string>)
    ensures var inner := RezWrapCommand(env, CreateChunksPrefix + infos.cmdArgs, false, true, infos.rezPackages);
      && (r.Ok? <==> inner.Ok? && "MR_SUBMITTERS_SCRITPS" in env)
      && (r.Ok? ==> r.value == python + " " + PathJoin(env["MR_SUBMITTERS_SCRITPS"], WrapperModule) + " " + inner.value)
      && (inner.Ok? && "MR_SUBMITTERS_SCRITPS" !in env ==> r == Err(MissingKey("MR_SUBMITTERS_SCRITPS")))
  {
    var cmd := CreateChunksPrefix + infos.cmdArgs;
    var wrapped :- RezWrapCommand(env, cmd, false, true, infos.rezPackages);
    if "MR_SUBMITTERS_SCRITPS" !in env then Err(MissingKey("MR_SUBMITTERS_SCRITPS"))
    else
      var wrapperPath := PathJoin(env["MR_SUBMITTERS_SCRITPS"], WrapperModule);
      Ok(python + " " + wrapperPath + " " + wrapped)
  }

  /** The command of `TaskInfos.cook`: the wrapper for an expanding task, none
      for a chunked one, `meshroom_compute` otherwise. */
  function TaskCommand(env: Environ, python: string, infos: TaskInfos): Result<Option<string>> {
    if infos.expanding then
      var cmd :- ExpandWrappedCmd(env, python, infos);
      Ok(Some(cmd))
    else if infos.Chunked() then Ok(None)
    else
      var cmd :- RezWrapCommand(env, ComputePrefix + infos.cmdArgs, false, true, infos.rezPackages);
      Ok(Some(cmd))
  }

  /** `TaskInfos.cook()`. */
  function CookTaskInfos(env: Environ, python: string, infos: TaskInfos): (r: Result<TaskKwargs>)
    ensures r.Err? <==>
      if infos.expanding then ExpandWrappedCmd(env, python, infos).Err?
      else !infos.Chunked() && RezWrapCommand(env, ComputePrefix + infos.cmdArgs, false, true, infos.rezPackages).Err?
    ensures r.Ok? ==>
      && r.value.title == infos.name
      && r.value.service == infos.service
      && r.value.metadata == infos.tags
      && !r.value.serialsubtasks
      && (r.value.argv.None? <==> !infos.expanding && infos.Chunked())
    ensures r.Ok? && infos.expanding ==>
      r.value.argv == Some(ShellSplit(ExpandWrappedCmd(env, python, infos).value))
    ensures r.Ok? && !infos.expanding && !infos.Chunked() ==>
      r.value.argv == Some(ShellSplit(RezWrapCommand(env, ComputePrefix + infos.cmdArgs, false, true, infos.rezPackages).value))
  {
    var cmd :- TaskCommand(env, python, infos);
    var argv := match cmd case None => None case Some(c) => Some(ShellSplit(c));
    Ok(TaskKwargs(infos.name, argv, infos.service, infos.tags, false))
  }

  /** The argument vector of a simple task ends with `meshroom_compute` and
      the node's arguments; the one of an expanding task ends with
      `meshroom_createChunks --submitter Tractor` and the node's arguments. */
  lemma CookedArgvTail(env: Environ, python: string, infos: TaskInfos)
    requires CookTaskInfos(env, python, infos).Ok?
    requires !infos.expanding ==> !infos.Chunked()
    ensures var argv := CookTaskInfos(env, python, infos).value.argv;
      var tail := if infos.expanding then ["meshroom_createChunks", "--submitter", "Tractor"] + Words(infos.cmdArgs)
                  else ["meshroom_compute"] + Words(infos.cmdArgs);
      && argv.Some?
      && EndsWith(argv.value, tail)
  {
    if infos.expanding {
      ExpandingArgvTail(env, python, infos);
    } else {
      ComputeArgvTail(env, python, infos);
    }
  }

  lemma ComputeArgvTail(env: Environ, python: string, infos: TaskInfos)
    requires !infos.expanding && !infos.Chunked() && CookTaskInfos(env, python, infos).Ok?
    ensures var argv := CookTaskInfos(env, python, infos).value.argv;
      && argv.Some?
      && EndsWith(argv.value, ["meshroom_compute"] + Words(infos.cmdArgs))
  {
    var cmd := ComputePrefix + infos.cmdArgs;
    WrappedWords(env, cmd, false, true, infos.rezPackages);
    ComputeWords(infos.cmdArgs);
  }

  lemma ExpandingArgvTail(env: Environ, python: string, infos: TaskInfos)
    requires infos.expanding && CookTaskInfos(env, python, infos).Ok?
    ensures var argv := CookTaskInfos(env, python, infos).value.argv;
      && argv.Some?
      && EndsWith(argv.value, ["meshroom_createChunks", "--submitter", "Tractor"] + Words(infos.cmdArgs))
  {
    var cmd := CreateChunksPrefix + infos.cmdArgs;
    var inner := RezWrapCommand(env, cmd, false, true, infos.rezPackages).value;
    WrappedWords(env, cmd, false, true, infos.rezPackages);
    CreateChunksWords(infos.cmdArgs);
    var head := python + " " + PathJoin(env["MR_SUBMITTERS_SCRITPS"], WrapperModule);
    var full := ExpandWrappedCmd(env, python, infos).value;
    assert full == head + " " + inner;
    WordsTail(head, inner, Words(cmd));
  }

  /** Words of `head inner` end with whatever the words of `inner` end with. */
  lemma WordsTail(head: string, inner: string, tail: seq<string>)
    requires EndsWith(Words(inner), tail)
    ensures EndsWith(Words(head + " " + inner), tail)
  {
    WordsConcat(head, inner);
    EndsWithConcat(Words(head), Words(inner), tail);
  }

  /** `xs` ends with `tail`. */
  predicate EndsWith<T(==)>(xs: seq<T>, tail: seq<T>) {
    |tail| <= |xs| && xs[|xs| - |tail|..] == tail
  }

  lemma EndsWithConcat<T>(a: seq<T>, b: seq<T>, tail: seq<T>)
    requires EndsWith(b, tail)
    ensures EndsWith(a + b, tail)
  {
    assert (a + b)[|a + b| - |tail|..] == b[|b| - |tail|..];
  }

  /** A single word followed by a space splits off as the first word. */
  lemma PrefixedWords(w: string, rest: string)
    requires w != "" && NoSpace(w)
    ensures Words(w + " " + rest) == [w] + Words(rest)
  {
    WordsConcat(w, rest);
    WordsOfWord(w);
  }

  lemma ComputeWords(args: string)
    ensures Words(ComputePrefix + args) == ["meshroom_compute"] + Words(args)
  {
    PrefixedWords("meshroom_compute", args);
  }

  lemma CreateChunksWords(args: string)
    ensures Words(CreateChunksPrefix + args) == ["meshroom_createChunks", "--submitter", "Tractor"] + Words(args)
  {
    LiteralWords();
    ThreeWordsPrefix("meshroom_createChunks", "--submitter", "Tractor", args);
  }

  lemma ThreeWordsPrefix(a: string, b: string, c: string, rest: string)
    requires a != "" && NoSpace(a) && b != "" && NoSpace(b) && c != "" && NoSpace(c)
    ensures Words(a + " " + b + " " + c + " " + rest) == [a, b, c] + Words(rest)
  {
    assert a + " " + b + " " + c + " " + rest == a + " " + (b + " " + (c + " " + rest));
    ThreeWords(a, b, c, rest);
  }

  lemma LiteralWords()
    ensures NoSpace("meshroom_createChunks")
    ensures NoSpace("--submitter")
    ensures NoSpace("Tractor")
  {
  }

  /** Three words and a space-separated rest split into the three words and
      the words of the rest. */
  lemma ThreeWords(a: string, b: string, c: string, rest: string)
    requires a != "" && NoSpace(a) && b != "" && NoSpace(b) && c != "" && NoSpace(c)
    ensures Words(a + " " + (b + " " + (c + " " + rest))) == [a, b, c] + Words(rest)
  {
    var t := c + " " + rest;
    var u := b + " " + t;
    var v := a + " " + u;
    assert Words(t) == [c] + Words(rest) by { PrefixedWords(c, rest); }
    assert Words(u) == [b] + Words(t) by { PrefixedWords(b, t); }
    assert Words(v) == [a] + Words(u) by { PrefixedWords(a, u); }
  }

  // ---------------------------------------------------------------------------
  // ChunkTaskInfos.cook
  // ---------------------------------------------------------------------------

  function ChunkTitle(name: string, chunk: Chunk): string {
    name + "_" + IntToString(chunk.start) + "_" + IntToString(chunk.end)
  }

  /** `ChunkTaskInfos(infos, chunk).cook()`. */
  function CookChunk(env: Environ, infos: TaskInfos, chunk: Chunk): (r: Result<TaskKwargs>)
    ensures r.Ok? <==>
      RezWrapCommand(env, ComputePrefix + infos.cmdArgs + " --iteration " + IntToString(chunk.iteration),
                     false, true, infos.rezPackages).Ok?
    ensures r.Ok? ==>
      && r.value.title == ChunkTitle(infos.name, chunk)
      && r.value.argv == Some(ShellSplit(RezWrapCommand(env, ComputePrefix + infos.cmdArgs + " --iteration " + IntToString(chunk.iteration),
                                                        false, true, infos.rezPackages).value))
      && r.value.service == infos.service
      && !r.value.serialsubtasks
      && Get(r.value.metadata, "iteration") == Some(Int(chunk.iteration))
      && (forall k :: k != "iteration" ==> Get(r.value.metadata, k) == Get(infos.tags, k))
  {
    var title := ChunkTitle(infos.name, chunk);
    var cmd := ComputePrefix + infos.cmdArgs + " --iteration " + IntToString(chunk.iteration);
    var wrapped :- RezWrapCommand(env, cmd, false, true, infos.rezPackages);
    var chunkTags := Put(infos.tags, "iteration", Int(chunk.iteration));
    Ok(TaskKwargs(title, Some(ShellSplit(wrapped)), infos.service, chunkTags, false))
  }

  /** The title `name_start_end` gives the chunk's range back: its last two
      `_`-separated fields read as the start and the end. */
  lemma ChunkTitleReadsBack(env: Environ, infos: TaskInfos, chunk: Chunk)
    requires CookChunk(env, infos, chunk).Ok?
    ensures var fields := Split(CookChunk(env, infos, chunk).value.title, '_');
      && |fields| >= 3
      && ParseInt(fields[|fields| - 2]) == Some(chunk.start)
      && ParseInt(fields[|fields| - 1]) == Some(chunk.end)
  {
    assert CookChunk(env, infos, chunk).value.title == ChunkTitle(infos.name, chunk);
    TitleFields(infos.name, chunk.start, chunk.end);
  }

  lemma TitleFields(name: string, start: int, end: int)
    ensures var fields := Split(name + "_" + IntToString(start) + "_" + IntToString(end), '_');
      && |fields| >= 3
      && ParseInt(fields[|fields| - 2]) == Some(start)
      && ParseInt(fields[|fields| - 1]) == Some(end)
  {
    var a := IntToString(start);
    var b := IntToString(end);
    assert name + "_" + a + "_" + b == name + ['_'] + (a + ['_'] + b);
    assert Split(a, '_') == [a];
    assert Split(b, '_') == [b];
    SplitConcat(a, b, '_');
    assert Split(a + ['_'] + b, '_') == [a, b];
    SplitConcat(name, a + ['_'] + b, '_');
    var fields := Split(name, '_') + [a, b];
    assert Split(name + "_" + a + "_" + b, '_') == fields;
    assert fields[|fields| - 2] == a && fields[|fields| - 1] == b;
    ParseIntToString(start);
    ParseIntToString(end);
  }

  /** The chunk command ends with `--iteration <i>`, after rez wrapping too. */
  lemma ChunkArgvEndsWithIteration(env: Environ, infos: TaskInfos, chunk: Chunk)
    requires CookChunk(env, infos, chunk).Ok?
    ensures EndsWith(CookChunk(env, infos, chunk).value.argv.value, ["--iteration", IntToString(chunk.iteration)])
  {
    var i := IntToString(chunk.iteration);
    var cmd := ComputePrefix + infos.cmdArgs + " --iteration " + i;
    WrappedWords(env, cmd, false, true, infos.rezPackages);
    IterationWords(ComputePrefix + infos.cmdArgs, i);
    var w := Words(RezWrapCommand(env, cmd, false, true, infos.rezPackages).value);
    assert EndsWith(w, Words(cmd));
    EndsWithTrans(w, Words(cmd), ["--iteration", i]);
  }

  lemma IterationWords(base: string, i: string)
    requires i != "" && NoSpace(i)
    ensures EndsWith(Words(base + " --iteration " + i), ["--iteration", i])
  {
    assert base + " --iteration " + i == base + " " + ("--iteration" + " " + i);
    WordsConcat(base, "--iteration" + " " + i);
    IterationFlagNoSpace();
    PrefixedWords("--iteration", i);
    WordsOfWord(i);
    EndsWithConcat(Words(base), ["--iteration", i], ["--iteration", i]);
  }

  lemma IterationFlagNoSpace()
    ensures NoSpace("--iteration")
  {
    var f := "--iteration";
    forall k | 0 <= k < |f| ensures !IsSpace(f[k]) {
      assert f[k] in "-iteraon";
    }
  }

  lemma EndsWithTrans<T>(a: seq<T>, b: seq<T>, c: seq<T>)
    requires EndsWith(a, b) && EndsWith(b, c)
    ensures EndsWith(a, c)
  {
    assert a[|a| - |c|..] == b[|b| - |c|..];
  }

  // ---------------------------------------------------------------------------
  // JobInfos
  // ---------------------------------------------------------------------------

  /** The farm share: the falsy value passed through unchanged, or a list. */
  datatype Share = Raw(s: string) | Names(names: seq<string>)

  /** `JobInfos.getShare(share)`. */
  function GetShare(env: Environ, share: string): (r: Share)
    ensures share != "" ==> r == Names([share])
    ensures share == "" && "DEFAULT_FARM_SHARE_TRACTOR" in env ==>
      && r.Names? && Join(r.names, ",") == env["DEFAULT_FARM_SHARE_TRACTOR"]
      && forall k :: 0 <= k < |r.names| ==> ',' !in r.names[k]
    ensures share == "" && "DEFAULT_FARM_SHARE_TRACTOR" !in env ==> r == Raw("")
  {
    if share != "" then Names([share])
    else if "DEFAULT_FARM_SHARE_TRACTOR" in env then
      JoinSplit(env["DEFAULT_FARM_SHARE_TRACTOR"], ',');
      Names(Split(env["DEFAULT_FARM_SHARE_TRACTOR"], ','))
    else Raw(share)
  }

  datatype JobInfos = JobInfos(
    name: string,
    share: Share,
    service: string,
    tags: Dict<Value>,
    paused: bool,
    comment: string,
    user: string,
    environment: Dict<string>)

  /** `JobInfos(...)`; `currentUser` is `getpass.getuser()`. */
  function NewJobInfos(env: Environ, name: string, share: string, service: string,
                       environment: Dict<string>, tags: Dict<Value>, user: string,
                       currentUser: string, comment: string, paused: bool): (r: Result<JobInfos>)
    ensures r.Ok? <==> ResolveService(env, service).Ok?
    ensures r.Ok? ==>
      && r.value.user == (if user != "" then user else currentUser)
      && Get(r.value.environment, "FARM_USER") == Some(r.value.user)
      && (forall k :: k != "FARM_USER" ==> Get(r.value.environment, k) == Get(environment, k))
  {
    var svc :- ResolveService(env, service);
    var who := if user != "" then user else currentUser;
    Ok(JobInfos(name, GetShare(env, share), svc, tags, paused, comment, who,
                Put(environment, "FARM_USER", who)))
  }

  datatype JobKwargs = JobKwargs(
    title: string,
    service: string,
    metadata: Dict<Value>,
    envkey: seq<string>,
    paused: bool,
    comment: string,
    spoolcwd: string,
    projects: seq<Share>)

  /** `JobInfos.cook()`. */
  function CookJobInfos(infos: JobInfos): JobKwargs {
    JobKwargs(infos.name, infos.service, infos.tags, ToTractorEnv(infos.environment),
              infos.paused, infos.comment, "/tmp", [infos.share])
  }

  /** The job's envkey always carries `setenv FARM_USER=<user>`. */
  lemma JobEnvKeyHasFarmUser(env: Environ, name: string, share: string, service: string,
                             environment: Dict<string>, tags: Dict<Value>, user: string,
                             currentUser: string, comment: string, paused: bool)
    requires NewJobInfos(env, name, share, service, environment, tags, user, currentUser, comment, paused).Ok?
    ensures var infos := NewJobInfos(env, name, share, service, environment, tags, user, currentUser, comment, paused).value;
      SetenvEntry("FARM_USER", infos.user) in CookJobInfos(infos).envkey
  {
    var infos := NewJobInfos(env, name, share, service, environment, tags, user, currentUser, comment, paused).value;
    var e := infos.environment;
    var i :| 0 <= i < |e| && e[i] == ("FARM_USER", infos.user);
    assert CookJobInfos(infos).envkey[i] == SetenvEntry("FARM_USER", infos.user);
  }
}

=== FILE: lists.dfy ===
/** Lists used as Python sets (deduplicated, in first-insertion order) and
    the filters the submitter applies to them. */
module Lists {

  predicate NoDup<T(==)>(xs: seq<T>) {
    forall i, j :: 0 <= i < j < |xs| ==> xs[i] != xs[j]
  }

  function Elems<T>(xs: seq<T>): set<T> {
    set x | x in xs
  }

  /** `s.add(x)` on a set kept as a duplicate-free list. */
  function AddUnique<T(==)>(acc: seq<T>, x: T): (r: seq<T>)
    ensures Elems(r) == Elems(acc) + {x}
    ensures NoDup(acc) ==> NoDup(r)
    ensures acc <= r
  {
    if x in acc then acc
    else
      var r := acc + [x];
      assert Elems(r) == Elems(acc) + {x} by {
        assert r[|acc|] == x;
        assert forall i :: 0 <= i < |acc| ==> r[i] == acc[i];
        forall y | y in Elems(r) ensures y in Elems(acc) + {x} {
          var i :| 0 <= i < |r| && r[i] == y;
          if i < |acc| { assert acc[i] == y; }
        }
      }
      r
  }

  /** `s.update(xs)`: add each element of `xs` in order. */
  function AddAll<T(==)>(acc: seq<T>, xs: seq<T>): (r: seq<T>)
    ensures Elems(r) == Elems(acc) + Elems(xs)
    ensures NoDup(acc) ==> NoDup(r)
    ensures acc <= r
    decreases |xs|
  {
    if |xs| == 0 then acc
    else
      var r := AddAll(AddUnique(acc, xs[0]), xs[1..]);
      assert Elems(xs) == {xs[0]} + Elems(xs[1..]) by {
        forall y | y in Elems(xs) ensures y in {xs[0]} + Elems(xs[1..]) {
          var i :| 0 <= i < |xs| && xs[i] == y;
          if i > 0 { assert xs[1..][i - 1] == y; }
        }
        forall y | y in Elems(xs[1..]) ensures y in Elems(xs) {
          var i :| 0 <= i < |xs[1..]| && xs[1..][i] == y;
          assert xs[i + 1] == y;
        }
      }
      r
  }

  /** `[p for p in xs if p]` for strings. */
  function NonEmpty(xs: seq<string>): (r: seq<string>)
    ensures forall k :: 0 <= k < |r| ==> r[k] != ""
    ensures Elems(r) == Elems(xs) - {""}
    ensures NoDup(xs) ==> NoDup(r)
    ensures |r| <= |xs|
    decreases |xs|
  {
    if |xs| == 0 then []
    else
      var rest := NonEmpty(xs[..|xs| - 1]);
      var last := xs[|xs| - 1];
      assert Elems(xs) == Elems(xs[..|xs| - 1]) + {last} by {
        forall y | y in Elems(xs) ensures y in Elems(xs[..|xs| - 1]) + {last} {
          var i :| 0 <= i < |xs| && xs[i] == y;
          if i < |xs| - 1 { assert xs[..|xs| - 1][i] == y; }
        }
      }
      if last == "" then rest
      else
        var r := rest + [last];
        assert Elems(r) == Elems(rest) + {last} by {
          assert r[|rest|] == last;
          forall y | y in Elems(r) ensures y in Elems(rest) + {last} {
            var i :| 0 <= i < |r| && r[i] == y;
            if i < |rest| { assert rest[i] == y; }
          }
        }
        assert NoDup(xs) ==> last !in Elems(xs[..|xs| - 1]);
        r
  }
}

=== FILE: results.dfy ===
/** Option and Result types for the submitter model.

    `Error` lists the exceptions the Python code raises on the paths that are
    modelled; each constructor names the Python exception it stands for. */
module Results {

  datatype Option<+T> = None | Some(value: T)

  datatype Error =
    | MissingService           // EnvironmentError: no service and no DEFAULT_TRACTOR_SERVICE
    | ZeroPacketSize           // ValueError: range() with a step of 0
    | MissingKey(key: string)  // KeyError on a dict or on os.environ
    | InvalidLevel(level: int) // ValueError: not a value of the Level enum
    | NotIterable              // TypeError: iterating over None
    | ChannelNotFound          // FileNotFoundError: TRACTOR_SUBTASK_STDOUT_FD is not set
    | ChannelUnusable          // RuntimeError: TRACTOR_SUBTASK_STDOUT_FD cannot be opened
    | DescriptorOverflow       // OverflowError: a file descriptor that does not fit a C int

  /** A value or the exception raised while computing it; usable with `:-`. */
  datatype Result<+T> = Ok(value: T) | Err(error: Error) {
    predicate IsFailure() {
      Err?
    }

    function PropagateFailure<U>(): Result<U>
      requires Err?
    {
      Err(error)
    }

    function Extract(): T
      requires Ok?
    {
      value
    }
  }

  /** `[f(x) for x in xs]` where every call may raise: the first failure
      stops the loop and is the result. */
  function MapAll<A, B>(f: A -> Result<B>, xs: seq<A>): (r: Result<seq<B>>)
    ensures r.Ok? <==> forall k :: 0 <= k < |xs| ==> f(xs[k]).Ok?
    ensures r.Ok? ==> |r.value| == |xs| && forall k :: 0 <= k < |xs| ==> r.value[k] == f(xs[k]).value
    ensures r.Err? ==> exists k :: 0 <= k < |xs| && FirstFailure(f, xs, k) && r.error == f(xs[k]).error
    decreases |xs|
  {
    if |xs| == 0 then Ok([])
    else
      match f(xs[0])
      case Err(e) =>
        assert FirstFailure(f, xs, 0);
        Err(e)
      case Ok(y) =>
        var rest := MapAll(f, xs[1..]);
        assert forall k :: 0 < k < |xs| ==> xs[1..][k - 1] == xs[k];
        match rest
        case Err(e) =>
          var k :| 0 <= k < |xs[1..]| && FirstFailure(f, xs[1..], k) && e == f(xs[1..][k]).error;
          assert FirstFailure(f, xs, k + 1);
          Err(e)
        case Ok(ys) => Ok([y] + ys)
  }

  /** `xs[k]` is the first element on which `f` fails. */
  predicate FirstFailure<A, B>(f: A -> Result<B>, xs: seq<A>, k: nat)
    requires k < |xs|
  {
    f(xs[k]).Err? && forall j :: 0 <= j < k ==> f(xs[j]).Ok?
  }

  /** The process environment (`os.environ`), passed explicitly. */
  type Environ = map<string, string>
}

=== FILE: rez.dfy ===
/** Rez helpers of base.py: reading the resolved and requested package
    lists from the environment and wrapping a command in `rez env`. */
module Rez {
  import opened Results
  import opened Text
  import opened Lists

  /** `os.environ.get(key, default)`. */
  function EnvGet(env: Environ, key: string, default: string): string {
    if key in env then env[key] else default
  }

  // ---------------------------------------------------------------------------
  // getResolvedVersionsDict
  // ---------------------------------------------------------------------------

  /** What one entry of REZ_RESOLVE contributes: implicit packages (`~name`)
      and entries without a hyphen contribute nothing; otherwise the part
      before the first hyphen names the package and the rest, hyphens
      included, is its version. */
  function ResolvedEntry(r: string): Option<(string, string)> {
    if |r| > 0 && r[0] == '~' then None
    else
      var v := Split(r, '-');
      if |v| == 2 then Some((v[0], v[1]))
      else if |v| > 2 then Some((v[0], Join(v[1..], "-")))
      else None
  }

  /** The dict built by the loop over the entries, later entries overriding
      earlier ones with the same name. */
  function VersionsOf(entries: seq<string>): map<string, string>
    decreases |entries|
  {
    if |entries| == 0 then map[]
    else
      var m := VersionsOf(entries[..|entries| - 1]);
      match ResolvedEntry(entries[|entries| - 1])
      case None => m
      case Some(nv) => m[nv.0 := nv.1]
  }

  /** `getResolvedVersionsDict()`. */
  function ResolvedVersions(env: Environ): map<string, string> {
    VersionsOf(Words(EnvGet(env, "REZ_RESOLVE", "")))
  }

  /** An entry is split at its first hyphen, whatever number of hyphens follow. */
  lemma ResolvedEntryFirstHyphen(r: string)
    ensures ResolvedEntry(r) ==
      if (|r| > 0 && r[0] == '~') || '-' !in r then None
      else var i := IndexOf(r, '-'); Some((r[..i], r[i + 1..]))
  {
    if !(|r| > 0 && r[0] == '~') && '-' in r {
      var i := IndexOf(r, '-');
      var v := Split(r, '-');
      assert v == [r[..i]] + Split(r[i + 1..], '-');
      JoinSplit(r[i + 1..], '-');
      assert v[1..] == Split(r[i + 1..], '-');
      if |v| == 2 {
        assert Split(r[i + 1..], '-') == [v[1]];
      }
    }
  }

  predicate Names(entry: string, name: string) {
    ResolvedEntry(entry).Some? && ResolvedEntry(entry).value.0 == name
  }

  /** A package is in the dict iff some entry names it. */
  lemma {:induction false} VersionsOfKeys(entries: seq<string>, name: string)
    ensures name in VersionsOf(entries) <==> exists j :: 0 <= j < |entries| && Names(entries[j], name)
    decreases |entries|
  {
    if |entries| > 0 {
      var init := entries[..|entries| - 1];
      VersionsOfKeys(init, name);
      assert forall j :: 0 <= j < |init| ==> init[j] == entries[j];
    }
  }

  /** The version recorded for a package is the one of the last entry that
      names it. */
  lemma {:induction false} VersionsOfLastWins(entries: seq<string>, name: string)
    requires name in VersionsOf(entries)
    ensures exists j :: (0 <= j < |entries| && ResolvedEntry(entries[j]) == Some((name, VersionsOf(entries)[name]))
        && (forall j' :: j < j' < |entries| ==> !Names(entries[j'], name)))
    decreases |entries|
  {
    var init := entries[..|entries| - 1];
    var last := |entries| - 1;
    var v := VersionsOf(entries)[name];
    if Names(entries[last], name) {
      assert ResolvedEntry(entries[last]) == Some((name, v));
      LastWitness(entries, name, v, last);
    } else {
      assert name in VersionsOf(init) && v == VersionsOf(init)[name];
      VersionsOfLastWins(init, name);
      var j :| 0 <= j < |init| && ResolvedEntry(init[j]) == Some((name, VersionsOf(init)[name]))
        && forall j' :: j < j' < |init| ==> !Names(init[j'], name);
      assert init[j] == entries[j];
      assert forall j' :: j < j' < |init| ==> init[j'] == entries[j'];
      LastWitness(entries, name, v, j);
    }
  }

  lemma LastWitness(entries: seq<string>, name: string, v: string, j: nat)
    requires j < |entries| && ResolvedEntry(entries[j]) == Some((name, v))
    requires forall j' :: j < j' < |entries| ==> !Names(entries[j'], name)
    ensures exists j :: (0 <= j < |entries| && ResolvedEntry(entries[j]) == Some((name, v))
        && (forall j' :: j < j' < |entries| ==> !Names(entries[j'], name)))
  {
  }

  // ---------------------------------------------------------------------------
  // getRequestPackages
  // ---------------------------------------------------------------------------

  /** A match of `(-|==|>=|>|<=|<)` starts at position i. */
  predicate DelimiterAt(p: string, i: nat)
    requires i < |p|
  {
    p[i] == '-' || p[i] == '>' || p[i] == '<' || (p[i] == '=' && i + 1 < |p| && p[i + 1] == '=')
  }

  function FirstDelimiter(p: string, from: nat): (i: nat)
    requires from <= |p|
    ensures from <= i <= |p|
    ensures forall k :: from <= k < i ==> !DelimiterAt(p, k)
    ensures i < |p| ==> DelimiterAt(p, i)
    decreases |p| - from
  {
    if from == |p| || DelimiterAt(p, from) then from else FirstDelimiter(p, from + 1)
  }

  /** `REZ_DELIMITER_PATTERN.split(p)[0]`: the request up to its first version
      operator. */
  function RequestName(p: string): (name: string)
    ensures name <= p
    ensures forall k :: 0 <= k < |name| ==> !DelimiterAt(p, k)
    ensures |name| < |p| ==> DelimiterAt(p, |name|)
  {
    p[..FirstDelimiter(p, 0)]
  }

  /** Names of the requested packages, skipping `~` (weak) and `!` (conflict)
      requests. */
  function UsedNames(requests: seq<string>): (names: seq<string>)
    ensures NoDup(names)
    ensures forall n :: n in names <==>
      exists k :: 0 <= k < |requests| && Counted(requests[k]) && RequestName(requests[k]) == n
    decreases |requests|
  {
    if |requests| == 0 then []
    else
      var init := UsedNames(requests[..|requests| - 1]);
      var p := requests[|requests| - 1];
      assert forall k :: 0 <= k < |requests| - 1 ==> requests[..|requests| - 1][k] == requests[k];
      if Counted(p) then AddUnique(init, RequestName(p)) else init
  }

  predicate Counted(p: string) {
    !(|p| > 0 && (p[0] == '~' || p[0] == '!'))
  }

  /** Pin each used name to its resolved version; a name without one raises
      KeyError. */
  function PinNames(names: seq<string>, versions: map<string, string>, delimiter: string): (r: Result<seq<string>>)
    ensures r.Ok? <==> forall k :: 0 <= k < |names| ==> names[k] in versions
    ensures r.Ok? ==> forall s :: s in r.value <==>
      exists k :: 0 <= k < |names| && s == names[k] + delimiter + versions[names[k]]
    ensures r.Err? ==> exists k :: 0 <= k < |names| && r.error == MissingKey(names[k]) && names[k] !in versions
    decreases |names|
  {
    if |names| == 0 then Ok([])
    else
      var init :- PinNames(names[..|names| - 1], versions, delimiter);
      var n := names[|names| - 1];
      assert forall k :: 0 <= k < |names| - 1 ==> names[..|names| - 1][k] == names[k];
      if n !in versions then Err(MissingKey(n))
      else Ok(AddUnique(init, n + delimiter + versions[n]))
  }

  /** `getRequestPackages(delimiter)`. */
  function RequestPackages(env: Environ, delimiter: string): (r: Result<seq<string>>)
    ensures "REZ_REQUEST" !in env ==> r.Ok?
    ensures "REZ_REQUEST" !in env && "REZ_MESHROOM_VERSION" in env ==>
      r.value == ["meshroom" + delimiter + env["REZ_MESHROOM_VERSION"]]
    ensures "REZ_REQUEST" !in env && "REZ_MESHROOM_VERSION" !in env ==> r.value == []
  {
    if "REZ_REQUEST" in env then
      var names := UsedNames(Words(EnvGet(env, "REZ_USED_REQUEST", "")));
      PinNames(names, ResolvedVersions(env), delimiter)
    else if "REZ_MESHROOM_VERSION" in env then
      Ok(["meshroom" + delimiter + EnvGet(env, "REZ_MESHROOM_VERSION", "")])
    else Ok([])
  }

  /** With REZ_REQUEST set, every counted request contributes `name==version`
      for its resolved version, and the call fails exactly when some
      requested name is missing from REZ_RESOLVE. */
  lemma RequestedPinned(env: Environ, delimiter: string)
    requires "REZ_REQUEST" in env
    ensures PinsRequests(Words(EnvGet(env, "REZ_USED_REQUEST", "")), ResolvedVersions(env), delimiter,
                         RequestPackages(env, delimiter))
  {
    var requests := Words(EnvGet(env, "REZ_USED_REQUEST", ""));
    var versions := ResolvedVersions(env);
    PinnedRequests(requests, versions, delimiter, RequestPackages(env, delimiter));
  }

  /** `r` succeeds exactly when every counted request has a version in
      `versions`, and then holds `name` + `delimiter` + `version` for exactly
      the counted requests. */
  ghost predicate PinsRequests(requests: seq<string>, versions: map<string, string>, delimiter: string,
                         r: Result<seq<string>>)
  {
    && (r.Ok? <==> forall k :: 0 <= k < |requests| && Counted(requests[k]) ==> RequestName(requests[k]) in versions)
    && (r.Ok? ==> forall s :: s in r.value <==>
          exists k :: (0 <= k < |requests| && Counted(requests[k]) && RequestName(requests[k]) in versions
            && s == RequestName(requests[k]) + delimiter + versions[RequestName(requests[k])]))
  }

  /** The pinning of the used names of `requests`, whatever environment
      they come from. */
  lemma PinnedRequests(requests: seq<string>, versions: map<string, string>, delimiter: string,
                       r: Result<seq<string>>)
    requires r == PinNames(UsedNames(requests), versions, delimiter)
    ensures PinsRequests(requests, versions, delimiter, r)
  {
    PinUsedOk(requests, versions, delimiter);
    if r.Ok? {
      PinUsedContents(requests, versions, delimiter);
    }
  }

  /** A successful pinning holds `name==version` for exactly the counted
      requests. */
  lemma PinUsedContents(requests: seq<string>, versions: map<string, string>, delimiter: string)
    requires PinNames(UsedNames(requests), versions, delimiter).Ok?
    ensures forall k :: 0 <= k < |requests| && Counted(requests[k]) ==> RequestName(requests[k]) in versions
    ensures forall s :: s in PinNames(UsedNames(requests), versions, delimiter).value <==>
      exists k :: (0 <= k < |requests| && Counted(requests[k])
        && s == RequestName(requests[k]) + delimiter + versions[RequestName(requests[k])])
  {
    PinUsedOk(requests, versions, delimiter);
    var r := PinNames(UsedNames(requests), versions, delimiter);
    forall s ensures s in r.value <==> exists k :: (0 <= k < |requests| && Counted(requests[k])
        && s == RequestName(requests[k]) + delimiter + versions[RequestName(requests[k])])
    {
      if s in r.value {
        PinUsedSound(requests, versions, delimiter, s);
      }
      forall k | 0 <= k < |requests| && Counted(requests[k])
        && s == RequestName(requests[k]) + delimiter + versions[RequestName(requests[k])]
        ensures s in r.value
      {
        PinUsedComplete(requests, versions, delimiter, k);
      }
    }
  }

  /** Pinning the used names succeeds exactly when every counted request
      has a resolved version. */
  lemma PinUsedOk(requests: seq<string>, versions: map<string, string>, delimiter: string)
    ensures PinNames(UsedNames(requests), versions, delimiter).Ok?
      <==> forall k :: 0 <= k < |requests| && Counted(requests[k]) ==> RequestName(requests[k]) in versions
  {
    var names := UsedNames(requests);
    var r := PinNames(names, versions, delimiter);
    if r.Ok? {
      forall k | 0 <= k < |requests| && Counted(requests[k])
        ensures RequestName(requests[k]) in versions
      {
        assert RequestName(requests[k]) in names;
      }
    } else {
      var k :| 0 <= k < |names| && r.error == MissingKey(names[k]) && names[k] !in versions;
      assert names[k] in names;
      var k' :| 0 <= k' < |requests| && Counted(requests[k']) && RequestName(requests[k']) == names[k];
      assert !(RequestName(requests[k']) in versions);
    }
  }

  /** Every entry of a successful pinning is `name==version` for a counted
      request. */
  lemma PinUsedSound(requests: seq<string>, versions: map<string, string>, delimiter: string, s: string)
    requires PinNames(UsedNames(requests), versions, delimiter).Ok?
    requires s in PinNames(UsedNames(requests), versions, delimiter).value
    ensures exists k :: (0 <= k < |requests| && Counted(requests[k]) && RequestName(requests[k]) in versions
      && s == RequestName(requests[k]) + delimiter + versions[RequestName(requests[k])])
  {
    var names := UsedNames(requests);
    var k :| 0 <= k < |names| && s == names[k] + delimiter + versions[names[k]];
    assert names[k] in names;
  }

  /** Every counted request is pinned in a successful pinning. */
  lemma PinUsedComplete(requests: seq<string>, versions: map<string, string>, delimiter: string, k: nat)
    requires PinNames(UsedNames(requests), versions, delimiter).Ok?
    requires k < |requests| && Counted(requests[k])
    ensures RequestName(requests[k]) in versions
    ensures RequestName(requests[k]) + delimiter + versions[RequestName(requests[k])]
      in PinNames(UsedNames(requests), versions, delimiter).value
  {
    var names := UsedNames(requests);
    var n := RequestName(requests[k]);
    assert n in names;
    var j :| 0 <= j < |names| && names[j] == n;
  }

  // ---------------------------------------------------------------------------
  // rezWrapCommand
  // ---------------------------------------------------------------------------

  /** `os.path.join(a, b)` (posixpath): an absolute `b` discards `a`. */
  function PathJoin(a: string, b: string): string {
    if |b| > 0 && b[0] == '/' then b
    else if a == "" || a[|a| - 1] == '/' then a + b
    else a + "/" + b
  }

  /** The rez executable as base.py:115-118 computes it: REZ_BIN, else the
      join of REZ_PACKAGES_ROOT with "/bin/rez", else "rez". */
  function RezBinAsWritten(env: Environ): string {
    if "REZ_BIN" in env then env["REZ_BIN"]
    else if "REZ_PACKAGES_ROOT" in env then PathJoin(env["REZ_PACKAGES_ROOT"], "/bin/rez")
    else "rez"
  }

  /** As written, REZ_PACKAGES_ROOT never reaches the result: the absolute
      second argument of the join wins over any root. */
  lemma RezBinAsWrittenIgnoresRoot(env: Environ)
    requires "REZ_BIN" !in env && "REZ_PACKAGES_ROOT" in env
    ensures RezBinAsWritten(env) == "/bin/rez"
  {
  }

  /** The rez executable as evidently intended: REZ_BIN, else `bin/rez` under
      REZ_PACKAGES_ROOT, else "rez". */
  function RezBin(env: Environ): (bin: string)
    ensures "REZ_BIN" in env ==> bin == env["REZ_BIN"]
    ensures "REZ_BIN" !in env && "REZ_PACKAGES_ROOT" in env ==>
      var root := env["REZ_PACKAGES_ROOT"];
      bin == root + "bin/rez" || bin == root + "/bin/rez"
    ensures "REZ_BIN" !in env && "REZ_PACKAGES_ROOT" !in env ==> bin == "rez"
  {
    if "REZ_BIN" in env then env["REZ_BIN"]
    else if "REZ_PACKAGES_ROOT" in env then PathJoin(env["REZ_PACKAGES_ROOT"], "bin/rez")
    else "rez"
  }

  /** The package list of rezWrapCommand: the full context (REZ_RESOLVE split
      on spaces) or the requested packages, then the extra packages; empty
      names dropped. */
  function WrapPackages(env: Environ, useCurrentContext: bool, useRequestedContext: bool,
                        otherRezPkg: seq<string>): (r: Result<seq<string>>)
    ensures r.Err? <==> !useCurrentContext && useRequestedContext && RequestPackages(env, "==").Err?
    ensures r.Ok? ==> NoDup(r.value) && forall k :: 0 <= k < |r.value| ==> r.value[k] != ""
    ensures r.Ok? && useCurrentContext ==>
      Elems(r.value) == (Elems(Split(EnvGet(env, "REZ_RESOLVE", ""), ' ')) + Elems(otherRezPkg)) - {""}
    ensures r.Ok? && !useCurrentContext && useRequestedContext ==>
      Elems(r.value) == (Elems(RequestPackages(env, "==").value) + Elems(otherRezPkg)) - {""}
    ensures r.Ok? && !useCurrentContext && !useRequestedContext ==>
      Elems(r.value) == Elems(otherRezPkg) - {""}
  {
    var base :-
      if useCurrentContext then Ok(AddAll([], NonEmpty(Split(EnvGet(env, "REZ_RESOLVE", ""), ' '))))
      else if useRequestedContext then RequestPackages(env, "==")
      else Ok([]);
    Ok(NonEmpty(AddAll(AddAll([], base), otherRezPkg)))
  }

  /** `rezWrapCommand(cmd, ...)`. */
  function RezWrapCommand(env: Environ, cmd: string, useCurrentContext: bool, useRequestedContext: bool,
                          otherRezPkg: seq<string>): (r: Result<string>)
    ensures r.Ok? <==> WrapPackages(env, useCurrentContext, useRequestedContext, otherRezPkg).Ok?
    ensures r.Ok? ==>
      var packages := WrapPackages(env, useCurrentContext, useRequestedContext, otherRezPkg).value;
      && (r.value == cmd <==> packages == [])
      && (packages != [] ==> r.value == RezBin(env) + " env " + Join(packages, " ") + " -- " + cmd)
      && cmd <= r.value[|r.value| - |cmd|..]
  {
    var packages :- WrapPackages(env, useCurrentContext, useRequestedContext, otherRezPkg);
    var packagesStr := Join(packages, " ");
    if packagesStr != "" then
      var r := RezBin(env) + " env " + packagesStr + " -- " + cmd;
      assert r[|r| - |cmd|..] == cmd;
      Ok(r)
    else
      assert packages == [] by {
        if packages != [] { JoinNonEmpty(packages, " "); }
      }
      Ok(cmd)
  }

  lemma JoinNonEmpty(parts: seq<string>, sep: string)
    requires |parts| > 0 && parts[0] != ""
    ensures Join(parts, sep) != ""
  {
  }

  /** The wrapped command's argument words are the words of the rez prefix
      followed by the words of the command itself. */
  lemma WrappedWords(env: Environ, cmd: string, useCurrentContext: bool, useRequestedContext: bool,
                     otherRezPkg: seq<string>)
    requires RezWrapCommand(env, cmd, useCurrentContext, useRequestedContext, otherRezPkg).Ok?
    ensures var w := Words(RezWrapCommand(env, cmd, useCurrentContext, useRequestedContext, otherRezPkg).value);
      |Words(cmd)| <= |w| && w[|w| - |Words(cmd)|..] == Words(cmd)
  {
    var r := RezWrapCommand(env, cmd, useCurrentContext, useRequestedContext, otherRezPkg).value;
    var packages := WrapPackages(env, useCurrentContext, useRequestedContext, otherRezPkg).value;
    if packages != [] {
      var prefix := RezBin(env) + " env " + Join(packages, " ") + " --";
      assert r == prefix + " " + cmd;
      WordsConcat(prefix, cmd);
    }
  }
}

=== FILE: serviceconfig.dfy ===
/** The Tractor service expressions chosen from CPU, RAM and GPU load
    levels (`get_config` and its tables). A service expression is a
    comma-separated list of requirements that a blade must all meet. */
module ServiceConfig {
  import opened Results
  import opened Text

  /** The `Level` enumeration: NONE 0, NORMAL 1, INTENSIVE 2, EXTREME 3,
      SCRIPT -1. */
  datatype Level = NoneLevel | Normal | Intensive | Extreme | Script

  function Value(l: Level): int {
    match l
    case NoneLevel => 0
    case Normal => 1
    case Intensive => 2
    case Extreme => 3
    case Script => -1
  }

  /** The member's name, used as the key into the tables. */
  function Name(l: Level): string {
    match l
    case NoneLevel => "NONE"
    case Normal => "NORMAL"
    case Intensive => "INTENSIVE"
    case Extreme => "EXTREME"
    case Script => "SCRIPT"
  }

  /** `Level(x)`: fails on an integer that is not a member's value. */
  function LevelOf(x: int): (r: Result<Level>)
    ensures r.Ok? <==> -1 <= x <= 3
    ensures r.Ok? ==> Value(r.value) == x
    ensures r.Err? ==> r.error == InvalidLevel(x)
  {
    if x == 0 then Ok(NoneLevel)
    else if x == 1 then Ok(Normal)
    else if x == 2 then Ok(Intensive)
    else if x == 3 then Ok(Extreme)
    else if x == -1 then Ok(Script)
    else Err(InvalidLevel(x))
  }

  lemma LevelRoundTrip(l: Level)
    ensures LevelOf(Value(l)) == Ok(l)
  {
  }

  const ScriptConfig: string := "mikrosScript"
  const Render: string := "mikrosRender"

  /** The `LEVELS` entry of the GPU or CPU table, as its list of
      requirements; there is no entry for SCRIPT. */
  function LevelTags(gpu: bool, l: Level): Option<seq<string>> {
    match l
    case NoneLevel => Some([Render])
    case Normal => Some(if gpu then [Render, "cuda8G"] else [Render])
    case Intensive => Some(if gpu then [Render, "cuda16G"] else [Render, "rnd"])
    case Extreme => Some(if gpu then [Render, "cuda16G", "cudaC"] else [Render, "rnd", "@.nCPU>200"])
    case Script => None
  }

  /** The `RAM` entry of the GPU or CPU table; empty when any blade has
      enough memory, no entry for SCRIPT. */
  function RamTag(gpu: bool, l: Level): Option<string> {
    match l
    case NoneLevel => Some("")
    case Normal => Some("")
    case Intensive => Some("ram128")
    case Extreme => Some(if gpu then "ram128" else "ram256")
    case Script => None
  }

  /** A table lookup by level name: a missing entry is a `KeyError`. */
  function Lookup<T>(entry: Option<T>, l: Level): (r: Result<T>)
    ensures r.Ok? <==> entry.Some?
    ensures r.Ok? ==> r.value == entry.value
    ensures r.Err? ==> r.error == MissingKey(Name(l))
  {
    if entry.Some? then Ok(entry.value) else Err(MissingKey(Name(l)))
  }

  /** `[f"!{host}" for host in excludeHosts]`. */
  function Exclusions(hosts: seq<string>): (r: seq<string>)
    ensures |r| == |hosts| && forall k :: 0 <= k < |hosts| ==> r[k] == "!" + hosts[k]
  {
    seq(|hosts|, k requires 0 <= k < |hosts| => "!" + hosts[k])
  }

  /** Whether `get_config` takes the script shortcut. */
  predicate IsScript(cpu: int, gpu: int) {
    cpu == -1 && gpu <= 0
  }

  /** The level that selects the `LEVELS` entry: the GPU one when a GPU is
      wanted, the CPU one otherwise. */
  function ConfigLevel(cpu: int, gpu: int): int {
    if gpu > 0 then gpu else cpu
  }

  /** `get_config(cpu, ram, gpu, excludeHosts)`. Besides the script
      shortcut it fails exactly on a level outside the enumeration, and on a
      SCRIPT memory level, which has no `RAM` entry; the SCRIPT entry of
      `LEVELS` is never looked up. */
  function GetConfig(cpu: int, ram: int, gpu: int, excludeHosts: seq<string>): (r: Result<string>)
    ensures IsScript(cpu, gpu) ==> r == Ok(ScriptConfig)
    ensures !IsScript(cpu, gpu) ==>
      var lv := ConfigLevel(cpu, gpu);
      && (r.Ok? <==> 0 <= lv <= 3 && 0 <= ram <= 3)
      && (!(0 <= lv <= 3) ==> r == Err(InvalidLevel(lv)))
      && (0 <= lv <= 3 && ram == -1 ==> r == Err(MissingKey("SCRIPT")))
      && (0 <= lv <= 3 && !(-1 <= ram <= 3) ==> r == Err(InvalidLevel(ram)))
  {
    if IsScript(cpu, gpu) then Ok(ScriptConfig)
    else
      var useGpu := gpu > 0;
      var l :- LevelOf(ConfigLevel(cpu, gpu));
      match Lookup(LevelTags(useGpu, l), l)
      case Err(e) => Err(e)
      case Ok(tags) =>
        var rl :- LevelOf(ram);
        var ramTag :- Lookup(RamTag(useGpu, rl), rl);
        Ok(Assemble(tags, ramTag, excludeHosts))
  }

  /** The service string from its parts: the level's requirements, the
      memory requirement when there is one, then the excluded hosts. */
  function Assemble(tags: seq<string>, ramTag: string, excludeHosts: seq<string>): string {
    var config := Join(tags, ",");
    var withRam := if ramTag != "" then config + ("," + ramTag) else config;
    if excludeHosts != [] then withRam + ("," + Join(Exclusions(excludeHosts), ",")) else withRam
  }

  /** The requirements a successful `GetConfig` is made of, in order. */
  function ConfigParts(cpu: int, ram: int, gpu: int, excludeHosts: seq<string>): seq<string>
    requires !IsScript(cpu, gpu) && 0 <= ConfigLevel(cpu, gpu) <= 3 && 0 <= ram <= 3
  {
    var l := LevelOf(ConfigLevel(cpu, gpu)).value;
    var tag := RamTag(gpu > 0, LevelOf(ram).value).value;
    LevelTags(gpu > 0, l).value + (if tag != "" then [tag] else []) + Exclusions(excludeHosts)
  }

  lemma {:induction false} JoinAppend(a: seq<string>, b: seq<string>, sep: string)
    requires a != [] && b != []
    ensures Join(a + b, sep) == Join(a, sep) + sep + Join(b, sep)
    decreases |a|
  {
    if |a| == 1 {
      assert (a + b)[1..] == b;
    } else {
      JoinAppend(a[1..], b, sep);
      assert (a + b)[1..] == a[1..] + b;
    }
  }

  /** No table entry contains a comma. */
  lemma TagsHaveNoComma(gpu: bool, l: Level)
    ensures LevelTags(gpu, l).Some? ==> forall k :: 0 <= k < |LevelTags(gpu, l).value| ==> ',' !in LevelTags(gpu, l).value[k]
    ensures RamTag(gpu, l).Some? ==> ',' !in RamTag(gpu, l).value
  {
    assert ',' !in Render;
  }

  /** `Assemble` is the comma join of the parts. */
  lemma AssembleJoins(tags: seq<string>, ramTag: string, excludeHosts: seq<string>)
    requires tags != []
    ensures Assemble(tags, ramTag, excludeHosts)
      == Join(tags + (if ramTag != "" then [ramTag] else []) + Exclusions(excludeHosts), ",")
  {
    var ramPart := if ramTag != "" then [ramTag] else [];
    if ramTag != "" {
      JoinAppend(tags, [ramTag], ",");
      Assoc3(Join(tags, ","), ",", ramTag);
    } else {
      assert tags + ramPart == tags;
    }
    if excludeHosts != [] {
      JoinAppend(tags + ramPart, Exclusions(excludeHosts), ",");
      Assoc3(Join(tags + ramPart, ","), ",", Join(Exclusions(excludeHosts), ","));
    } else {
      assert tags + ramPart + Exclusions(excludeHosts) == tags + ramPart;
    }
  }

  /** Splitting an assembled service string on commas gives back its parts
      when none of them holds a comma. */
  lemma AssembleSplits(tags: seq<string>, ramTag: string, excludeHosts: seq<string>)
    requires tags != [] && forall k :: 0 <= k < |tags| ==> ',' !in tags[k]
    requires ',' !in ramTag
    requires forall k :: 0 <= k < |excludeHosts| ==> ',' !in excludeHosts[k]
    ensures Split(Assemble(tags, ramTag, excludeHosts), ',')
      == tags + (if ramTag != "" then [ramTag] else []) + Exclusions(excludeHosts)
  {
    AssembleJoins(tags, ramTag, excludeHosts);
    var parts := tags + (if ramTag != "" then [ramTag] else []) + Exclusions(excludeHosts);
    forall k | 0 <= k < |parts| ensures ',' !in parts[k] {
      if k >= |parts| - |excludeHosts| {
        assert parts[k] == "!" + excludeHosts[k - (|parts| - |excludeHosts|)];
      }
    }
    SplitJoin(parts, ',');
  }

  /** Splitting a successful service expression on commas gives back its
      parts: the level's requirements, the memory requirement when there is
      one, and `!host` for each excluded host, provided no host name holds
      a comma. */
  lemma GetConfigSplits(cpu: int, ram: int, gpu: int, excludeHosts: seq<string>)
    requires !IsScript(cpu, gpu) && GetConfig(cpu, ram, gpu, excludeHosts).Ok?
    requires forall k :: 0 <= k < |excludeHosts| ==> ',' !in excludeHosts[k]
    ensures Split(GetConfig(cpu, ram, gpu, excludeHosts).value, ',') == ConfigParts(cpu, ram, gpu, excludeHosts)
  {
    var l := LevelOf(ConfigLevel(cpu, gpu)).value;
    var rl := LevelOf(ram).value;
    TagsHaveNoComma(gpu > 0, l);
    TagsHaveNoComma(gpu > 0, rl);
    AssembleSplits(LevelTags(gpu > 0, l).value, RamTag(gpu > 0, rl).value, excludeHosts);
  }

  /** `x` is empty or starts with the separator. */
  predicate SepLed(x: string, sep: char) {
    x == [] || x[0] == sep
  }

  /** The first part of `a + x` is `a` when `a` holds no separator and `x`
      is led by one. */
  lemma SplitHead(a: string, x: string, sep: char)
    requires sep !in a && SepLed(x, sep)
    ensures Split(a + x, sep)[0] == a
  {
    if x == [] {
      assert a + x == a;
    } else {
      assert a + x == a + [sep] + x[1..];
      SplitAtFirst(a, x[1..], sep);
    }
  }

  /** The first part of `h + a + b + c` is `h` when `h` holds no
      separator and the rest is made of separator-led pieces. */
  lemma HeadSplit(h: string, a: string, b: string, c: string, sep: char)
    requires sep !in h && SepLed(a, sep) && SepLed(b, sep) && SepLed(c, sep)
    ensures Split(h + a + b + c, sep)[0] == h
  {
    SepLedConcat(a, b, sep);
    SepLedConcat(a + b, c, sep);
    Assoc4(h, a, b, c);
    SplitHead(h, a + b + c, sep);
  }

  lemma Assoc3<T>(a: seq<T>, b: seq<T>, c: seq<T>)
    ensures a + b + c == a + (b + c)
  {
  }

  lemma Assoc4<T>(h: seq<T>, a: seq<T>, b: seq<T>, c: seq<T>)
    ensures h + a + b + c == h + (a + b + c)
  {
  }

  lemma SepLedConcat(x: string, y: string, sep: char)
    requires SepLed(x, sep) && SepLed(y, sep)
    ensures SepLed(x + y, sep)
  {
    if x == [] {
      assert x + y == y;
    }
  }

  /** The first requirement of an assembled service string is the first
      requirement of its level. */
  lemma AssembleHead(tags: seq<string>, ramTag: string, excludeHosts: seq<string>)
    requires tags != [] && ',' !in tags[0]
    ensures Split(Assemble(tags, ramTag, excludeHosts), ',')[0] == tags[0]
  {
    var a := if |tags| == 1 then "" else "," + Join(tags[1..], ",");
    var b := if ramTag != "" then "," + ramTag else "";
    var c := if excludeHosts != [] then "," + Join(Exclusions(excludeHosts), ",") else "";
    assert Join(tags, ",") == tags[0] + a;
    assert Assemble(tags, ramTag, excludeHosts) == tags[0] + a + b + c;
    HeadSplit(tags[0], a, b, c, ',');
  }

  /** Every service expression other than the script one starts with the
      render profile requirement, whatever hosts are excluded. */
  lemma GetConfigStartsWithRender(cpu: int, ram: int, gpu: int, excludeHosts: seq<string>)
    requires !IsScript(cpu, gpu) && GetConfig(cpu, ram, gpu, excludeHosts).Ok?
    ensures Split(GetConfig(cpu, ram, gpu, excludeHosts).value, ',')[0] == Render
  {
    var l := LevelOf(ConfigLevel(cpu, gpu)).value;
    var tags := LevelTags(gpu > 0, l).value;
    var ramTag := RamTag(gpu > 0, LevelOf(ram).value).value;
    TagsHaveNoComma(gpu > 0, l);
    AssembleHead(tags, ramTag, excludeHosts);
  }

  /** With a GPU level the CPU level plays no part. */
  lemma GpuIgnoresCpu(cpu: int, cpu': int, ram: int, gpu: int, excludeHosts: seq<string>)
    requires gpu > 0
    ensures GetConfig(cpu, ram, gpu, excludeHosts) == GetConfig(cpu', ram, gpu, excludeHosts)
  {
  }

  /** The CPU table's requirements only grow with the level. */
  lemma CpuLevelsNested(a: Level, b: Level)
    requires a != Script && b != Script && Value(a) <= Value(b)
    ensures LevelTags(false, a).value <= LevelTags(false, b).value
  {
  }
}

=== FILE: subtasks.dfy ===
/** Subtasks queued by an expanding task at run time: the output channel
    named by the environment, the Alfred text of a `Task … -cmds {
    RemoteCmd … }` record, and one record per chunk of a node. */
module Subtasks {
  import opened Results
  import opened Text
  import opened Dicts
  import opened Chunks
  import opened Infos

  // ---------------------------------------------------------------------------
  // _getCachedSubtaskStdout
  // ---------------------------------------------------------------------------

  const StdoutFdVar: string := "TRACTOR_SUBTASK_STDOUT_FD"

  /** `os.fdopen` converts the descriptor to a C `int`; outside this range
      it raises OverflowError, which `_getCachedSubtaskStdout` does not
      catch. */
  predicate FitsCInt(fd: int) {
    -0x8000_0000 <= fd < 0x8000_0000
  }

  /** The cached channel: not opened yet, or open on a file descriptor. */
  datatype Channel = Unopened | Opened(fd: int)

  /** `_getCachedSubtaskStdout()`: an open channel is reused as it is;
      otherwise the descriptor is read from the environment and opened.
      `openable` is the set of descriptors the process could open; one
      that does not fit a C `int` is an OverflowError whatever it holds. */
  function SubtaskStdout(env: Environ, openable: set<int>, ch: Channel): (r: Result<(Channel, int)>)
    ensures ch.Opened? ==> r == Ok((ch, ch.fd))
    ensures ch.Unopened? && StdoutFdVar !in env ==> r == Err(ChannelNotFound)
    ensures ch.Unopened? && StdoutFdVar in env ==>
      && (r.Ok? <==> ParseInt(env[StdoutFdVar]).Some? && FitsCInt(ParseInt(env[StdoutFdVar]).value)
                     && ParseInt(env[StdoutFdVar]).value in openable)
      && (r.Err? ==> r.error == if ParseInt(env[StdoutFdVar]).Some? && !FitsCInt(ParseInt(env[StdoutFdVar]).value)
                                then DescriptorOverflow else ChannelUnusable)
      && (r.Ok? ==> r.value == (Opened(r.value.1), r.value.1) && ParseInt(env[StdoutFdVar]) == Some(r.value.1))
  {
    match ch
    case Opened(fd) => Ok((ch, fd))
    case Unopened =>
      if StdoutFdVar !in env then Err(ChannelNotFound)
      else
        match ParseInt(env[StdoutFdVar])
        case None => Err(ChannelUnusable)
        case Some(fd) =>
          if !FitsCInt(fd) then Err(DescriptorOverflow)
          else if fd in openable then Ok((Opened(fd), fd))
          else Err(ChannelUnusable)
  }

  /** Once the channel is open, later calls return the same descriptor
      whatever the environment has become. */
  lemma ChannelReused(env: Environ, env': Environ, openable: set<int>, openable': set<int>, ch: Channel)
    requires SubtaskStdout(env, openable, ch).Ok?
    ensures var (ch', fd) := SubtaskStdout(env, openable, ch).value;
      SubtaskStdout(env', openable', ch') == Ok((ch', fd))
  {
  }

  /** A descriptor written in decimal in the environment opens the channel
      on that descriptor. */
  lemma ChannelFromEnv(env: Environ, openable: set<int>, fd: int)
    requires StdoutFdVar in env && env[StdoutFdVar] == IntToString(fd) && FitsCInt(fd) && fd in openable
    ensures SubtaskStdout(env, openable, Unopened) == Ok((Opened(fd), fd))
  {
    ParseIntToString(fd);
  }

  /** A descriptor written in decimal that does not fit a C `int`, such as
      2147483648, is an OverflowError, not the RuntimeError of an
      unopenable one. */
  lemma ChannelOverflow(env: Environ, openable: set<int>, fd: int)
    requires StdoutFdVar in env && env[StdoutFdVar] == IntToString(fd) && !FitsCInt(fd)
    ensures SubtaskStdout(env, openable, Unopened) == Err(DescriptorOverflow)
  {
    ParseIntToString(fd);
  }

  // ---------------------------------------------------------------------------
  // queueSubtask: the record text
  // ---------------------------------------------------------------------------

  /** The command of a subtask: one command line, or an argument list. */
  datatype Argv = Line(line: string) | Args(args: seq<string>)

  /** The metadata of a subtask: none, text used as it is, or a dict that
      is JSON-encoded. */
  datatype Metadata = NoMetadata | MetaText(text: string) | MetaDict(dict: Dict<Value>)

  /** The argument list: a command line is split like a shell would, an
      argument list is used as it is. */
  function CmdArgv(argv: Argv): seq<string> {
    match argv
    case Line(line) => ShellSplit(line)
    case Args(args) => args
  }

  /** `" ".join(cmd_argv)`. */
  function CmdText(argv: Argv): string {
    Join(CmdArgv(argv), " ")
  }

  function Braced(s: string): string {
    "{" + s + "}"
  }

  /** A `-flag {a b c}` clause for a list, absent for an empty list. */
  function ListClause(flag: string, items: seq<string>): (c: string)
    ensures c == "" <==> items == []
    ensures items != [] ==> c == flag + " " + Braced(Join(items, " "))
  {
    if items != [] then flag + " " + Braced(Join(items, " ")) else ""
  }

  /** The `-service {…}` clause, absent for an empty service. */
  function ServiceClause(service: string): (c: string)
    ensures c == "" <==> service == ""
    ensures service != "" ==> c == "-service " + Braced(service)
  {
    if service != "" then "-service " + Braced(service) else ""
  }

  /** The metadata as written: `None`, the text, or the JSON object. */
  function MetadataText(m: Metadata): string {
    match m
    case NoMetadata => "None"
    case MetaText(t) => t
    case MetaDict(d) => DumpJson(d)
  }

  /** The `-metadata {…}` clause, always present. */
  function MetadataClause(m: Metadata): string {
    "-metadata " + Braced(MetadataText(m))
  }

  /** The `Task` line of a record. */
  function TaskLine(title: string, service: string, metadata: Metadata): string {
    "Task -title " + Braced(title) + " " + ServiceClause(service) + " " + MetadataClause(metadata) + " -cmds {"
  }

  /** The `RemoteCmd` line of a record. */
  function CmdLine(argv: Argv, service: string, limits: seq<string>, envkey: seq<string>): string {
    "    RemoteCmd " + Braced(CmdText(argv)) + " " + ServiceClause(service) + " "
      + ListClause("-tags", limits) + " " + ListClause("-envkey", envkey)
  }

  /** The `task_def` text `queueSubtask` writes. */
  function SubtaskRecord(title: string, argv: Argv, service: string, limits: seq<string>,
                         metadata: Metadata, envkey: seq<string>): string {
    "\n" + TaskLine(title, service, metadata) + "\n" + CmdLine(argv, service, limits, envkey) + "\n" + "}" + "\n"
  }

  /** No line break in a string or in any string of a list. */
  predicate OneLine(s: string) {
    '\n' !in s
  }

  predicate AllOneLine(items: seq<string>) {
    forall k :: 0 <= k < |items| ==> OneLine(items[k])
  }

  lemma {:induction false} JoinOneLine(items: seq<string>, sep: string)
    requires AllOneLine(items) && OneLine(sep)
    ensures OneLine(Join(items, sep))
    decreases |items|
  {
    if |items| > 1 {
      JoinOneLine(items[1..], sep);
    }
  }

  lemma BracedOneLine(s: string)
    requires OneLine(s)
    ensures OneLine(Braced(s))
  {
    assert Braced(s) == ['{'] + s + ['}'];
  }

  lemma ListClauseOneLine(flag: string, items: seq<string>)
    requires OneLine(flag) && AllOneLine(items)
    ensures OneLine(ListClause(flag, items))
  {
    if items != [] {
      JoinOneLine(items, " ");
      BracedOneLine(Join(items, " "));
      assert ListClause(flag, items) == flag + [' '] + Braced(Join(items, " "));
    }
  }

  lemma ServiceClauseOneLine(service: string)
    requires OneLine(service)
    ensures OneLine(ServiceClause(service))
  {
    if service != "" {
      BracedOneLine(service);
      assert ServiceClause(service) == "-service " + Braced(service);
      assert OneLine("-service ");
    }
  }

  lemma TaskLineOneLine(title: string, service: string, metadata: Metadata)
    requires OneLine(title) && OneLine(service) && OneLine(MetadataText(metadata))
    ensures OneLine(TaskLine(title, service, metadata))
  {
    BracedOneLine(title);
    BracedOneLine(MetadataText(metadata));
    ServiceClauseOneLine(service);
    assert OneLine("Task -title ") && OneLine(" ") && OneLine("-metadata ") && OneLine(" -cmds {");
  }

  lemma CmdLineOneLine(argv: Argv, service: string, limits: seq<string>, envkey: seq<string>)
    requires OneLine(service) && AllOneLine(CmdArgv(argv)) && AllOneLine(limits) && AllOneLine(envkey)
    ensures OneLine(CmdLine(argv, service, limits, envkey))
  {
    JoinOneLine(CmdArgv(argv), " ");
    BracedOneLine(CmdText(argv));
    ServiceClauseOneLine(service);
    assert OneLine("-tags") && OneLine("-envkey");
    ListClauseOneLine("-tags", limits);
    ListClauseOneLine("-envkey", envkey);
    assert OneLine("    RemoteCmd ") && OneLine(" ");
  }

  /** Five lines joined by line breaks. */
  lemma JoinFive(a: string, b: string, c: string, d: string, e: string)
    ensures Join([a, b, c, d, e], "\n") == a + "\n" + (b + "\n" + (c + "\n" + (d + "\n" + e)))
  {
    var sep := "\n";
    assert [d, e][1..] == [e];
    assert Join([d, e], sep) == d + sep + e;
    assert [c, d, e][1..] == [d, e];
    assert Join([c, d, e], sep) == c + sep + Join([d, e], sep);
    assert [b, c, d, e][1..] == [c, d, e];
    assert Join([b, c, d, e], sep) == b + sep + Join([c, d, e], sep);
    assert [a, b, c, d, e][1..] == [b, c, d, e];
  }

  /** Two one-line strings framed as a record split back into its five
      lines. */
  lemma FramedLines(a: string, b: string)
    requires OneLine(a) && OneLine(b)
    ensures Split("\n" + a + "\n" + b + "\n" + "}" + "\n", '\n') == ["", a, b, "}", ""]
  {
    var lines := ["", a, b, "}", ""];
    JoinFive("", a, b, "}", "");
    assert "\n" + a + "\n" + b + "\n" + "}" + "\n" == Join(lines, "\n");
    assert OneLine("}") && OneLine("");
    assert "\n" == ['\n'];
    SplitJoin(lines, '\n');
  }

  /** A record is five lines: an empty one, the `Task` line, the
      `RemoteCmd` line, the closing brace and an empty one, as long as no
      field holds a line break. */
  lemma SubtaskRecordLines(title: string, argv: Argv, service: string, limits: seq<string>,
                           metadata: Metadata, envkey: seq<string>)
    requires OneLine(title) && OneLine(service) && OneLine(MetadataText(metadata))
    requires AllOneLine(CmdArgv(argv)) && AllOneLine(limits) && AllOneLine(envkey)
    ensures Split(SubtaskRecord(title, argv, service, limits, metadata, envkey), '\n')
      == ["", TaskLine(title, service, metadata), CmdLine(argv, service, limits, envkey), "}", ""]
  {
    TaskLineOneLine(title, service, metadata);
    CmdLineOneLine(argv, service, limits, envkey);
    FramedLines(TaskLine(title, service, metadata), CmdLine(argv, service, limits, envkey));
  }

  /** A non-empty `-tags` or `-envkey` clause is the flag, a space and a
      braced list; the text inside the braces splits back into the list,
      as long as no item holds a space. */
  lemma ListClauseRoundTrip(flag: string, items: seq<string>)
    requires items != [] && forall k :: 0 <= k < |items| ==> ' ' !in items[k]
    ensures var c := ListClause(flag, items);
      && |c| >= |flag| + 3
      && c[..|flag| + 2] == flag + " {"
      && c[|c| - 1] == '}'
      && Split(c[|flag| + 2..|c| - 1], ' ') == items
  {
    var inner := Join(items, " ");
    var c := ListClause(flag, items);
    assert c == (flag + " {") + inner + "}";
    assert c[|flag| + 2..|c| - 1] == inner;
    SplitJoin(items, ' ');
  }

  /** Splitting a joined word list on white space gives the words back. */
  lemma {:induction false} WordsJoin(ws: seq<string>)
    requires forall k :: 0 <= k < |ws| ==> ws[k] != "" && NoSpace(ws[k])
    ensures Words(Join(ws, " ")) == ws
    decreases |ws|
  {
    if |ws| == 0 {
      assert Join(ws, " ") == "";
    } else if |ws| == 1 {
      WordsOfWord(ws[0]);
    } else {
      WordsJoin(ws[1..]);
      WordsConcat(ws[0], Join(ws[1..], " "));
      WordsOfWord(ws[0]);
      assert ws == [ws[0]] + ws[1..];
    }
  }

  /** The command text of a command line has the line's words: splitting
      and re-joining keeps them, only runs of white space shrink to one
      space. */
  lemma CmdTextKeepsWords(line: string)
    ensures Words(CmdText(Line(line))) == Words(line)
  {
    WordsJoin(Words(line));
  }

  // ---------------------------------------------------------------------------
  // queueSubtask and queueChunkTask
  // ---------------------------------------------------------------------------

  /** `queueSubtask(...)`: the record is sent on the channel, which is
      opened on first use. */
  function QueueSubtask(env: Environ, openable: set<int>, ch: Channel,
                        title: string, argv: Argv, service: string, limits: seq<string>,
                        metadata: Metadata, envkey: seq<string>): (r: Result<(Channel, string)>)
    ensures r.Ok? <==> SubtaskStdout(env, openable, ch).Ok?
    ensures r.Ok? ==>
      && r.value.0 == SubtaskStdout(env, openable, ch).value.0
      && r.value.0.Opened?
      && r.value.1 == SubtaskRecord(title, argv, service, limits, metadata, envkey)
  {
    var (ch', _) :- SubtaskStdout(env, openable, ch);
    Ok((ch', SubtaskRecord(title, argv, service, limits, metadata, envkey)))
  }

  /** The record of one chunk: the chunk's cooked title, command, service
      and metadata, with the node's limits and environment. */
  function ChunkRecord(infos: TaskInfos, kwargs: TaskKwargs): string
    requires kwargs.argv.Some?
  {
    SubtaskRecord(kwargs.title, Args(kwargs.argv.value), kwargs.service, infos.limits,
                  MetaDict(kwargs.metadata), infos.EnvKey())
  }

  /** `queueSubtask(**chunkParams)` for a cooked chunk, with the node's
      limits and environment added; a chunk without an argument vector
      cannot be listed, as `list(None)` fails. */
  function ChunkSubtask(env: Environ, openable: set<int>, infos: TaskInfos, ch: Channel,
                        kwargs: TaskKwargs): Result<(Channel, string)>
  {
    match kwargs.argv
    case None => Err(NotIterable)
    case Some(argv) =>
      QueueSubtask(env, openable, ch, kwargs.title, Args(argv), kwargs.service, infos.limits,
                   MetaDict(kwargs.metadata), infos.EnvKey())
  }

  /** A queued chunk leaves the channel open and sends the chunk's record. */
  lemma ChunkSubtaskRecord(env: Environ, openable: set<int>, infos: TaskInfos, ch: Channel, kwargs: TaskKwargs)
    requires ChunkSubtask(env, openable, infos, ch, kwargs).Ok?
    ensures kwargs.argv.Some?
    ensures ChunkSubtask(env, openable, infos, ch, kwargs).value.0.Opened?
    ensures ChunkSubtask(env, openable, infos, ch, kwargs).value.1 == ChunkRecord(infos, kwargs)
  {
  }

  /** How a chunk is cooked into subtask arguments: `CookChunk` of the
      node's infos in `QueueChunkTask`. */
  type ChunkCooker = Chunk -> Result<TaskKwargs>

  /** How cooked arguments are queued on the channel: `ChunkSubtask` in
      `QueueChunkTask`. */
  type Queuer = (Channel, TaskKwargs) -> Result<(Channel, string)>

  /** The chunk loop of `queueChunkTask`, from chunk `i` on: each chunk is
      cooked, then queued; the first failure ends the loop. The result
      holds the channel and the records sent, in order. */
  function QueueChunks(ch: Channel, cook: ChunkCooker, queue: Queuer, chunks: seq<Chunk>, i: nat)
    : (r: Result<(Channel, seq<string>)>)
    requires i <= |chunks|
    ensures r.Ok? ==> |r.value.1| == |chunks| - i
    ensures i < |chunks| && cook(chunks[i]).Err? ==> r == Err(cook(chunks[i]).error)
    ensures i < |chunks| && cook(chunks[i]).Ok? && queue(ch, cook(chunks[i]).value).Err? ==>
      r == Err(queue(ch, cook(chunks[i]).value).error)
    ensures i == |chunks| ==> r == Ok((ch, []))
    decreases |chunks| - i
  {
    if i == |chunks| then Ok((ch, []))
    else
      var kwargs :- cook(chunks[i]);
      var queued :- queue(ch, kwargs);
      var rest :- QueueChunks(queued.0, cook, queue, chunks, i + 1);
      Ok((rest.0, [queued.1] + rest.1))
  }

  /** The channel the loop holds when it reaches chunk `k`. */
  ghost function ChannelAt(ch: Channel, cook: ChunkCooker, queue: Queuer, chunks: seq<Chunk>, i: nat, k: nat): Channel
    requires i <= k <= |chunks| && QueueChunks(ch, cook, queue, chunks, i).Ok?
    decreases k - i
  {
    if k == i then ch
    else
      var queued := queue(ch, cook(chunks[i]).value).value;
      ChannelAt(queued.0, cook, queue, chunks, i + 1, k)
  }

  /** When the loop succeeds, every chunk from `i` on was cooked and
      queued, and what was queued for chunk `k` sits at its place in the
      chunk order. */
  lemma {:induction false} QueueChunksRecord(ch: Channel, cook: ChunkCooker, queue: Queuer, chunks: seq<Chunk>,
                                             i: nat, k: nat)
    requires i <= k < |chunks| && QueueChunks(ch, cook, queue, chunks, i).Ok?
    ensures cook(chunks[k]).Ok?
    ensures var at := queue(ChannelAt(ch, cook, queue, chunks, i, k), cook(chunks[k]).value);
      && at.Ok?
      && QueueChunks(ch, cook, queue, chunks, i).value.1[k - i] == at.value.1
    decreases k - i
  {
    var queued := queue(ch, cook(chunks[i]).value).value;
    var rest := QueueChunks(queued.0, cook, queue, chunks, i + 1).value;
    assert QueueChunks(ch, cook, queue, chunks, i).value.1 == [queued.1] + rest.1;
    if k > i {
      QueueChunksRecord(queued.0, cook, queue, chunks, i + 1, k);
    }
  }

  /** The chunk parameters of `queueChunkTask`: blocks 0 to nbBlocks - 1,
      one per chunk, only when there is more than one block. */
  function BlockParams(nbBlocks: int): Option<map<string, int>> {
    if nbBlocks > 1 then Some(map["start" := 0, "end" := nbBlocks - 1, "step" := 1]) else None
  }

  /** With more than one block, chunk k covers exactly block k. */
  lemma BlockPlan(nbBlocks: int)
    requires nbBlocks > 1
    ensures GetChunks(BlockParams(nbBlocks)).Ok? && GetChunks(BlockParams(nbBlocks)).value.Some?
    ensures var chunks := GetChunks(BlockParams(nbBlocks)).value.value;
      && |chunks| == nbBlocks
      && forall k :: 0 <= k < nbBlocks ==> chunks[k] == Chunk(k, k, k)
  {
    var p := map["start" := 0, "end" := nbBlocks - 1, "step" := 1];
    assert Param(p, "start", -1) == 0 && Param(p, "end", -2) == nbBlocks - 1;
    assert Param(p, "packetSize", 1) == 1;
    PlanIsGetChunks(p);
    PlanShape(0, nbBlocks - 1, 1);
  }

  /** `queueChunkTask(node, cmdArgs, service, tags, rezPackages,
      environment)`, with the node's name, uid, block count and licences
      passed in: the node's task infos are built, then one subtask is
      queued per chunk. With at most one block there are no chunks to
      iterate over. */
  function QueueChunkTask(env: Environ, openable: set<int>, ch: Channel,
                          name: string, cmdArgs: string, uid: string, nbBlocks: int, licenses: seq<string>,
                          service: string, tags: Dict<Value>, rezPackages: seq<string>,
                          environment: Dict<string>): (r: Result<(Channel, seq<string>)>)
    ensures ResolveService(env, service).Err? ==> r == Err(MissingService)
    ensures ResolveService(env, service).Ok? && nbBlocks <= 1 ==> r == Err(NotIterable)
    ensures r.Ok? ==> nbBlocks > 1 && |r.value.1| == nbBlocks
  {
    var params := BlockParams(nbBlocks);
    var infos :- NewTaskInfos(env, name, cmdArgs, uid, environment, rezPackages, service, licenses,
                              tags, false, params);
    if infos.chunks.None? then Err(NotIterable)
    else
      BlockPlan(nbBlocks);
      QueueChunks(ch, c => CookChunk(env, infos, c), (c, kw) => ChunkSubtask(env, openable, infos, c, kw),
                  infos.chunks.value, 0)
  }

  /** A successful `queueChunkTask` is the chunk loop over the blocks of
      the node's task infos. */
  lemma QueueChunkTaskLoop(env: Environ, openable: set<int>, ch: Channel,
                           name: string, cmdArgs: string, uid: string, nbBlocks: int, licenses: seq<string>,
                           service: string, tags: Dict<Value>, rezPackages: seq<string>,
                           environment: Dict<string>)
    requires QueueChunkTask(env, openable, ch, name, cmdArgs, uid, nbBlocks, licenses, service, tags,
                            rezPackages, environment).Ok?
    ensures var infos := NewTaskInfos(env, name, cmdArgs, uid, environment, rezPackages, service, licenses,
                                      tags, false, BlockParams(nbBlocks));
      && infos.Ok? && infos.value.chunks.Some? && infos.value.chunks.value == GetChunks(BlockParams(nbBlocks)).value.value
      && QueueChunkTask(env, openable, ch, name, cmdArgs, uid, nbBlocks, licenses, service, tags,
                        rezPackages, environment)
         == QueueChunks(ch, c => CookChunk(env, infos.value, c),
                        (c, kw) => ChunkSubtask(env, openable, infos.value, c, kw), infos.value.chunks.value, 0)
  {
  }

  /** Record k of a successful chunk loop over a node's infos is the record
      of its k-th chunk. */
  lemma ChunkLoopRecord(env: Environ, openable: set<int>, ch: Channel, infos: TaskInfos, k: nat)
    requires infos.chunks.Some? && k < |infos.chunks.value|
    requires QueueChunks(ch, c => CookChunk(env, infos, c),
                         (c, kw) => ChunkSubtask(env, openable, infos, c, kw), infos.chunks.value, 0).Ok?
    ensures CookChunk(env, infos, infos.chunks.value[k]).Ok?
    ensures CookChunk(env, infos, infos.chunks.value[k]).value.argv.Some?
    ensures QueueChunks(ch, c => CookChunk(env, infos, c),
                        (c, kw) => ChunkSubtask(env, openable, infos, c, kw), infos.chunks.value, 0).value.1[k]
      == ChunkRecord(infos, CookChunk(env, infos, infos.chunks.value[k]).value)
  {
    var cook: ChunkCooker := c => CookChunk(env, infos, c);
    var queue: Queuer := (c, kw) => ChunkSubtask(env, openable, infos, c, kw);
    var chunks := infos.chunks.value;
    QueueChunksRecord(ch, cook, queue, chunks, 0, k);
    ChunkSubtaskRecord(env, openable, infos, ChannelAt(ch, cook, queue, chunks, 0, k), cook(chunks[k]).value);
  }

  /** Record k of a successful `queueChunkTask` is the record of block k,
      titled after it. */
  lemma QueueChunkTaskRecord(env: Environ, openable: set<int>, ch: Channel,
                             name: string, cmdArgs: string, uid: string, nbBlocks: int, licenses: seq<string>,
                             service: string, tags: Dict<Value>, rezPackages: seq<string>,
                             environment: Dict<string>, k: nat)
    requires QueueChunkTask(env, openable, ch, name, cmdArgs, uid, nbBlocks, licenses, service, tags,
                            rezPackages, environment).Ok?
    requires k < nbBlocks
    ensures var infos := NewTaskInfos(env, name, cmdArgs, uid, environment, rezPackages, service, licenses,
                                      tags, false, BlockParams(nbBlocks)).value;
      var records := QueueChunkTask(env, openable, ch, name, cmdArgs, uid, nbBlocks, licenses, service, tags,
                                    rezPackages, environment).value.1;
      && CookChunk(env, infos, Chunk(k, k, k)).Ok?
      && CookChunk(env, infos, Chunk(k, k, k)).value.title == ChunkTitle(name, Chunk(k, k, k))
      && records[k] == ChunkRecord(infos, CookChunk(env, infos, Chunk(k, k, k)).value)
  {
    QueueChunkTaskLoop(env, openable, ch, name, cmdArgs, uid, nbBlocks, licenses, service, tags,
                       rezPackages, environment);
    var infos := NewTaskInfos(env, name, cmdArgs, uid, environment, rezPackages, service, licenses,
                              tags, false, BlockParams(nbBlocks)).value;
    BlockPlan(nbBlocks);
    assert infos.chunks.value[k] == Chunk(k, k, k);
    ChunkLoopRecord(env, openable, ch, infos, k);
  }
}

=== FILE: text.dfy ===
/** String helpers standing in for the Python built-ins the submitter uses:
    `str.split(sep)`, `sep.join(parts)`, whitespace splitting (`str.split()`
    and, in simplified form, `shlex.split`), `str(int)` and `int(str)`. */
module Text {
  import opened Results

  /** The ASCII characters `str.isspace()` holds for, which `str.split()`
      splits on and `int()` strips: space, tab, line feed, vertical tab,
      form feed, carriage return and the four separators 0x1C to 0x1F. */
  predicate IsSpace(c: char) {
    || c == ' ' || c == '\t' || c == '\n' || c == '\r' || c == '\U{B}' || c == '\U{C}'
    || c == '\U{1C}' || c == '\U{1D}' || c == '\U{1E}' || c == '\U{1F}'
  }

  predicate NoSpace(s: string) {
    forall i :: 0 <= i < |s| ==> !IsSpace(s[i])
  }

  /** Position of the first occurrence of `c` in `s`. */
  function IndexOf(s: string, c: char): (i: nat)
    requires c in s
    ensures i < |s| && s[i] == c && c !in s[..i]
  {
    if s[0] == c then 0 else 1 + IndexOf(s[1..], c)
  }

  // ---------------------------------------------------------------------------
  // str.split(sep) and sep.join(parts)
  // ---------------------------------------------------------------------------

  /** `s.split(sep)` for a one-character separator: never empty, and no part
      contains the separator. */
  function Split(s: string, sep: char): (parts: seq<string>)
    ensures |parts| >= 1
    ensures forall k :: 0 <= k < |parts| ==> sep !in parts[k]
    decreases |s|
  {
    if sep !in s then [s]
    else
      var i := IndexOf(s, sep);
      [s[..i]] + Split(s[i + 1..], sep)
  }

  /** `sep.join(parts)`. */
  function Join(parts: seq<string>, sep: string): string
    decreases |parts|
  {
    if |parts| == 0 then ""
    else if |parts| == 1 then parts[0]
    else parts[0] + sep + Join(parts[1..], sep)
  }

  /** Joining what `Split` produced gives the original string back. */
  lemma {:induction false} JoinSplit(s: string, sep: char)
    ensures Join(Split(s, sep), [sep]) == s
    decreases |s|
  {
    if sep in s {
      var i := IndexOf(s, sep);
      var rest := s[i + 1..];
      JoinSplit(rest, sep);
      assert Split(s, sep) == [s[..i]] + Split(rest, sep);
      assert s == s[..i] + [sep] + rest;
    }
  }

  /** Splitting a join of separator-free parts gives the parts back. */
  lemma {:induction false} SplitJoin(parts: seq<string>, sep: char)
    requires |parts| >= 1
    requires forall k :: 0 <= k < |parts| ==> sep !in parts[k]
    ensures Split(Join(parts, [sep]), sep) == parts
    decreases |parts|
  {
    if |parts| > 1 {
      var rest := Join(parts[1..], [sep]);
      SplitJoin(parts[1..], sep);
      SplitConcat(parts[0], rest, sep);
      assert Split(parts[0], sep) == [parts[0]];
      assert parts == [parts[0]] + parts[1..];
    }
  }

  /** The first occurrence is the one `IndexOf` finds. */
  lemma IndexOfUnique(s: string, c: char, i: nat)
    requires i < |s| && s[i] == c && c !in s[..i]
    ensures c in s && IndexOf(s, c) == i
  {
    assert s[i] in s;
    var j := IndexOf(s, c);
    assert forall k :: 0 <= k < i ==> s[..i][k] == s[k];
    assert forall k :: 0 <= k < j ==> s[..j][k] == s[k];
  }

  /** Splitting at a separator placed between two strings splits each side. */
  lemma {:induction false} SplitConcat(a: string, b: string, sep: char)
    ensures Split(a + [sep] + b, sep) == Split(a, sep) + Split(b, sep)
    decreases |a|
  {
    if sep !in a {
      SplitAtFirst(a, b, sep);
    } else {
      var i := IndexOf(a, sep);
      SplitConcat(a[i + 1..], b, sep);
      SplitStep(a, b, sep, i);
    }
  }

  lemma SplitStep(a: string, b: string, sep: char, i: nat)
    requires sep in a && i == IndexOf(a, sep)
    requires Split(a[i + 1..] + [sep] + b, sep) == Split(a[i + 1..], sep) + Split(b, sep)
    ensures Split(a + [sep] + b, sep) == Split(a, sep) + Split(b, sep)
  {
    SplitInside(a, b, sep);
    Regroup([a[..i]], Split(a[i + 1..], sep), Split(b, sep), Split(a, sep), Split(a + [sep] + b, sep));
  }

  lemma Regroup<T>(h: seq<T>, x: seq<T>, y: seq<T>, left: seq<T>, whole: seq<T>)
    requires left == h + x && whole == h + (x + y)
    ensures whole == left + y
  {
  }

  lemma SplitAtFirst(a: string, b: string, sep: char)
    requires sep !in a
    ensures Split(a + [sep] + b, sep) == [a] + Split(b, sep)
  {
    var s := a + [sep] + b;
    assert s[..|a|] == a;
    IndexOfUnique(s, sep, |a|);
    assert s[|a| + 1..] == b;
  }

  lemma SplitInside(a: string, b: string, sep: char)
    requires sep in a
    ensures var i := IndexOf(a, sep);
      && Split(a, sep) == [a[..i]] + Split(a[i + 1..], sep)
      && Split(a + [sep] + b, sep) == [a[..i]] + Split(a[i + 1..] + [sep] + b, sep)
  {
    var s := a + [sep] + b;
    var i := IndexOf(a, sep);
    assert s[..i] == a[..i];
    IndexOfUnique(s, sep, i);
    assert s[i + 1..] == a[i + 1..] + [sep] + b;
  }

  // ---------------------------------------------------------------------------
  // Whitespace splitting: str.split() and the simplified shlex.split
  // ---------------------------------------------------------------------------

  /** Length of the run of non-space characters at the front of `s`. */
  function WordLength(s: string): (n: nat)
    ensures n <= |s|
    ensures forall k :: 0 <= k < n ==> !IsSpace(s[k])
    ensures n < |s| ==> IsSpace(s[n])
  {
    if |s| == 0 || IsSpace(s[0]) then 0 else 1 + WordLength(s[1..])
  }

  /** `s.split()`: the maximal runs of non-space characters, in order. */
  function Words(s: string): (ws: seq<string>)
    ensures forall k :: 0 <= k < |ws| ==> ws[k] != "" && NoSpace(ws[k])
    decreases |s|
  {
    if |s| == 0 then []
    else if IsSpace(s[0]) then Words(s[1..])
    else
      var n := WordLength(s);
      [s[..n]] + Words(s[n..])
  }

  lemma {:induction false} WordLengthSpace(a: string, b: string)
    ensures WordLength(a + [' '] + b) == WordLength(a)
    decreases |a|
  {
    if |a| > 0 && !IsSpace(a[0]) {
      assert (a + [' '] + b)[1..] == a[1..] + [' '] + b;
      WordLengthSpace(a[1..], b);
    }
  }

  /** Words on both sides of a space are split independently. */
  lemma {:induction false} WordsConcat(a: string, b: string)
    ensures Words(a + " " + b) == Words(a) + Words(b)
    decreases |a|
  {
    var s := a + " " + b;
    if |a| == 0 {
      assert s[1..] == b;
    } else if IsSpace(a[0]) {
      assert s[1..] == a[1..] + " " + b;
      WordsConcat(a[1..], b);
    } else {
      var n := WordLength(a);
      WordLengthSpace(a, b);
      assert s[..n] == a[..n];
      if n == |a| {
        assert s[n..] == " " + b;
        assert Words(s[n..]) == Words(b) by { assert s[n..][1..] == b; }
        assert a[n..] == [];
      } else {
        assert s[n..] == a[n..] + " " + b;
        WordsConcat(a[n..], b);
      }
    }
  }

  /** A single non-empty word without spaces splits to itself. */
  lemma WordsOfWord(w: string)
    requires w != "" && NoSpace(w)
    ensures Words(w) == [w]
  {
    WordLengthFull(w);
    assert w[..|w|] == w;
    assert w[|w|..] == [];
  }

  lemma {:induction false} WordLengthFull(w: string)
    requires NoSpace(w)
    ensures WordLength(w) == |w|
    decreases |w|
  {
    if |w| > 0 {
      WordLengthFull(w[1..]);
    }
  }

  // ---------------------------------------------------------------------------
  // str(int) and int(str)
  // ---------------------------------------------------------------------------

  predicate IsDigit(c: char) {
    '0' <= c <= '9'
  }

  predicate AllDigits(s: string) {
    forall i :: 0 <= i < |s| ==> IsDigit(s[i])
  }

  function DigitChar(d: nat): (c: char)
    requires d < 10
    ensures IsDigit(c)
  {
    "0123456789"[d]
  }

  function DigitValue(c: char): (d: nat)
    requires IsDigit(c)
    ensures d < 10
  {
    (c as int - '0' as int) as nat
  }

  /** Decimal digits of a natural number, without leading zeros. */
  function NatToString(n: nat): (s: string)
    ensures |s| >= 1 && AllDigits(s)
  {
    if n < 10 then [DigitChar(n)] else NatToString(n / 10) + [DigitChar(n % 10)]
  }

  /** `str(i)` for a Python int. */
  function IntToString(i: int): (s: string)
    ensures |s| >= 1 && NoSpace(s)
    ensures '_' !in s && '=' !in s
  {
    if i < 0 then "-" + NatToString(-i) else NatToString(i)
  }

  /** Value of a non-empty string of decimal digits. */
  function ParseDigits(s: string): nat
    requires |s| >= 1 && AllDigits(s)
  {
    if |s| == 1 then DigitValue(s[0])
    else ParseDigits(s[..|s| - 1]) * 10 + DigitValue(s[|s| - 1])
  }

  function TrimStart(s: string): (r: string)
    ensures |r| <= |s|
  {
    if |s| > 0 && IsSpace(s[0]) then TrimStart(s[1..]) else s
  }

  function TrimEnd(s: string): (r: string)
    ensures |r| <= |s|
  {
    if |s| > 0 && IsSpace(s[|s| - 1]) then TrimEnd(s[..|s| - 1]) else s
  }

  /** Decimal digits with Python's grouping underscores: a single `_` may
      stand between two digits. */
  predicate Grouped(s: string) {
    && |s| >= 1 && IsDigit(s[0]) && IsDigit(s[|s| - 1])
    && (forall i :: 0 <= i < |s| ==> IsDigit(s[i]) || s[i] == '_')
    && (forall i :: 0 <= i < |s| - 1 && s[i] == '_' ==> IsDigit(s[i + 1]))
  }

  /** The digits of a grouped number, its underscores dropped. */
  function DropUnderscores(s: string): (r: string)
    ensures '_' !in r
    ensures '_' !in s ==> r == s
    ensures (forall i :: 0 <= i < |s| ==> IsDigit(s[i]) || s[i] == '_') ==> AllDigits(r)
    ensures |s| >= 1 && s[0] != '_' ==> |r| >= 1
  {
    if s == [] then []
    else if s[0] == '_' then DropUnderscores(s[1..])
    else [s[0]] + DropUnderscores(s[1..])
  }

  /** `int(s)` for decimal text: surrounding whitespace, an optional sign and
      at least one digit, with grouping underscores between digits; `None`
      where Python raises ValueError on ASCII text. */
  function ParseInt(s: string): Option<int> {
    var t := TrimEnd(TrimStart(s));
    if |t| >= 2 && t[0] == '-' && Grouped(t[1..]) then Some(0 - ParseDigits(DropUnderscores(t[1..])) as int)
    else if |t| >= 2 && t[0] == '+' && Grouped(t[1..]) then Some(ParseDigits(DropUnderscores(t[1..])))
    else if Grouped(t) then Some(ParseDigits(DropUnderscores(t)))
    else None
  }

  /** Plain decimal digits are a grouped number with nothing to drop. */
  lemma DigitsGrouped(s: string)
    requires |s| >= 1 && AllDigits(s)
    ensures Grouped(s) && DropUnderscores(s) == s
  {
  }

  /** A single grouping underscore is read as Python reads it. */
  lemma GroupingUnderscore()
    ensures ParseInt("1_0") == Some(10)
  {
    var s := "1_0";
    TrimNoSpace(s);
    assert Grouped(s);
    assert DropUnderscores(s[2..]) == "0";
    assert DropUnderscores(s[1..]) == "0";
    assert DropUnderscores(s) == "10";
    assert ParseDigits("10") == 10 by { assert "10"[..1] == "1"; }
  }

  /** Two underscores in a row, or one at either end, are a ValueError. */
  lemma MisplacedUnderscores()
    ensures ParseInt("1__0") == None && ParseInt("_1") == None && ParseInt("1_") == None
  {
    var a := "1__0";
    TrimNoSpace(a);
    assert a[1] == '_' && a[2] == '_';
    TrimNoSpace("_1");
    TrimNoSpace("1_");
  }

  /** The information separators 0x1C to 0x1F around a number are white
      space to `int()`. */
  lemma SeparatorsTrimmed()
    ensures ParseInt("\U{1C}7\U{1F}") == Some(7)
  {
    var s := "\U{1C}7\U{1F}";
    assert TrimStart(s) == "7\U{1F}" by { assert s[1..] == "7\U{1F}"; }
    assert TrimEnd("7\U{1F}") == "7" by { assert "7\U{1F}"[..1] == "7"; }
    DigitsGrouped("7");
  }

  /** `str.split()` splits on the separators 0x1C to 0x1F too. */
  lemma SeparatorsSplitWords()
    ensures Words("a\U{1D}b\U{1E}") == ["a", "b"]
  {
    var s := "a\U{1D}b\U{1E}";
    var t := "\U{1D}b\U{1E}";
    var u := "b\U{1E}";
    var v := "\U{1E}";
    assert s[1..] == t && t[1..] == u && u[1..] == v && v[1..] == "";
    assert WordLength(s) == 1 by { assert WordLength(t) == 0; }
    assert WordLength(u) == 1 by { assert WordLength(v) == 0; }
    assert Words(v) == [];
    assert Words(u) == [u[..1]] + Words(v);
    assert Words(t) == Words(u);
    assert Words(s) == [s[..1]] + Words(t);
    assert s[..1] == "a" && u[..1] == "b";
  }

  lemma {:induction false} ParseNatToString(n: nat)
    ensures ParseDigits(NatToString(n)) == n
  {
    if n >= 10 {
      var s := NatToString(n);
      assert s[..|s| - 1] == NatToString(n / 10);
      ParseNatToString(n / 10);
    }
  }

  lemma TrimNoSpace(s: string)
    requires |s| >= 1 && NoSpace(s)
    ensures TrimEnd(TrimStart(s)) == s
  {
  }

  /** The digits of a natural number read back as it. */
  lemma ParseUnsigned(n: nat)
    ensures ParseInt(NatToString(n)) == Some(n)
  {
    var s := NatToString(n);
    TrimNoSpace(s);
    assert IsDigit(s[0]);
    DigitsGrouped(s);
    ParseNatToString(n);
  }

  /** A minus sign before the digits of a natural number reads back as its
      negation. */
  lemma ParseSigned(n: nat)
    ensures ParseInt("-" + NatToString(n)) == Some(-(n as int))
  {
    var s := "-" + NatToString(n);
    TrimNoSpace(s);
    assert s[1..] == NatToString(n);
    DigitsGrouped(s[1..]);
    ParseNatToString(n);
  }

  /** `int(str(i)) == i`: the decimal text of an integer reads back as it. */
  lemma ParseIntToString(i: int)
    ensures ParseInt(IntToString(i)) == Some(i)
  {
    if i < 0 {
      ParseNegative(i);
    } else {
      ParseUnsigned(i);
    }
  }

  lemma ParseNegative(i: int)
    requires i < 0
    ensures ParseInt(IntToString(i)) == Some(i)
  {
    var n: nat := -i;
    ParseSigned(n);
    var t := "-" + NatToString(n);
    assert IntToString(i) == t;
  }
}
